=== FILE: README.md ===
# SVECTOR SDK core in Dafny

A Dafny model of the request core of the SVECTOR TypeScript SDK. The SDK ships as two
packages: the npm build under `src/` and the JSR (Deno) build under `jsr/`. The model
has one `Package = Npm | Jsr` switch wherever the two builds behave differently.

What is modelled:

- **`Errors`** (`errors.dfy`). The error taxonomy of `src/errors.ts`. It covers the
  class hierarchy as `instanceof` sees it, the fixed statuses, the default messages and
  the invariant every constructor establishes. It also covers the values that can travel
  through a `throw`: SDK errors, other `Error` objects, and non-`Error` values.
- **`ClientConfig`** (`client_config.dfy`). The `SVECTOR` constructor of both builds.
  This is the `??` and `||` option defaults, the trailing-slash normalisation of the base
  URL, the API-key lookup in the environment, and the browser safety check. The host
  runtime is an `Env` record rather than live probes.
- **`RequestEngine`** and **`RequestEngineProofs`** (`request_engine.dfy`,
  `request_engine_proofs.dfy`):
  - header assembly and body preparation;
  - the mapping from an error response to an SDK error;
  - `shouldRetry` and the exponential backoff;
  - the `request`/`withResponse` retry loop, with a recursion-free specification of its
    runs that is proved to determine the run;
  - the single-attempt `requestStream`.
- **`Sse`** (`sse.dfy`). The `parseSSEStream` decoder. It is given as a function of the
  whole text and as the chunk-by-chunk loop the source runs, and the two are proved equal
  for every chunking.
- **`Messages`**, **`Chat`** (`messages.dfy`, `chat.dfy`). The chat request shapes, the
  npm build's system-prompt normalisation, and the four chat entry points.
- **`Conversations`** (`conversations.dfy`). The message assembly of both builds, the
  answer extraction, and `transformStream`.
- **`VisionBuilder`**, **`VisionTransport`** (`vision_builder.dfy`,
  `vision_transport.dfy`). The vision resource:
  - request building for `analyze`, `compareImages` and `createResponse`;
  - the `[Confidence: N%]` marker of `analyzeWithConfidence`;
  - the npm single-shot `makeVisionRequest`;
  - the JSR failover over three endpoints with two attempts each;
  - `batchAnalyze` and its inter-request delay.

**Environment.** The network is a parameter `Network = nat -> Outcome`: attempt `k` gets
`net(k)`, either a response or a rejection. Sleeps are not performed. They are recorded
in milliseconds next to the fetch calls made, so every entry point returns its result
together with the calls and the delays.

**Library functions.** `JSON.parse`, `JSON.stringify` and the `String()` conversion of a
JSON number are uninterpreted fields of a `Lib` record.

**Status codes and headers.** Status codes are those of section 15 of RFC 9110, plus the
CDN-specific 524. The bearer header is the one of section 2.1 of RFC 6750.

**Where the code and its comments or documentation disagree, the model follows the code.**

- npm `request`: 429 and 5xx responses become `RateLimitError` and `InternalServerError`.
  These are siblings of `APIError`, not subclasses, so the `err instanceof APIError` test
  fails for them. In effect only 408 and 409 responses are retried (`NpmRetriesOnly408And409`).
- Any non-timeout failure on the attempt numbered `maxRetries` is reported as
  `APIConnectionError('Max retries exceeded')`. So with `maxRetries: 0`, a 401 does not
  surface as an `AuthenticationError` (`ZeroBudgetMasksAuthentication`).
- The final `throw new APIConnectionError('Unexpected error')` is reachable. It fires
  exactly when the resolved `maxRetries` is negative (`NoCallIffNegativeBudget`).
- `normalizeSystemContent("")` returns `""`, not the default prompt.
- An error body that parses to `null` makes `data.message` throw a TypeError before the
  status switch.
- JSR `makeVisionRequest`: the comment says 4xx errors are not retried. In the code, the
  4xx `throw` is caught by its own `catch`, so the failover moves on (`ClientErrorIsRetried`).
- The `analyze` validation error is thrown outside the `try`, so it carries no
  `Vision analysis failed: ` prefix.
- `batchAnalyze` waits only after a success: the delay sits inside the `try`, after the
  result is pushed.
- The vision defaults use `||`, so an explicit `temperature: 0` becomes 0.7 and
  `max_tokens: 0` becomes 1000 (`FalsyValuesReplaced`).
- The JSR `compareImages` reads `response.choices[0]` without `?.`. An answer without
  `choices` therefore fails instead of reporting "No analysis generated" (`MissingChoicesDiffer`).
- npm `conversations`: absent instructions still send the default system prompt.

## Model

| member | source | states |
|---|---|---|
| Errors.OnlyApiIsApiError | src/errors.ts:22-113 | `instanceof APIError` holds only of APIError itself; `instanceof APIConnectionError` holds exactly of the connection and timeout errors |
| Errors.NewApiError | src/errors.ts:22-32 | an APIError keeps whatever status it is given and is well formed |
| Errors.NewFixed | src/errors.ts:34-87 | the five status-specific classes carry their fixed 4xx status and fall back to their default message |
| Errors.NewInternalServer | src/errors.ts:89-99 | an InternalServerError always has a status, 500 unless one is given |
| Errors.NewConnection | src/errors.ts:101-113 | connection errors carry no status, request id or headers; the timeout error is an APIConnectionError too |
| ClientConfig.StripTrailingSlashes | src/client.ts:67 | the result is a prefix of the input that no longer ends in `/`, and only slashes were removed |
| ClientConfig.StripTrailingSlashesIdempotent | src/client.ts:67 | normalising a normalised base URL changes nothing |
| ClientConfig.StripAppendedSlashes | src/client.ts:67 | any number of slashes appended to a slash-free URL is removed exactly |
| ClientConfig.ResolveBaseUrl | src/client.ts:67 | the stored base URL is never empty and never ends in `/`; it is the stripped option when that is non-empty, otherwise `https://spec-chat.tech` |
| ClientConfig.ResolveBaseUrlStable | src/client.ts:67 | a stored base URL passed back as the option is stored unchanged |
| ClientConfig.KeyFromEnv | jsr/client.ts:58-73 | the JSR lookup never throws: it reads `Deno.env` first, then `process.env`, and a failing read or a runtime with neither store gives `''`; the npm lookup gives `process.env`'s value or `''`, gives `''` without `process`, and lets a throwing read escape |
| ClientConfig.BrowserBlockedExactly | src/client.ts:142-171 | the npm check throws exactly on a page with `window` and `document`, outside edge runtimes and Deno, without the opt-in; JSR throws whenever `window` exists without the opt-in |
| ClientConfig.Construct | src/client.ts:65-88 | a failing environment read is rethrown; a missing npm fetch gives the fetch error; with a key and fetch resolved, construction succeeds exactly when the browser check passes and fails with the browser message otherwise; a constructed client has a non-empty key, the normalised base URL, `maxRetries ?? 2`, `timeout ?? 600000` |
| ClientConfig.MissingKeyIsAuthentication | src/client.ts:73-77 | construction fails with an AuthenticationError exactly when neither the option nor the environment gives a key |
| ClientConfig.ExplicitZeroKept | src/client.ts:68-69 | explicit `maxRetries: 0` and `timeout: 0` survive the `??` defaults |
| RequestEngine.PrepareBody | src/client.ts:389-393 | no payload exactly for a falsy body; a form is sent as is; anything else is its JSON text |
| RequestEngine.BuildHeaders | src/client.ts:374-387 | the header keys are the caller's plus Authorization, User-Agent and, only for a truthy non-form body without either Content-Type spelling, `application/json`; the caller's values win |
| RequestEngine.PlanCall | src/client.ts:176-208 | the fetch call targets `baseURL + path` with the query in order, uses the per-call timeout over the client's and the prepared body; its headers are `buildHeaders`' headers, and when streaming the same headers with `Accept: text/event-stream` added or overriding |
| RequestEngine.FirstTruthy | src/client.ts:404 | a message field is found exactly when one of the consulted fields is truthy, and the value found is truthy |
| RequestEngine.CreateError | src/client.ts:403-435 | an error object is built exactly when the body is not `null`; it is well formed, its kind is the status table's (401/403/404/422/429/5xx/other), its status is the response's, and the npm fixed messages are used for 405/502/503/504/524 |
| RequestEngineProofs.ErrorMessageFields | src/client.ts:404 | for statuses without a fixed message the message is the first truthy of `message`, `error`, then (npm only) `detail`, converted to a string, else `HTTP <status>` |
| RequestEngineProofs.UnparsedBodyUsesStatusText | src/client.ts:395-404 | a body that is not JSON makes the status text the message, or `HTTP <status>` when the status text is empty |
| RequestEngine.RequestCtx | src/client.ts:192-193 | the loop uses the per-call `maxRetries` and `timeout`, falling back to the client's |
| RequestEngine.RequestStream | src/client.ts:251-297 | one attempt on the streaming call PlanCall plans; it succeeds exactly on a 2xx response, which is returned as is; an abort becomes the timeout error; any other rejection is rethrown unchanged; an error response becomes CreateError's error of its status (or the TypeError of a `null` body) |
| RequestEngineProofs.LoopMeetsSpec | src/client.ts:196-245 | every run of the retry loop makes 1 to `maxRetries + 1` identical calls, sleeps 2^k s (capped at 8 s) between them, every attempt but the last was retried, and the last decides the result |
| RequestEngineProofs.ValidRunUnique | src/client.ts:196-245 | the loop specification determines the run completely |
| RequestEngineProofs.NotRetriedAndDecided | src/client.ts:226-241 | an attempt that ends the loop was not retried, and fixes the result |
| RequestEngineProofs.RequestMeetsSpec | src/client.ts:176-246 | `request`/`withResponse` meet the loop specification on the call they planned |
| RequestEngineProofs.NoCallIffNegativeBudget | src/client.ts:196-245 | no fetch call is made exactly when `maxRetries` is negative, and then the result is `APIConnectionError('Unexpected error')` |
| RequestEngineProofs.ShouldRetryExactly | src/client.ts:437-443 | `shouldRetry` holds exactly when retries remain and the status is 408, 409, 429 or at least 500, in both builds |
| RequestEngineProofs.NpmRetriesOnly408And409 | src/client.ts:231 | in the npm build an error response is retried exactly when it is a 408 or 409 with a non-null body and retries remain |
| RequestEngineProofs.NpmRetriedAttempts | src/client.ts:226-235 | with a platform fetch, every retried npm attempt was a 408 or 409 response |
| RequestEngineProofs.AbortEndsLoop | src/client.ts:227-229 | an abort is never retried; it ends the loop with an APIConnectionTimeoutError |
| RequestEngineProofs.LastAttemptReportsMaxRetries | src/client.ts:237-239 | a non-timeout failure on the attempt numbered `maxRetries` is reported as `Max retries exceeded` |
| RequestEngineProofs.ZeroBudgetMasksAuthentication | src/client.ts:237-239 | with `maxRetries: 0` a 401 makes one call and surfaces as `Max retries exceeded` |
| RequestEngineProofs.DefaultBudgetKeepsAuthentication | src/client.ts:231-241 | with the default budget a 401 makes one call and is rethrown as an AuthenticationError with status 401 |
| RequestEngineProofs.BackoffSchedule | src/client.ts:445-448 | the delays are 2000, 4000, then 8000 ms for every later retry |
| RequestEngineProofs.AttachRequestIdRead | src/client.ts:219-223 | `_request_id` is attached exactly to object payloads when the header is non-empty, and reads back as the header |
| RequestEngineProofs.SuccessIsOk | src/client.ts:212-225 | a successful result came from a 2xx response to the last call |
| Sse.LineEvent | src/api/chat.ts:172-185 | a line yields an event exactly when its trim is a `data: ` line other than the sentinel whose payload parses, and the event is that parse |
| Sse.EventsAppend | src/api/chat.ts:172-186 | the events of consecutive blocks of lines concatenate |
| Sse.SplitAfterText | src/api/chat.ts:168-170 | splitting a text followed by a chunk gives the text's complete lines and then the split of its tail with the chunk |
| Sse.FeedStep | src/api/chat.ts:165-186 | one read from the state a text leaves gives the state of the longer text |
| Sse.ChunkingInvariant | src/api/chat.ts:164-187 | after any chunking the decoder holds the unterminated tail and the events of the complete lines of the concatenated text |
| Sse.SameTextSameEvents | src/api/chat.ts:164-187 | two chunkings of the same text yield the same events |
| Sse.UnterminatedLineDropped | src/api/chat.ts:166-170 | a final piece without a newline never yields an event |
| Sse.OneLine | src/api/chat.ts:169-185 | a single newline-terminated line yields exactly its own event |
| Sse.DoneIsNotTerminator | src/api/chat.ts:174 | the `data: [DONE]` line is skipped and the lines after it are still processed |
| Sse.DoneLineYieldsNothing | src/api/chat.ts:174 | the sentinel line yields no event |
| Sse.ParseStream | src/api/chat.ts:154-191 | a missing body is the `No response body for streaming` error; otherwise the events of the complete lines of the body text |
| Sse.ProcessLines | src/api/chat.ts:172-186 | the inner loop appends exactly the events of the lines to those before |
| Sse.ReadStream | jsr/api/chat.ts:96-120 | the buffered reader loop yields the events of the complete lines of the whole text |
| Chat.WrappedText | src/api/chat.ts:78-80 | the unwrapped field, when found, is truthy |
| Chat.NormalizeSystemContent | src/api/chat.ts:61-92 | strings pass through unchanged (even empty), objects unwrap a truthy `content`/`text`/`value` or are serialised, other truthy values are converted, falsy ones give the default prompt |
| Chat.ProcessSystemPrompts | src/api/chat.ts:38-56 | only system messages change, and only in their content, which becomes the normalised string; the message count and other fields are kept |
| Chat.SystemContentIsString | src/api/chat.ts:42-50 | after processing every system message holds a string |
| Chat.ProcessIdempotent | src/api/chat.ts:38-56 | processing a processed request changes nothing |
| Chat.EmptySystemPromptKept | src/api/chat.ts:62-64 | `""` is kept and `null` becomes the default prompt |
| Chat.Completion | src/api/chat.ts:16-33 | a truthy `stream` is rejected before any call; otherwise the request loop runs POSTs of the request as sent to `/api/chat/completions` |
| Chat.Create | src/api/chat.ts:16-33 | a streaming request is refused with `Use createStream()` before any call; otherwise the run is the retry loop's run (ValidRun) on POST `/api/chat/completions` with the request sent, which is normalised in the npm build and as given in the JSR build |
| Chat.CreateWithResponse | src/api/chat.ts:118-132 | a streaming request is refused before any call; otherwise the run is the retry loop's run (ValidRun) on the request as given, unnormalised in both builds |
| Chat.CreateStream | src/api/chat.ts:98-113 | the streaming call carries the (npm: normalised) request with `stream: true`; the call resolves exactly on a 2xx response, to a stream that reads as the decoded events of its complete lines, or fails with the no-body error when the response has no body; a failed request passes its error on |
| Chat.CreateStreamWithResponse | src/api/chat.ts:137-152 | the streaming call carries the unnormalised request with `stream: true`; a 2xx response is returned together with its decoded stream; a failed request passes its error on |
| Chat.StreamSendsSameMessages | src/api/chat.ts:103-108 | the streaming request sends the same messages as `create`, with `stream: true` |
| Conversations.NormalizeInstructions | src/api/conversations.ts:107-138 | absent instructions give the default prompt; present ones are normalised as chat system content |
| Conversations.FinalInstructions | src/api/conversations.ts:151 | the `||` fallback recomputes the same normalisation |
| Conversations.NpmContext | src/api/conversations.ts:160-169 | every context entry is kept in order with roles alternating user/assistant from the first |
| Conversations.SendsSystemIffNotBlank | src/api/conversations.ts:152 | the system message is sent exactly when the instructions are not blank after trimming |
| Conversations.Assemble | src/api/conversations.ts:144-178 | the list is the system message when not blank, then the context, then the user input last |
| Conversations.NpmMessages | src/api/conversations.ts:144-178 | the npm build's list has that shape for the final instructions |
| Conversations.AbsentInstructionsGiveDefault | src/api/conversations.ts:24 | without instructions the npm build still opens with the default system prompt |
| Conversations.NpmContextAlternates | src/api/conversations.ts:163 | neighbouring context messages never share a role |
| Conversations.JsrContext | jsr/api/conversations.ts:113-125 | the JSR build keeps exactly as many entries as are truthy, and every kept content is truthy |
| Conversations.ContextsAgreeWhenTruthy | jsr/api/conversations.ts:113-125 | with no falsy entry the two builds assemble the same context |
| Conversations.JsrContextSound | jsr/api/conversations.ts:114-123 | every kept entry is some context entry with the role its original position gives |
| Conversations.JsrContextComplete | jsr/api/conversations.ts:113-125 | one message per truthy entry, and truthy entry `i` sits at the position counted by the truthy entries before it, with its original position's role |
| Conversations.CountTruthyGrows | jsr/api/conversations.ts:114-123 | a truthy entry is counted before every later position, so kept entries keep their order |
| Conversations.JsrContextKeepsOrder | jsr/api/conversations.ts:113-125 | two truthy entries appear in the JSR context in their original order |
| Conversations.JsrRolesMayRepeat | jsr/api/conversations.ts:113-125 | skipping a falsy entry keeps the original positions' roles, so two user messages can be adjacent |
| Conversations.CollectContext | jsr/api/conversations.ts:113-125 | the JSR `for` loop computes the filtered context |
| Conversations.JsrMessages | jsr/api/conversations.ts:101-134 | the JSR list is a system message for truthy instructions, then exactly the filtered context, then the input last |
| Conversations.BuildsAgree | jsr/api/conversations.ts:101-134 | for non-blank string instructions and a context without falsy entries both builds send the same messages |
| Conversations.ConversationAlreadyNormal | src/api/conversations.ts:29-38 | the chat layer's system-prompt normalisation leaves a conversation's request unchanged |
| Conversations.NpmMessagesNormal | src/api/conversations.ts:144-178 | every assembled npm message is a fixed point of the chat normalisation |
| Conversations.ExtractOutput | src/api/conversations.ts:42 | the output is the first choice's `message.content` when truthy, otherwise `""`; reading `choices` of `null` or `[0]` of a missing `choices` throws a TypeError |
| Conversations.Create | src/api/conversations.ts:19-46 | the run is the retry loop's run (ValidRun) on the conversation's chat request with `stream: false`; the caller's result is Answer of that run's result, so it exists exactly when the chat call succeeds and its output can be read, and then the output is ExtractOutput of the chat body |
| Conversations.Answer | src/api/conversations.ts:94-101 | a failed chat call or a failed read passes its error on; otherwise the result holds ExtractOutput's output, the body's `usage`, the `_request_id` read back, and the response |
| Conversations.EventChunk | src/api/conversations.ts:186-197 | an event fails exactly when it is `null`; truthy delta content of the first choice yields a content chunk even when a finish reason is present; otherwise a truthy finish reason yields the empty `done` chunk; otherwise nothing |
| Conversations.Step | src/api/conversations.ts:186-197 | one event yields at most one chunk, and yields none when it breaks the stream |
| Conversations.Transform | src/api/conversations.ts:183-199 | a stream yields at most one chunk per event |
| Conversations.TransformAppend | src/api/conversations.ts:183-199 | transforming a longer stream only extends the chunks of its prefix |
| Conversations.TransformNoFailure | src/api/conversations.ts:186-197 | a stream without `null` events never breaks off |
| Conversations.CreateStream | src/api/conversations.ts:51-71 | the streaming call carries the conversation's request with `stream: true`; the call resolves exactly on a 2xx response, to a stream that reads as `transformStream` of the decoded events, or fails with the no-body error when the response has no body; otherwise the chat stream's error is passed on unchanged |
| Conversations.StreamingRequestAsBuilt | src/api/conversations.ts:58-67 | the chat layer's `{...params, stream: true}` and normalisation leave the streaming request as built |
| VisionBuilder.IntOr | src/api/vision.ts:121-122 | `n || d`: a present non-zero number is kept, zero or absent gives the default |
| VisionBuilder.RealOr | src/api/vision.ts:121-122 | the same `||` default for the temperature |
| VisionBuilder.SourceOf | src/api/vision.ts:73-111 | the source is the first present of URL, base64, file id, and none exactly when all are empty |
| VisionBuilder.DataUrl | src/api/vision.ts:91-93 | the result is a data URL; one given as a data URL is kept, other base64 gets the JPEG prefix |
| VisionBuilder.DataUrlIdempotent | src/api/vision.ts:91-93 | prefixing happens at most once |
| VisionBuilder.VisionChatJson | src/api/vision.ts:114-122 | the sent object has exactly model, messages, max_tokens and temperature, with one user message holding the content |
| VisionBuilder.BuildAnalyze | src/api/vision.ts:61-122 | validation fails exactly when no source is present; otherwise the prompt part comes first and the image part of the first present source follows |
| VisionBuilder.FalsyValuesReplaced | src/api/vision.ts:73-122 | explicit empty prompt, detail and model and zero numbers are replaced by the defaults |
| VisionBuilder.EmptySourcesIgnored | src/api/vision.ts:68-70 | an empty source counts as missing and the next present one is used |
| VisionBuilder.ImageParts | src/api/vision.ts:224-253 | at most one part per image |
| VisionBuilder.ImagePartsAppend | src/api/vision.ts:224-253 | the parts of consecutive image lists concatenate |
| VisionBuilder.SourcelessImageSkipped | src/api/vision.ts:224-253 | removing an image without a source leaves the parts unchanged |
| VisionBuilder.EachSourcedImageOnePart | src/api/vision.ts:224-253 | when every image has a source there is one part per image, in order |
| VisionBuilder.BuildCompare | src/api/vision.ts:202-264 | the prompt part comes first, then the image parts; model, tokens and temperature take their `||` defaults |
| VisionBuilder.CompareContent | src/api/vision.ts:218-253 | the loop pushes exactly the prompt part and then the image parts |
| VisionBuilder.FirstUser | src/api/vision.ts:366 | the index of the first user message, and none exactly when there is no user message |
| VisionBuilder.LastWritten | src/api/vision.ts:374-389 | a field is unset exactly when no part writes it, and otherwise holds a value some part wrote |
| VisionBuilder.Accumulated | src/api/vision.ts:374-377 | the accumulated prompt is empty exactly when there is no text part |
| VisionBuilder.ExtractLoop | src/api/vision.ts:372-389 | the extraction loop computes the last-written fields and the accumulated prompt |
| VisionBuilder.BuildResponseRequest | src/api/vision.ts:352-400 | the call fails with `User message is required` exactly when no message has the user role |
| VisionBuilder.NoTextGivesDefaultPrompt | src/api/vision.ts:374-392 | a user message without text parts sends an empty prompt, which `analyze` replaces by its default |
| VisionBuilder.DataUrlPartKept | src/api/vision.ts:379-383 | a `data:` URL image is sent as base64 data and reaches the wire unchanged |
| VisionBuilder.ConfidencePrompt | src/api/vision.ts:466-470 | the prompt sent always ends with the confidence instruction |
| VisionBuilder.FirstMatch | src/api/vision.ts:475 | the leftmost position where `/\[Confidence:\s*(\d+)%\]/` matches, and none exactly when it matches nowhere |
| VisionBuilder.ExtractConfidence | src/api/vision.ts:475-482 | no score exactly when the marker is absent, and then the text is only trimmed |
| VisionBuilder.MarkerMatches | src/api/vision.ts:475 | the marker with a decimal score matches where it is placed |
| VisionBuilder.ConfidenceRoundTrip | src/api/vision.ts:475-482 | a marker placed after text without `[` reads back its score and is removed from the trimmed text |
| VisionBuilder.NoMarkerNoScore | src/api/vision.ts:475-482 | text without `[` gives no score and is only trimmed |
| VisionTransport.VisionHeaders | jsr/api/vision.ts:30-34 | Authorization and Content-Type plus the caller's headers, which win |
| VisionTransport.VisionTimeout | jsr/api/vision.ts:37 | the timeout is never zero: a non-zero option is kept, otherwise 60000 |
| VisionTransport.WrapFailure | src/api/vision.ts:49-54 | every npm failure is an `Error` with the `Vision API request failed: ` prefix |
| VisionTransport.SingleShot | src/api/vision.ts:35-54 | one attempt succeeds exactly on a 2xx with a JSON body; a failed status reports `HTTP <status>: <text>` under the prefix |
| VisionTransport.Caught | jsr/api/vision.ts:85-102 | the `catch` throws only on the last attempt, waits `min(1000 * 2^retry, 10000)` on aborts and `fetch` errors otherwise, and never returns |
| VisionTransport.FailoverStep | jsr/api/vision.ts:42-102 | an attempt returns exactly on a 2xx with a JSON body; it throws only on the last attempt, with a message starting `Vision API request failed: `; a 5xx before the last attempt moves on at once; the last attempt stops unless a value that is not an `Error` was thrown |
| VisionTransport.FailoverSpec | jsr/api/vision.ts:40-106 | the failover makes consecutive attempts until one stops or all six ran, with the calls to the right endpoints and the delays the `catch` asked for |
| VisionTransport.ExhaustedOnlyOnNonError | jsr/api/vision.ts:85-106 | the failover throws `Vision API request failed after multiple retries` only after all six attempts, when the last one threw a value that is not an `Error` |
| VisionTransport.OnlyLastAttemptThrows | jsr/api/vision.ts:85-102 | only the sixth attempt throws; earlier waits are 1 s or 2 s |
| VisionTransport.ClientErrorIsRetried | jsr/api/vision.ts:55-61 | a 4xx before the last attempt does not end the failover |
| VisionTransport.NotFoundThenSuccess | jsr/api/vision.ts:40-83 | a 404 then a success gives the success after two calls to the client's base URL, without delay |
| VisionTransport.AllServerErrors | jsr/api/vision.ts:64-74 | six server errors make six calls without delay and report the last status |
| VisionTransport.AllNonErrorsExhaust | jsr/api/vision.ts:89-106 | six non-`Error` rejections run the loop out to `failed after multiple retries` |
| VisionTransport.FailoverErrorsPrefixed | jsr/api/vision.ts:98-106 | every failover error carries the `Vision API request failed` stem |
| VisionTransport.MakeVisionRequest | jsr/api/vision.ts:18-107 | the npm build makes one attempt, the JSR build meets the failover specification; every call sends the same body and timeout |
| VisionTransport.ReadAnalysis | jsr/api/vision.ts:172-177 | the analysis is the first choice's `message.content` when truthy, otherwise `No analysis generated`, with the body's `usage` and `_request_id`; reading fails with a TypeError exactly on a `null` answer or, for `choices[0]`, a missing `choices` |
| VisionTransport.CallAndRead | src/api/vision.ts:124-136 | failures of the call or of the reading are rethrown under the entry point's prefix |
| VisionTransport.Analyze | src/api/vision.ts:61-137 | invalid input fails before any call without a prefix; otherwise each call sends the built request, the calls and waits are those of the vision request, a success is exactly ReadAnalysis of its answer, and every failure carries `Vision analysis failed: `; on valid input the result is CallAndRead's, so a failure is that prefix followed by the caught message |
| VisionTransport.NpmAnalyzeHttpFailure | src/api/vision.ts:43-51 | an npm HTTP failure reaches the caller under both prefixes |
| VisionTransport.Compare | jsr/api/vision.ts:247-323 | each call sends the built comparison with the default timeout; the calls and waits are those of the vision request, a success is exactly ReadAnalysis of its answer (strict `choices[0]` in the JSR build), and failures carry `Image comparison failed: `; the result is CallAndRead's, so a failure is that prefix followed by the caught message |
| VisionTransport.MissingChoicesDiffer | jsr/api/vision.ts:315 | on an answer without `choices` the npm reading reports no analysis while the JSR `compareImages` reading throws |
| VisionTransport.CreateResponse | jsr/api/vision.ts:396-447 | a missing user message fails before any call; otherwise the result is that of `analyze` with the analysis as `output_text` |
| VisionTransport.ItemOf | src/api/vision.ts:436-455 | a batch item has an error exactly when its analysis failed; then the analysis is empty, there is no usage, and the error is the thrown message (`Unknown error` for a non-Error); a success keeps its analysis and usage |
| VisionTransport.BatchAnalyze | src/api/vision.ts:408-457 | one item per image in order; a failure is recorded in its item, with its message, without stopping the batch; a success records its analysis and usage |
| VisionTransport.CollectLoop | src/api/vision.ts:426-455 | the loop collects the items and delays of the batch |
| VisionTransport.NpmAnalyzeNeverWaits | src/api/vision.ts:19-55 | the npm `analyze` never waits |
| VisionTransport.NpmFailingBatchNeverWaits | src/api/vision.ts:443-447 | a batch whose every image fails never waits |
| VisionTransport.NpmSucceedingBatchWaits | src/api/vision.ts:424-447 | a batch whose every image succeeds waits the configured delay between images, not after the last |
| VisionTransport.AnalyzeWithConfidence | src/api/vision.ts:462-486 | the analysis runs with the confidence prompt; a string answer has its marker read out and removed; a non-string answer throws |
| VisionTransport.ConfidencePromptSent | src/api/vision.ts:466-470 | the request sent for a valid input opens with the prompt that asks for the marker |
| VisionTransport.ScoreReadBack | src/api/vision.ts:475-482 | an answer carrying the marker yields its score and the trimmed text without it |

## Left out

- PlanCall: `new URL(baseURL + path)` is not parsed. The source throws a TypeError before any fetch when the concatenation is not a valid URL, and the constructor accepts any base URL, so that failure is reachable; the model keeps the raw concatenation and never fails there.
- PlanCall: the query is kept as the given list of pairs. The percent-encoding of `searchParams.append` and the order of `Object.entries` (integer-like keys first) are not modelled.
- PlanCall: header names are compared as written. The Fetch `Headers` object's case-insensitive merging (a caller's `accept` next to the forced `Accept`) is not modelled.
- MakeVisionRequest: the range check of `AbortSignal.timeout` in the npm build is not modelled. A negative `timeout`, or one the runtime rejects as too large, throws before any fetch; the source then reports it under the vision prefixes, while the model records one call and its outcome. The JSR build uses `setTimeout`, which has no such check.
- I/O is not performed. `fetch`, timers, `AbortController` and the response body reader are replaced by the `Network` parameter and by recorded delays. A timeout is represented by the rejection it causes: an `AbortError` from the request engine's and the JSR vision request's `AbortController`, or a `TimeoutError` from the npm vision request's `AbortSignal.timeout`. The model handles the second like any other rejection, as the source does.
- Runtime probing is not modelled. `typeof window`, `globalThis.Deno`, `EdgeRuntime`, `importScripts` and the `node-fetch` lookup become the booleans of `Env`.
- Function-valued system prompts and instructions are left out, because JSON values cannot hold functions. This includes their `console.warn` fallback.
- Library parsers are uninterpreted. `JSON.parse`, `JSON.stringify` and the rendering of non-integer numbers are fields of `Lib`, including the `String()` fallback when stringify throws.
- `TextDecoder` is left out: chunks arrive as decoded text.
- `reader.releaseLock()` in the decoder's `finally` is left out, because releasing the lock does not change the events or the error.
- Conversations.Create: `createWithResponse` is modelled by the same member with a flag; the copied `usage` and `_request_id` are stated by Conversations.Answer.
- The thin vision wrappers are not modelled separately. `analyzeFromUrl`, `analyzeFromBase64`, `analyzeFromFileId`, `extractText`, `describeForAccessibility`, `detectObjects`, `generateCaption` and the legacy `vision.create` only fix a prompt or a source before calling `analyze`.
- Temperatures are reals and `max_tokens` integers. Floating-point rounding is not modelled.
- VisionBuilder.ExtractConfidence: `parseInt` is exact; JavaScript loses precision above 2^53.
- `maxRetries` and `timeout` are integers. Non-integer values, which the `<=` loop test would accept, are left out.
- jsr/errors.ts is not part of this model. The JSR retry loop takes its `instanceof APIError` test as a parameter.
- The Files, Models and Knowledge resources and `src/utils.ts` are outside the core.
- The generic `get`, `post`, `put` and `delete` helpers are not modelled separately: each only calls `request` with a fixed verb.
- Console output is not modelled, because it does not affect results. This covers the progress line of `batchAnalyze` and the warnings of the normalisers.

=== FILE: chat.dfy ===
/** The chat-completions resource of src/api/chat.ts and jsr/api/chat.ts:
    the streaming guard of `create`/`createWithResponse`, the npm build's
    system-prompt normalisation, and the four entry points in terms of the
    request engine and the SSE decoder. */
module Chat {
  import opened Common
  import opened Js
  import opened Errors
  import opened Transport
  import opened ClientConfig
  import opened RequestEngine
  import opened RequestEngineProofs
  import opened Sse
  import opened Messages

  const CompletionsPath: string := "/api/chat/completions"
  const DefaultSystemPrompt: string := "You are a helpful assistant."
  const UseCreateStream: string := "Use createStream() for streaming responses"
  const UseCreateStreamWithResponse: string := "Use createStreamWithResponse() for streaming responses"

  // ---------------------------------------------------------------------
  // System prompts (npm build)
  // ---------------------------------------------------------------------

  /** The first truthy of `content.content`, `content.text`, `content.value`. */
  function WrappedText(c: Json): (r: Option<Json>)
    ensures r.Some? ==> Truthy(r.value)
  {
    if TruthyOpt(Prop(c, Name("content"))) then Prop(c, Name("content"))
    else if TruthyOpt(Prop(c, Name("text"))) then Prop(c, Name("text"))
    else if TruthyOpt(Prop(c, Name("value"))) then Prop(c, Name("value"))
    else None
  }

  /** `normalizeSystemContent(content)` for JSON content: strings pass
      through (even the empty one), objects unwrap a truthy
      `content`/`text`/`value` or are serialised, other truthy values are
      converted with `String()`, and falsy ones give the default prompt. */
  function NormalizeSystemContent(lib: Lib, c: Json): (r: string)
    ensures c.JStr? ==> r == c.s
    ensures !c.JStr? && !Truthy(c) ==> r == DefaultSystemPrompt
    ensures IsObject(c) && WrappedText(c).Some? ==> r == JsString(lib, WrappedText(c).value)
    ensures IsObject(c) && WrappedText(c).None? ==> r == lib.stringify(c)
    ensures (c.JBool? || c.JNum?) && Truthy(c) ==> r == JsString(lib, c)
  {
    if c.JStr? then c.s
    else if IsObject(c) then
      var w := WrappedText(c);
      if w.Some? then JsString(lib, w.value) else lib.stringify(c)
    else if Truthy(c) then JsString(lib, c)
    else DefaultSystemPrompt
  }

  function NormalizeMessage(lib: Lib, m: ChatMessage): ChatMessage {
    if m.role == RoleSystem then m.(content := JStr(NormalizeSystemContent(lib, m.content))) else m
  }

  /** `processSystemPrompts(params)`: every system message gets string
      content; every other message and every other field is kept. */
  function ProcessSystemPrompts(lib: Lib, req: ChatRequest): (r: ChatRequest)
    ensures |r.messages| == |req.messages|
    ensures r.stream == req.stream && r.others == req.others
    ensures forall i :: 0 <= i < |r.messages| ==>
      && r.messages[i].role == req.messages[i].role
      && r.messages[i].others == req.messages[i].others
      && (req.messages[i].role != RoleSystem ==> r.messages[i] == req.messages[i])
      && (req.messages[i].role == RoleSystem ==>
            r.messages[i].content == JStr(NormalizeSystemContent(lib, req.messages[i].content)))
  {
    req.(messages := seq(|req.messages|, i requires 0 <= i < |req.messages| => NormalizeMessage(lib, req.messages[i])))
  }

  /** After processing, every system message carries string content. */
  lemma SystemContentIsString(lib: Lib, req: ChatRequest)
    ensures var r := ProcessSystemPrompts(lib, req);
      forall i :: 0 <= i < |r.messages| && r.messages[i].role == RoleSystem ==> r.messages[i].content.JStr?
  {
  }

  /** Processing is idempotent: a processed request is left as it is. */
  lemma ProcessIdempotent(lib: Lib, req: ChatRequest)
    ensures ProcessSystemPrompts(lib, ProcessSystemPrompts(lib, req)) == ProcessSystemPrompts(lib, req)
  {
    var once := ProcessSystemPrompts(lib, req);
    var twice := ProcessSystemPrompts(lib, once);
    assert twice.messages == once.messages;
  }

  /** The empty string is kept, not replaced by the default prompt. */
  lemma EmptySystemPromptKept(lib: Lib)
    ensures NormalizeSystemContent(lib, JStr("")) == ""
    ensures NormalizeSystemContent(lib, JNull) == DefaultSystemPrompt
  {
  }

  /** What each entry point sends: the npm build normalises system prompts
      in `create` and `createStream` only; the JSR build never does. */
  function Sent(p: Package, lib: Lib, req: ChatRequest, normalises: bool): ChatRequest {
    if p == Npm && normalises then ProcessSystemPrompts(lib, req) else req
  }

  // ---------------------------------------------------------------------
  // Entry points
  // ---------------------------------------------------------------------

  /** The shared shape of `create` and `createWithResponse`: reject a truthy
      `stream` before any call, otherwise run the request loop on the
      request as sent. */
  function Completion(p: Package, lib: Lib, isApi: Kind -> bool, c: Client, req: ChatRequest,
                      opts: RequestOptions, net: Network, normalises: bool, hint: string): (r: Run)
    ensures TruthyOpt(req.stream) ==> r == Run(Err(PlainError(hint)), [], [])
    ensures !TruthyOpt(req.stream) ==>
      var body := RequestJson(Sent(p, lib, req, normalises));
      && ValidRun(RequestCtx(p, lib, isApi, c, "POST", CompletionsPath, Value(body), opts), net, r)
      && forall i :: 0 <= i < |r.calls| ==>
           && r.calls[i].verb == "POST"
           && r.calls[i].url.href == c.baseURL + CompletionsPath
           && r.calls[i].body == TextPayload(lib.stringify(body))
  {
    if TruthyOpt(req.stream) then Run(Err(PlainError(hint)), [], [])
    else
      var body := Value(RequestJson(Sent(p, lib, req, normalises)));
      LoopMeetsSpec(RequestCtx(p, lib, isApi, c, "POST", CompletionsPath, body, opts), net);
      Request(p, lib, isApi, c, "POST", CompletionsPath, body, opts, net)
  }

  /** `chat.create(params, options)`. */
  function Create(p: Package, lib: Lib, isApi: Kind -> bool, c: Client, req: ChatRequest,
                  opts: RequestOptions, net: Network): (r: Run)
    ensures TruthyOpt(req.stream) ==> r.calls == [] && r.result == Err(PlainError(UseCreateStream))
    ensures !TruthyOpt(req.stream) ==> forall i :: 0 <= i < |r.calls| ==>
      r.calls[i].body == TextPayload(lib.stringify(RequestJson(Sent(p, lib, req, true))))
    ensures !TruthyOpt(req.stream) ==>
      ValidRun(RequestCtx(p, lib, isApi, c, "POST", CompletionsPath, Value(RequestJson(Sent(p, lib, req, true))), opts), net, r)
  {
    Completion(p, lib, isApi, c, req, opts, net, true, UseCreateStream)
  }

  /** `chat.createWithResponse(params, options)`: no normalisation in either
      build. */
  function CreateWithResponse(p: Package, lib: Lib, isApi: Kind -> bool, c: Client, req: ChatRequest,
                              opts: RequestOptions, net: Network): (r: Run)
    ensures TruthyOpt(req.stream) ==> r.calls == [] && r.result == Err(PlainError(UseCreateStreamWithResponse))
    ensures !TruthyOpt(req.stream) ==> forall i :: 0 <= i < |r.calls| ==>
      r.calls[i].body == TextPayload(lib.stringify(RequestJson(req)))
    ensures !TruthyOpt(req.stream) ==>
      ValidRun(RequestCtx(p, lib, isApi, c, "POST", CompletionsPath, Value(RequestJson(req)), opts), net, r)
  {
    Completion(p, lib, isApi, c, req, opts, net, false, UseCreateStreamWithResponse)
  }

  /** `{...params, stream: true}`. */
  function Streaming(req: ChatRequest): ChatRequest {
    req.(stream := Some(JBool(true)))
  }

  /** `chat.createStream(params, options)`: one streaming request (the JSR
      build sends the messages unprocessed). `parseSSEStream` is an async
      generator, so any 2xx response resolves the call to its event stream;
      a missing body is reported only when that stream is first read. */
  function CreateStream(p: Package, lib: Lib, c: Client, req: ChatRequest,
                        opts: RequestOptions, outcome: Outcome): (r: (Call, Result<Result<seq<Json>, Thrown>, Thrown>))
    ensures r.0.body == TextPayload(lib.stringify(RequestJson(Streaming(Sent(p, lib, req, true)))))
    ensures r.0 == PlanCall(lib, c, "POST", CompletionsPath,
                            Value(RequestJson(Streaming(Sent(p, lib, req, true)))), opts, true)
    ensures r.1.Ok? <==> outcome.Responded? && IsOk(outcome.response)
    ensures r.1.Ok? && outcome.response.body.Some? ==>
      r.1.value == Ok(Events(lib, CompleteLines(Text(outcome.response))))
    ensures r.1.Ok? && outcome.response.body.None? ==> r.1.value == Err(PlainError(NoBodyMessage))
    ensures !(outcome.Responded? && IsOk(outcome.response)) ==>
      r.1 == Err(RequestStream(p, lib, c, "POST", CompletionsPath,
                               Value(RequestJson(Streaming(Sent(p, lib, req, true)))), opts, outcome).1.error)
  {
    var sent := Streaming(Sent(p, lib, req, true));
    var (call, res) := RequestStream(p, lib, c, "POST", CompletionsPath, Value(RequestJson(sent)), opts, outcome);
    (call, if res.Err? then Err(res.error) else Ok(ParseStream(lib, res.value.body)))
  }

  /** `chat.createStreamWithResponse(params, options)`: the response comes
      back with the event stream, which fails on its own when there is no
      body. Neither build normalises here. */
  function CreateStreamWithResponse(p: Package, lib: Lib, c: Client, req: ChatRequest,
                                    opts: RequestOptions, outcome: Outcome)
    : (r: (Call, Result<(Response, Result<seq<Json>, Thrown>), Thrown>))
    ensures r.0.body == TextPayload(lib.stringify(RequestJson(Streaming(req))))
    ensures r.0 == PlanCall(lib, c, "POST", CompletionsPath, Value(RequestJson(Streaming(req))), opts, true)
    ensures outcome.Responded? && IsOk(outcome.response) ==>
      r.1 == Ok((outcome.response, ParseStream(lib, outcome.response.body)))
    ensures !(outcome.Responded? && IsOk(outcome.response)) ==>
      r.1 == Err(RequestStream(p, lib, c, "POST", CompletionsPath, Value(RequestJson(Streaming(req))), opts, outcome).1.error)
  {
    var (call, res) := RequestStream(p, lib, c, "POST", CompletionsPath, Value(RequestJson(Streaming(req))), opts, outcome);
    (call, if res.Err? then Err(res.error) else Ok((res.value, ParseStream(lib, res.value.body))))
  }

  /** Streaming and non-streaming requests differ only in the flag: the
      messages sent by `createStream` are those `create` would send. */
  lemma StreamSendsSameMessages(p: Package, lib: Lib, req: ChatRequest)
    ensures RequestJson(Streaming(Sent(p, lib, req, true))).fields["messages"]
         == RequestJson(Sent(p, lib, req, true)).fields["messages"]
    ensures RequestJson(Streaming(Sent(p, lib, req, true))).fields["stream"] == JBool(true)
  {
  }
}

=== FILE: client_config.dfy ===
/** Construction of an SDK client (the `SVECTOR` constructor of
    src/client.ts and jsr/client.ts): option defaults, the base-URL
    normalisation, the API-key lookup, fetch resolution and the browser
    safety check. The host runtime is described by an `Env` record instead
    of being probed. */
module ClientConfig {
  import opened Common
  import opened Errors

  const DefaultBaseUrl: string := "https://spec-chat.tech"
  const DefaultMaxRetries: int := 2
  const DefaultTimeout: int := 10 * 60 * 1000

  const MissingKeyMessage: string :=
    "SVECTOR API key is required. Set it via the apiKey option or SVECTOR_API_KEY environment variable."
  const NoFetchMessage: string :=
    "No fetch implementation found. Please provide a fetch function via the fetch option, "
    + "or install node-fetch in Node.js environments."
  const BrowserMessage: string :=
    "SVECTOR SDK is being used in a browser environment without dangerouslyAllowBrowser set to true. "
    + "This is strongly discouraged as it exposes your API key to client-side code. "
    + "If you understand the risks, set dangerouslyAllowBrowser: true in the constructor options."

  /** An environment-variable store (`process.env`, `Deno.env`): absent from
      the runtime, present with the value of `SVECTOR_API_KEY` (`None` when
      unset), or present but throwing when read. */
  datatype EnvStore = Unavailable | Store(key: Option<string>) | Denied(error: Thrown)

  /** What the runtime probes of the source would find. `fetchFound` stands
      for the whole default-fetch probe chain of the npm build. */
  datatype Env = Env(
    hasWindow: bool,        // typeof window !== 'undefined'
    hasDocument: bool,      // typeof window.document !== 'undefined'
    hasEdgeRuntime: bool,   // globalThis.EdgeRuntime is defined
    hasImportScripts: bool, // globalThis.importScripts is a function
    hasSelf: bool,          // typeof self !== 'undefined'
    hasDeno: bool,          // globalThis.Deno is defined
    processEnv: EnvStore,
    denoEnv: EnvStore,
    fetchFound: bool)

  /** The constructor's options; `hasFetch` says whether a fetch function
      was supplied. `None` is `undefined` (or `null`). */
  datatype ClientOptions = ClientOptions(
    apiKey: Option<string>,
    baseURL: Option<string>,
    maxRetries: Option<int>,
    timeout: Option<int>,
    hasFetch: bool,
    dangerouslyAllowBrowser: Option<bool>)

  /** The fields the constructor stores. */
  datatype Client = Client(
    package: Package,
    apiKey: string,
    baseURL: string,
    maxRetries: int,
    timeout: int,
    dangerouslyAllowBrowser: bool)

  // ---------------------------------------------------------------------
  // Base URL
  // ---------------------------------------------------------------------

  predicate EndsWithSlash(s: string) {
    |s| > 0 && s[|s| - 1] == '/'
  }

  /** `s.replace(/\/+$/, '')`: drop every trailing slash. */
  function StripTrailingSlashes(s: string): (r: string)
    ensures |r| <= |s| && r == s[..|r|]
    ensures !EndsWithSlash(r)
    ensures forall i :: |r| <= i < |s| ==> s[i] == '/'
  {
    if EndsWithSlash(s) then StripTrailingSlashes(s[..|s| - 1]) else s
  }

  /** Stripping is idempotent, and it removes exactly the trailing run of
      slashes: whatever precedes that run is kept. */
  lemma StripTrailingSlashesIdempotent(s: string)
    ensures StripTrailingSlashes(StripTrailingSlashes(s)) == StripTrailingSlashes(s)
  {
  }

  /** Appending slashes to a string that does not end in one and stripping
      them again gives the string back. */
  lemma {:induction false} StripAppendedSlashes(s: string, n: nat)
    requires !EndsWithSlash(s)
    ensures StripTrailingSlashes(s + seq(n, _ => '/')) == s
    decreases n
  {
    if n > 0 {
      var t := s + seq(n, _ => '/');
      assert t[..|t| - 1] == s + seq(n - 1, _ => '/');
      StripAppendedSlashes(s, n - 1);
    } else {
      assert s + seq(0, _ => '/') == s;
    }
  }

  /** `options.baseURL?.replace(/\/+$/, '') || 'https://spec-chat.tech'`. */
  function ResolveBaseUrl(baseURL: Option<string>): (r: string)
    ensures r != "" && !EndsWithSlash(r)
    ensures baseURL.Some? && StripTrailingSlashes(baseURL.value) != "" ==>
              r == StripTrailingSlashes(baseURL.value) && StartsWith(baseURL.value, r)
    ensures baseURL.None? || StripTrailingSlashes(baseURL.value) == "" ==> r == DefaultBaseUrl
  {
    var stripped := if baseURL.Some? then StripTrailingSlashes(baseURL.value) else "";
    if stripped != "" then stripped else DefaultBaseUrl
  }

  /** A stored base URL is a fixed point of the normalisation. */
  lemma ResolveBaseUrlStable(baseURL: Option<string>)
    ensures ResolveBaseUrl(Some(ResolveBaseUrl(baseURL))) == ResolveBaseUrl(baseURL)
  {
  }

  // ---------------------------------------------------------------------
  // API key
  // ---------------------------------------------------------------------

  /** `store[KEY] || ''`, or the error reading it throws. */
  function ReadStore(s: EnvStore): Result<string, Thrown>
    requires !s.Unavailable?
  {
    match s
    case Store(k) => Ok(OrElse(k, ""))
    case Denied(e) => Err(e)
  }

  /** `getApiKeyFromEnv()`. The npm build reads `process.env` and lets a
      failing read escape; the JSR build prefers `Deno.env`, falls back to
      `process.env`, and turns any failure into the empty key. */
  function KeyFromEnv(p: Package, env: Env): (r: Result<string, Thrown>)
    ensures p == Jsr ==> r.Ok?
    ensures p == Jsr && env.denoEnv.Store? ==> r == Ok(OrElse(env.denoEnv.key, ""))
    ensures p == Jsr && env.denoEnv.Unavailable? && env.processEnv.Store? ==> r == Ok(OrElse(env.processEnv.key, ""))
    ensures p == Jsr && env.denoEnv.Denied? ==> r == Ok("")
    ensures p == Jsr && env.denoEnv.Unavailable? && !env.processEnv.Store? ==> r == Ok("")
    ensures p == Npm && env.processEnv.Store? ==> r == Ok(OrElse(env.processEnv.key, ""))
    ensures p == Npm && env.processEnv.Unavailable? ==> r == Ok("")
    ensures p == Npm && env.processEnv.Denied? ==> r == Err(env.processEnv.error)
  {
    match p
    case Npm =>
      if env.processEnv.Unavailable? then Ok("") else ReadStore(env.processEnv)
    case Jsr =>
      var read :=
        if !env.denoEnv.Unavailable? then ReadStore(env.denoEnv)
        else if !env.processEnv.Unavailable? then ReadStore(env.processEnv)
        else Ok("");
      if read.Ok? then read else Ok("")
  }

  // ---------------------------------------------------------------------
  // Browser check
  // ---------------------------------------------------------------------

  predicate IsBrowser(env: Env) { env.hasWindow && env.hasDocument }
  predicate IsSsr(env: Env) { !env.hasWindow && !env.processEnv.Unavailable? }
  predicate IsWebWorker(env: Env) { env.hasImportScripts && env.hasSelf && !env.hasWindow }

  /** `checkBrowserEnvironment()`: `true` when it throws. The npm build
      exempts server-side rendering, edge runtimes, web workers and Deno, then
      rejects a real browser page unless opted in; the JSR build rejects any
      runtime with a `window` unless opted in. */
  function BrowserBlocked(p: Package, env: Env, allow: bool): bool {
    match p
    case Npm =>
      if IsSsr(env) || env.hasEdgeRuntime || IsWebWorker(env) || env.hasDeno then false
      else IsBrowser(env) && !allow
    case Jsr =>
      env.hasWindow && !allow
  }

  /** The exemptions collapse: the npm check throws exactly on a page with a
      `window` and a `document`, outside edge runtimes and Deno, without the
      opt-in; without a `window` it never throws. */
  lemma BrowserBlockedExactly(p: Package, env: Env, allow: bool)
    ensures p == Npm ==>
      (BrowserBlocked(p, env, allow) <==>
         env.hasWindow && env.hasDocument && !env.hasEdgeRuntime && !env.hasDeno && !allow)
    ensures p == Jsr ==> (BrowserBlocked(p, env, allow) <==> env.hasWindow && !allow)
    ensures !env.hasWindow || allow ==> !BrowserBlocked(p, env, allow)
  {
  }

  // ---------------------------------------------------------------------
  // The constructor
  // ---------------------------------------------------------------------

  /** `new SVECTOR(options)`: the stored fields, or what the constructor
      throws. Failures come in source order: reading the environment key,
      resolving fetch, the missing key, the browser check. */
  function Construct(p: Package, opts: ClientOptions, env: Env): (r: Result<Client, Thrown>)
    ensures r.Ok? ==>
      && r.value.package == p
      && r.value.apiKey != ""
      && r.value.baseURL == ResolveBaseUrl(opts.baseURL)
      && r.value.maxRetries == opts.maxRetries.GetOr(DefaultMaxRetries)
      && r.value.timeout == opts.timeout.GetOr(DefaultTimeout)
      && r.value.dangerouslyAllowBrowser == opts.dangerouslyAllowBrowser.GetOr(false)
      && (Present(opts.apiKey) ==> r.value.apiKey == opts.apiKey.value)
      && !BrowserBlocked(p, env, r.value.dangerouslyAllowBrowser)
    ensures var key := if Present(opts.apiKey) then Ok(opts.apiKey.value) else KeyFromEnv(p, env);
      var fetchOk := p == Jsr || opts.hasFetch || env.fetchFound;
      var blocked := BrowserBlocked(p, env, opts.dangerouslyAllowBrowser.GetOr(false));
      && (key.Err? ==> r == Err(key.error))
      && (key.Ok? && !fetchOk ==> r == Err(PlainError(NoFetchMessage)))
      && (key.Ok? && key.value != "" && fetchOk ==>
            (r.Ok? <==> !blocked) && (blocked ==> r == Err(PlainError(BrowserMessage))))
  {
    var key := if Present(opts.apiKey) then Ok(opts.apiKey.value) else KeyFromEnv(p, env);
    if key.Err? then Err(key.error)
    else if p == Npm && !opts.hasFetch && !env.fetchFound then Err(PlainError(NoFetchMessage))
    else
      var allow := opts.dangerouslyAllowBrowser.GetOr(false);
      if key.value == "" then Err(Sdk(NewFixed(Authentication, Some(MissingKeyMessage), None, None)))
      else if BrowserBlocked(p, env, allow) then Err(PlainError(BrowserMessage))
      else Ok(Client(p, key.value, ResolveBaseUrl(opts.baseURL),
                     opts.maxRetries.GetOr(DefaultMaxRetries), opts.timeout.GetOr(DefaultTimeout), allow))
  }

  /** The key check: when the environment can be read, construction fails
      with an AuthenticationError exactly when no key is given, the
      environment yields none, and fetch resolution got that far; the browser
      check is never reached then. */
  lemma MissingKeyIsAuthentication(p: Package, opts: ClientOptions, env: Env)
    ensures var r := Construct(p, opts, env);
      var envKey := KeyFromEnv(p, env);
      var fetchOk := p == Jsr || opts.hasFetch || env.fetchFound;
      envKey.Ok? ==>
        ((r.Err? && r.error.Sdk? && r.error.err.kind == Authentication)
         <==> (!Present(opts.apiKey) && envKey == Ok("") && fetchOk))
  {
  }

  /** Explicit zeros survive the `??` defaults: `maxRetries: 0` means one
      attempt, `timeout: 0` is kept as is. */
  lemma ExplicitZeroKept(p: Package, opts: ClientOptions, env: Env)
    requires opts.maxRetries == Some(0) && opts.timeout == Some(0)
    ensures Construct(p, opts, env).Ok? ==>
      Construct(p, opts, env).value.maxRetries == 0 && Construct(p, opts, env).value.timeout == 0
  {
  }
}

=== FILE: common.dfy ===
/** Shared vocabulary: optional and fallible values, the two packages of the
    SDK, and the handful of string operations (prefix test, substring test,
    JavaScript `trim`, `split('\n')`, decimal rendering) the rest of the model
    is written in. */
module Common {

  /** The SDK ships two builds that differ in places: the npm package
      (the `src/` tree) and the Deno/JSR package (the `jsr/` tree). */
  datatype Package = Npm | Jsr

  datatype Option<+T> = None | Some(value: T) {
    function GetOr(default: T): T {
      match this
      case Some(v) => v
      case None => default
    }
  }

  datatype Result<+T, +E> = Ok(value: T) | Err(error: E)

  /** A JavaScript string option is truthy when present and non-empty. */
  predicate Present(s: Option<string>) {
    s.Some? && s.value != ""
  }

  /** `a || b` on an optional string. */
  function OrElse(s: Option<string>, default: string): (r: string)
    ensures Present(s) ==> r == s.value
    ensures !Present(s) ==> r == default
  {
    if Present(s) then s.value else default
  }

  predicate StartsWith(s: string, prefix: string) {
    |prefix| <= |s| && s[..|prefix|] == prefix
  }

  /** `s.includes(t)`. */
  predicate Contains(s: string, t: string) {
    StartsWith(s, t) || (|s| > 0 && Contains(s[1..], t))
  }

  function Min(a: int, b: int): int {
    if a <= b then a else b
  }

  function Pow2(k: nat): (r: nat)
    ensures r >= 1
  {
    if k == 0 then 1 else 2 * Pow2(k - 1)
  }

  // ---------------------------------------------------------------------
  // JavaScript `String.prototype.trim`
  // ---------------------------------------------------------------------

  /** The characters `trim` removes: ECMAScript WhiteSpace and LineTerminator. */
  predicate IsJsSpace(c: char) {
    || c == ' ' || c == '\t' || c == '\n' || c == '\r' || c == '\U{B}' || c == '\U{C}'
    || c == '\U{A0}' || c == '\U{1680}' || ('\U{2000}' <= c <= '\U{200A}')
    || c == '\U{2028}' || c == '\U{2029}' || c == '\U{202F}' || c == '\U{205F}'
    || c == '\U{3000}' || c == '\U{FEFF}'
  }

  function TrimStart(s: string): (r: string)
    ensures |r| <= |s| && r == s[|s| - |r|..]
    ensures r == [] || !IsJsSpace(r[0])
    ensures forall i :: 0 <= i < |s| - |r| ==> IsJsSpace(s[i])
  {
    if |s| > 0 && IsJsSpace(s[0]) then TrimStart(s[1..]) else s
  }

  function TrimEnd(s: string): (r: string)
    ensures |r| <= |s| && r == s[..|r|]
    ensures r == [] || !IsJsSpace(r[|r| - 1])
    ensures forall i :: |r| <= i < |s| ==> IsJsSpace(s[i])
  {
    if |s| > 0 && IsJsSpace(s[|s| - 1]) then TrimEnd(s[..|s| - 1]) else s
  }

  function Trim(s: string): string {
    TrimEnd(TrimStart(s))
  }

  /** A trimmed string neither starts nor ends with white space, and it is
      empty exactly when the input was all white space. */
  lemma TrimShape(s: string)
    ensures var t := Trim(s);
      && (t == [] || (!IsJsSpace(t[0]) && !IsJsSpace(t[|t| - 1])))
      && (t == [] <==> forall i :: 0 <= i < |s| ==> IsJsSpace(s[i]))
  {
    var a := TrimStart(s);
    var t := TrimEnd(a);
    if t != [] {
      assert t[0] == a[0];
    }
    if t == [] {
      forall i | 0 <= i < |s|
        ensures IsJsSpace(s[i])
      {
        if i >= |s| - |a| {
          assert s[i] == a[i - (|s| - |a|)];
        }
      }
    } else {
      assert !IsJsSpace(s[|s| - |a|]) by {
        assert s[|s| - |a|] == a[0] == t[0];
      }
    }
  }

  /** A string that neither starts nor ends with white space is its own trim. */
  lemma TrimOfTrimmed(s: string)
    requires s == [] || (!IsJsSpace(s[0]) && !IsJsSpace(s[|s| - 1]))
    ensures Trim(s) == s
  {
    assert TrimStart(s) == s;
  }

  /** Trimming twice is trimming once. */
  lemma TrimIdempotent(s: string)
    ensures Trim(Trim(s)) == Trim(s)
  {
    TrimShape(s);
    var t := Trim(s);
    assert TrimStart(t) == t;
    assert TrimEnd(t) == t;
  }

  // ---------------------------------------------------------------------
  // `split('\n')` and concatenation of chunks
  // ---------------------------------------------------------------------

  /** `s.split('\n')`: the pieces between newlines, always at least one. */
  function SplitLines(s: string): (r: seq<string>)
    ensures |r| >= 1
  {
    if |s| == 0 then [""]
    else
      var rest := SplitLines(s[1..]);
      if s[0] == '\n' then [""] + rest
      else [[s[0]] + rest[0]] + rest[1..]
  }

  /** No piece of a split contains the separator. */
  lemma SplitLinesNoNewline(s: string)
    ensures forall k, j :: 0 <= k < |SplitLines(s)| && 0 <= j < |SplitLines(s)[k]| ==> SplitLines(s)[k][j] != '\n'
  {
    if |s| > 0 {
      SplitLinesNoNewline(s[1..]);
    }
  }

  /** A string without a newline splits into itself. */
  lemma {:induction false} SplitLinesOfLine(s: string)
    requires forall j :: 0 <= j < |s| ==> s[j] != '\n'
    ensures SplitLines(s) == [s]
  {
    if |s| > 0 {
      SplitLinesOfLine(s[1..]);
      assert [s[0]] + s[1..] == s;
    }
  }

  /** One step of `SplitLines`, stated for a string built by prefixing a character. */
  lemma SplitLinesCons(c: char, s: string)
    ensures var r := SplitLines(s);
      SplitLines([c] + s) == if c == '\n' then [""] + r else [[c] + r[0]] + r[1..]
  {
    assert ([c] + s)[1..] == s;
  }

  /** The shape `SplitLinesAppend` promises, for pieces `sa` and `sb`. */
  function Glue(sa: seq<string>, sb: seq<string>): seq<string>
    requires |sa| >= 1 && |sb| >= 1
  {
    sa[..|sa| - 1] + [sa[|sa| - 1] + sb[0]] + sb[1..]
  }

  /** Prefixing a character commutes with gluing. */
  lemma GlueCons(c: char, ra: seq<string>, sb: seq<string>)
    requires |ra| >= 1 && |sb| >= 1
    ensures var sa := if c == '\n' then [""] + ra else [[c] + ra[0]] + ra[1..];
      var x := Glue(ra, sb);
      Glue(sa, sb) == if c == '\n' then [""] + x else [[c] + x[0]] + x[1..]
  {
    var x := Glue(ra, sb);
    if c != '\n' {
      if |ra| == 1 {
        assert [c] + (ra[0] + sb[0]) == ([c] + ra[0]) + sb[0];
      } else {
        assert x[0] == ra[0];
        assert x[1..] == ra[1..|ra| - 1] + [ra[|ra| - 1] + sb[0]] + sb[1..];
      }
    }
  }

  /** Splitting a concatenation: the last piece of the left part is glued to
      the first piece of the right part. */
  lemma {:induction false} SplitLinesAppend(a: string, b: string)
    ensures SplitLines(a + b) == Glue(SplitLines(a), SplitLines(b))
  {
    if |a| == 0 {
      assert a + b == b;
      var sb := SplitLines(b);
      assert "" + sb[0] == sb[0];
      assert Glue([""], sb) == [sb[0]] + sb[1..] == sb;
    } else {
      var t := a[1..];
      assert a == [a[0]] + t;
      assert a + b == [a[0]] + (t + b);
      SplitLinesAppend(t, b);
      SplitLinesCons(a[0], t);
      SplitLinesCons(a[0], t + b);
      GlueCons(a[0], SplitLines(t), SplitLines(b));
    }
  }

  /** Concatenation of a sequence of chunks. */
  function Concat(chunks: seq<string>): string {
    if |chunks| == 0 then "" else Concat(chunks[..|chunks| - 1]) + chunks[|chunks| - 1]
  }

  // ---------------------------------------------------------------------
  // Decimal rendering and parsing
  // ---------------------------------------------------------------------

  function DigitChar(d: nat): char
    requires d < 10
  {
    "0123456789"[d]
  }

  predicate IsDigit(c: char) {
    '0' <= c <= '9'
  }

  function DigitValue(c: char): nat
    requires IsDigit(c)
  {
    (c as int - '0' as int) as nat
  }

  /** Decimal rendering of a natural number, as `String(n)` does. */
  function NatToString(n: nat): (r: string)
    ensures |r| >= 1
    ensures forall i :: 0 <= i < |r| ==> IsDigit(r[i])
    decreases n
  {
    if n < 10 then [DigitChar(n)] else NatToString(n / 10) + [DigitChar(n % 10)]
  }

  /** `String(n)` for an integer. */
  function IntToString(n: int): string {
    if n < 0 then "-" + NatToString(-n) else NatToString(n)
  }

  /** The value of a string of decimal digits, as `parseInt(s, 10)` reads it. */
  function ParseDigits(s: string): nat
    requires forall i :: 0 <= i < |s| ==> IsDigit(s[i])
  {
    if |s| == 0 then 0 else 10 * ParseDigits(s[..|s| - 1]) + DigitValue(s[|s| - 1])
  }

  /** Reading back a rendered number gives the number. */
  lemma {:induction false} ParseNatToString(n: nat)
    ensures ParseDigits(NatToString(n)) == n
    decreases n
  {
    var r := NatToString(n);
    if n >= 10 {
      ParseNatToString(n / 10);
      assert r[..|r| - 1] == NatToString(n / 10);
    }
  }
}

=== FILE: conversations.dfy ===
/** The conversations resource of src/api/conversations.ts and
    jsr/api/conversations.ts: assembling chat messages from instructions,
    context and input, reading the output back, and turning stream events
    into `{content, done}` chunks. */
module Conversations {
  import opened Common
  import opened Js
  import opened Errors
  import opened Transport
  import opened ClientConfig
  import opened RequestEngine
  import opened RequestEngineProofs
  import opened Messages
  import opened Chat
  import opened Sse

  /** `ConversationRequest`; `None` is an absent optional field. */
  datatype ConversationRequest = ConversationRequest(
    model: Json,
    instructions: Option<Json>,
    input: Json,
    maxTokens: Option<Json>,
    temperature: Option<Json>,
    files: Option<Json>,
    context: Option<seq<Json>>)

  /** `ConversationResponse`. */
  datatype ConversationResponse = ConversationResponse(output: Json, usage: Option<Json>, requestId: Option<Json>)

  /** `role = i % 2 === 0 ? 'user' : 'assistant'`. */
  function ContextRole(i: nat): string {
    if i % 2 == 0 then RoleUser else RoleAssistant
  }

  // ---------------------------------------------------------------------
  // Message assembly, npm build
  // ---------------------------------------------------------------------

  /** `normalizeSystemInstructions(instructions)`: the chat normalisation,
      with an absent value counting as falsy. */
  function NormalizeInstructions(lib: Lib, instructions: Option<Json>): (r: string)
    ensures instructions.None? ==> r == DefaultSystemPrompt
    ensures instructions.Some? ==> r == NormalizeSystemContent(lib, instructions.value)
  {
    if instructions.None? then DefaultSystemPrompt else NormalizeSystemContent(lib, instructions.value)
  }

  /** `systemInstructions || normalizeSystemInstructions(params.instructions)`:
      the fallback recomputes the same value, so it never changes anything. */
  function FinalInstructions(lib: Lib, params: ConversationRequest): (r: string)
    ensures r == NormalizeInstructions(lib, params.instructions)
  {
    var s := NormalizeInstructions(lib, params.instructions);
    if s != "" then s else NormalizeInstructions(lib, params.instructions)
  }

  /** The context entries, every one kept, roles alternating by position. */
  function NpmContext(context: seq<Json>): (r: seq<ChatMessage>)
    ensures |r| == |context|
    ensures forall i :: 0 <= i < |r| ==> r[i] == ChatMessage(ContextRole(i), context[i], map[])
  {
    seq(|context|, i requires 0 <= i < |context| => ChatMessage(ContextRole(i), context[i], map[]))
  }

  /** `finalInstructions && finalInstructions.trim()`. */
  predicate SendsSystem(fin: string) {
    fin != "" && Trim(fin) != ""
  }

  /** The emptiness test is subsumed by the trim test. */
  lemma SendsSystemIffNotBlank(fin: string)
    ensures SendsSystem(fin) <==> Trim(fin) != ""
  {
    assert Trim("") == "";
  }

  /** The npm build's message list for final instructions `fin`: the
      system message when `fin` is not blank, the context, then the input. */
  function Assemble(fin: string, context: seq<Json>, input: Json): (r: seq<ChatMessage>)
    ensures var sys := if SendsSystem(fin) then 1 else 0;
      && |r| == sys + |context| + 1
      && (sys == 1 ==> r[0] == Say(RoleSystem, fin))
      && r[sys..sys + |context|] == NpmContext(context)
      && r[|r| - 1] == ChatMessage(RoleUser, input, map[])
  {
    var system := if SendsSystem(fin) then [Say(RoleSystem, fin)] else [];
    var ctx := NpmContext(context);
    var r := system + ctx + [ChatMessage(RoleUser, input, map[])];
    assert r[|system|..|system| + |ctx|] == ctx;
    r
  }

  /** `buildMessagesFromConversation(params, systemInstructions)` of the npm
      build. */
  function NpmMessages(lib: Lib, params: ConversationRequest): (r: seq<ChatMessage>)
    ensures var fin := FinalInstructions(lib, params);
      var sys := if SendsSystem(fin) then 1 else 0;
      var ctx := params.context.GetOr([]);
      && |r| == sys + |ctx| + 1
      && (sys == 1 ==> r[0] == Say(RoleSystem, fin))
      && r[sys..sys + |ctx|] == NpmContext(ctx)
      && r[|r| - 1] == ChatMessage(RoleUser, params.input, map[])
  {
    Assemble(FinalInstructions(lib, params), params.context.GetOr([]), params.input)
  }

  /** Without instructions the npm build still sends the default system
      prompt. */
  lemma AbsentInstructionsGiveDefault(lib: Lib, params: ConversationRequest)
    requires params.instructions.None?
    ensures NpmMessages(lib, params)[0] == Say(RoleSystem, DefaultSystemPrompt)
  {
    var fin := FinalInstructions(lib, params);
    assert fin == DefaultSystemPrompt;
    TrimOfTrimmed(DefaultSystemPrompt);
    assert SendsSystem(fin);
  }

  /** Context roles alternate: neighbouring context messages never share a
      role, and the first one is the user's. */
  lemma NpmContextAlternates(context: seq<Json>)
    ensures var r := NpmContext(context);
      (|r| > 0 ==> r[0].role == RoleUser)
      && forall i :: 0 <= i < |r| - 1 ==> r[i].role != r[i + 1].role
  {
  }

  // ---------------------------------------------------------------------
  // Message assembly, JSR build
  // ---------------------------------------------------------------------

  /** The context entries of the JSR build: falsy entries are skipped, and a
      kept entry takes the role of its original position. */
  function JsrContext(context: seq<Json>): (r: seq<ChatMessage>)
    ensures |r| <= |context| && |r| == CountTruthy(context)
    ensures forall k :: 0 <= k < |r| ==> Truthy(r[k].content) && r[k].others == map[]
  {
    if |context| == 0 then []
    else
      var n := |context| - 1;
      JsrContext(context[..n]) + (if Truthy(context[n]) then [ChatMessage(ContextRole(n), context[n], map[])] else [])
  }

  /** When no entry is falsy the two builds assemble the same context. */
  lemma {:induction false} ContextsAgreeWhenTruthy(context: seq<Json>)
    requires forall i :: 0 <= i < |context| ==> Truthy(context[i])
    ensures JsrContext(context) == NpmContext(context)
  {
    if |context| > 0 {
      var n := |context| - 1;
      ContextsAgreeWhenTruthy(context[..n]);
      assert NpmContext(context) == NpmContext(context[..n]) + [ChatMessage(ContextRole(n), context[n], map[])];
    }
  }

  /** Every kept entry keeps its content, with the role its position gives. */
  lemma {:induction false} JsrContextSound(context: seq<Json>)
    ensures forall k :: 0 <= k < |JsrContext(context)| ==>
      exists i :: 0 <= i < |context| && JsrContext(context)[k] == ChatMessage(ContextRole(i), context[i], map[])
  {
    if |context| > 0 {
      var n := |context| - 1;
      JsrContextSound(context[..n]);
      var prev := JsrContext(context[..n]);
      var r := JsrContext(context);
      forall k | 0 <= k < |r|
        ensures exists i :: 0 <= i < |context| && r[k] == ChatMessage(ContextRole(i), context[i], map[])
      {
        if k < |prev| {
          var i :| 0 <= i < n && prev[k] == ChatMessage(ContextRole(i), context[..n][i], map[]);
          assert r[k] == prev[k];
          assert context[..n][i] == context[i];
          assert 0 <= i < |context| && r[k] == ChatMessage(ContextRole(i), context[i], map[]);
        } else {
          assert 0 <= n < |context| && r[k] == ChatMessage(ContextRole(n), context[n], map[]);
        }
      }
    } else {
      assert JsrContext(context) == [];
    }
  }

  /** The number of truthy entries in `context`. */
  function CountTruthy(context: seq<Json>): nat {
    if |context| == 0 then 0
    else CountTruthy(context[..|context| - 1]) + (if Truthy(context[|context| - 1]) then 1 else 0)
  }

  /** Nothing truthy is lost: the JSR context holds one message per truthy
      entry, and a truthy entry `i` sits at the position given by the number
      of truthy entries before it, with the role of its original position. */
  lemma {:induction false} JsrContextComplete(context: seq<Json>)
    ensures |JsrContext(context)| == CountTruthy(context)
    ensures forall i :: 0 <= i < |context| && Truthy(context[i]) ==>
      && CountTruthy(context[..i]) < |JsrContext(context)|
      && JsrContext(context)[CountTruthy(context[..i])] == ChatMessage(ContextRole(i), context[i], map[])
  {
    if |context| > 0 {
      var n := |context| - 1;
      var prev := context[..n];
      JsrContextComplete(prev);
      var r := JsrContext(context);
      assert r == JsrContext(prev) + (if Truthy(context[n]) then [ChatMessage(ContextRole(n), context[n], map[])] else []);
      forall i | 0 <= i < |context| && Truthy(context[i])
        ensures CountTruthy(context[..i]) < |r|
        ensures r[CountTruthy(context[..i])] == ChatMessage(ContextRole(i), context[i], map[])
      {
        if i < n {
          assert context[..i] == prev[..i];
          assert prev[i] == context[i];
        } else {
          assert context[..i] == prev;
        }
      }
    }
  }

  /** Positions grow with the entries: a truthy entry has fewer truthy
      entries before it than any later entry has, so kept entries stay in
      their original order. */
  lemma {:induction false} CountTruthyGrows(context: seq<Json>, i: nat, j: nat)
    requires i < j <= |context| && Truthy(context[i])
    ensures CountTruthy(context[..i]) < CountTruthy(context[..j])
    decreases j
  {
    assert context[..j][..j - 1] == context[..j - 1];
    if j - 1 > i {
      CountTruthyGrows(context, i, j - 1);
    }
  }

  /** Two truthy entries appear in the JSR context in their original order. */
  lemma JsrContextKeepsOrder(context: seq<Json>, i: nat, j: nat)
    requires i < j < |context| && Truthy(context[i]) && Truthy(context[j])
    ensures var r := JsrContext(context);
      exists a, b :: 0 <= a < b < |r|
        && r[a] == ChatMessage(ContextRole(i), context[i], map[])
        && r[b] == ChatMessage(ContextRole(j), context[j], map[])
  {
    JsrContextComplete(context);
    CountTruthyGrows(context, i, j);
    var a, b := CountTruthy(context[..i]), CountTruthy(context[..j]);
    assert 0 <= a < b < |JsrContext(context)|;
  }

  /** Roles follow the original positions, so skipping an entry can put two
      messages of the same role next to each other: `["a", "", "b"]` gives
      two user messages in a row. */
  lemma JsrRolesMayRepeat()
    ensures JsrContext([JStr("a"), JStr(""), JStr("b")])
         == [ChatMessage(RoleUser, JStr("a"), map[]), ChatMessage(RoleUser, JStr("b"), map[])]
  {
  }

  /** The `for` loop of the JSR build. */
  method CollectContext(context: seq<Json>) returns (msgs: seq<ChatMessage>)
    ensures msgs == JsrContext(context)
  {
    msgs := [];
    var i := 0;
    while i < |context|
      invariant 0 <= i <= |context|
      invariant msgs == JsrContext(context[..i])
    {
      assert context[..i + 1][..i] == context[..i];
      if Truthy(context[i]) {
        msgs := msgs + [ChatMessage(ContextRole(i), context[i], map[])];
      }
      i := i + 1;
    }
    assert context[..i] == context;
  }

  /** `buildMessagesFromConversation(params)` of the JSR build: truthy
      instructions are sent as given. */
  function JsrMessages(params: ConversationRequest): (r: seq<ChatMessage>)
    ensures var sys := if TruthyOpt(params.instructions) then 1 else 0;
      && |r| == sys + |JsrContext(params.context.GetOr([]))| + 1
      && (sys == 1 ==> r[0] == ChatMessage(RoleSystem, params.instructions.value, map[]))
      && r[sys..|r| - 1] == JsrContext(params.context.GetOr([]))
      && r[|r| - 1] == ChatMessage(RoleUser, params.input, map[])
  {
    var system := if TruthyOpt(params.instructions) then [ChatMessage(RoleSystem, params.instructions.value, map[])] else [];
    system + JsrContext(params.context.GetOr([])) + [ChatMessage(RoleUser, params.input, map[])]
  }

  /** For string instructions that are not blank and a context without falsy
      entries, both builds send the same messages. */
  lemma BuildsAgree(lib: Lib, params: ConversationRequest)
    requires params.instructions.Some? && params.instructions.value.JStr?
    requires Trim(params.instructions.value.s) != ""
    requires forall i :: 0 <= i < |params.context.GetOr([])| ==> Truthy(params.context.GetOr([])[i])
    ensures NpmMessages(lib, params) == JsrMessages(params)
  {
    var text := params.instructions.value.s;
    var ctx := params.context.GetOr([]);
    ContextsAgreeWhenTruthy(ctx);
    SendsSystemIffNotBlank(text);
    assert FinalInstructions(lib, params) == text;
    assert TruthyOpt(params.instructions);
    assert NpmMessages(lib, params) == [Say(RoleSystem, text)] + NpmContext(ctx) + [ChatMessage(RoleUser, params.input, map[])];
  }

  /** The messages a package sends. */
  function BuildMessages(p: Package, lib: Lib, params: ConversationRequest): seq<ChatMessage> {
    if p == Npm then NpmMessages(lib, params) else JsrMessages(params)
  }

  /** The chat request of `create` (`stream` false) or `createStream`
      (`stream` true); absent optional fields are dropped, as
      `JSON.stringify` drops `undefined`. */
  function ChatRequestOf(p: Package, lib: Lib, params: ConversationRequest, stream: bool): ChatRequest {
    var others := map["model" := params.model]
      + (if params.maxTokens.Some? then map["max_tokens" := params.maxTokens.value] else map[])
      + (if params.temperature.Some? then map["temperature" := params.temperature.value] else map[])
      + (if params.files.Some? then map["files" := params.files.value] else map[]);
    ChatRequest(BuildMessages(p, lib, params), Some(JBool(stream)), others)
  }

  /** The npm chat layer's normalisation leaves a conversation's messages
      alone: the only system message already holds a string. */
  lemma ConversationAlreadyNormal(lib: Lib, params: ConversationRequest, stream: bool)
    ensures var req := ChatRequestOf(Npm, lib, params, stream);
      ProcessSystemPrompts(lib, req) == req
  {
    var req := ChatRequestOf(Npm, lib, params, stream);
    NpmMessagesNormal(lib, params);
    assert ProcessSystemPrompts(lib, req).messages == req.messages;
  }

  /** A message that is not a system message, or already holds a string,
      is left as it is by the chat layer's normalisation. */
  lemma NormalMessage(lib: Lib, m: ChatMessage)
    requires m.role != RoleSystem || m.content.JStr?
    ensures NormalizeMessage(lib, m) == m
  {
  }

  /** Every message of `msgs` is a fixed point of the chat layer's
      normalisation. */
  predicate Normal(lib: Lib, msgs: seq<ChatMessage>) {
    forall i :: 0 <= i < |msgs| ==> NormalizeMessage(lib, msgs[i]) == msgs[i]
  }

  lemma NormalAppend(lib: Lib, a: seq<ChatMessage>, b: seq<ChatMessage>)
    requires Normal(lib, a) && Normal(lib, b)
    ensures Normal(lib, a + b)
  {
    forall i | 0 <= i < |a + b|
      ensures NormalizeMessage(lib, (a + b)[i]) == (a + b)[i]
    {
      if i < |a| {
        assert (a + b)[i] == a[i];
      } else {
        assert (a + b)[i] == b[i - |a|];
      }
    }
  }

  /** Context messages are never system messages. */
  lemma ContextNormal(lib: Lib, context: seq<Json>)
    ensures Normal(lib, NpmContext(context))
  {
    var ctx := NpmContext(context);
    forall i | 0 <= i < |ctx|
      ensures NormalizeMessage(lib, ctx[i]) == ctx[i]
    {
      NormalMessage(lib, ctx[i]);
    }
  }

  /** Every assembled message is a fixed point of the chat layer's
      normalisation: the only system message already holds a string. */
  lemma AssembledNormal(lib: Lib, fin: string, context: seq<Json>, input: Json)
    ensures Normal(lib, Assemble(fin, context, input))
  {
    var system := if SendsSystem(fin) then [Say(RoleSystem, fin)] else [];
    var user := [ChatMessage(RoleUser, input, map[])];
    NormalMessage(lib, Say(RoleSystem, fin));
    NormalMessage(lib, user[0]);
    assert Normal(lib, system);
    assert Normal(lib, user);
    ContextNormal(lib, context);
    NormalAppend(lib, system, NpmContext(context));
    NormalAppend(lib, system + NpmContext(context), user);
  }

  /** Every message the npm build assembles is a fixed point of the chat
      layer's normalisation. */
  lemma NpmMessagesNormal(lib: Lib, params: ConversationRequest)
    ensures Normal(lib, NpmMessages(lib, params))
  {
    AssembledNormal(lib, FinalInstructions(lib, params), params.context.GetOr([]), params.input);
  }

  // ---------------------------------------------------------------------
  // Reading results
  // ---------------------------------------------------------------------

  /** `data.choices[0]?.message?.content || ''`: reading `[0]` of a missing
      `choices` throws a TypeError. */
  function ExtractOutput(data: Json): (r: Result<Json, Thrown>)
    ensures r.Ok? ==> Truthy(r.value) || r.value == JStr("")
    ensures r.Ok? ==>
      var content := Path(Chain(Prop(data, Name("choices")), At(0)), [Name("message"), Name("content")]);
      r.value == (if TruthyOpt(content) then content.value else JStr(""))
    ensures !data.JNull? && Prop(data, Name("choices")).Some? && !Prop(data, Name("choices")).value.JNull? ==> r.Ok?
    ensures data.JNull? || Prop(data, Name("choices")).None? ==> r.Err? && r.error.JsError? && r.error.name == "TypeError"
  {
    match Member(Some(data), Name("choices"))
    case Err(m) => Err(JsError("TypeError", m))
    case Ok(choices) =>
      match Member(choices, At(0))
      case Err(m) => Err(JsError("TypeError", m))
      case Ok(first) =>
        var content := Path(first, [Name("message"), Name("content")]);
        Ok(if TruthyOpt(content) then content.value else JStr(""))
  }

  /** The conversation result of a successful chat call. */
  function ToConversation(data: Payload): Result<ConversationResponse, Thrown> {
    match ExtractOutput(data.body)
    case Err(t) => Err(t)
    case Ok(out) => Ok(ConversationResponse(out, Prop(data.body, Name("usage")), ReadRequestId(data)))
  }

  /** `conversations.create(params, options)` and
      `conversations.createWithResponse(params, options)`: the chat run,
      and what the caller receives. */
  function Create(p: Package, lib: Lib, isApi: Kind -> bool, c: Client, params: ConversationRequest,
                  opts: RequestOptions, net: Network, withResponse: bool)
    : (r: (Run, Result<(ConversationResponse, Response), Thrown>))
    ensures forall i :: 0 <= i < |r.0.calls| ==>
      r.0.calls[i].body == TextPayload(lib.stringify(RequestJson(ChatRequestOf(p, lib, params, false))))
    ensures ValidRun(RequestCtx(p, lib, isApi, c, "POST", CompletionsPath,
                                Value(RequestJson(ChatRequestOf(p, lib, params, false))), opts), net, r.0)
    ensures r.1 == Answer(r.0.result)
    ensures r.1.Ok? <==> r.0.result.Ok? && ExtractOutput(r.0.result.value.data.body).Ok?
    ensures r.1.Ok? ==>
      && r.1.value.0.output == ExtractOutput(r.0.result.value.data.body).value
      && r.1.value.1 == r.0.result.value.response
  {
    var req := ChatRequestOf(p, lib, params, false);
    ConversationAlreadyNormal(lib, params, false);
    assert Sent(p, lib, req, true) == req;
    var run := if withResponse then CreateWithResponse(p, lib, isApi, c, req, opts, net)
               else Chat.Create(p, lib, isApi, c, req, opts, net);
    (run, Answer(run.result))
  }

  /** What the caller of `create` receives from the chat result. */
  function Answer(result: Result<Success, Thrown>): (r: Result<(ConversationResponse, Response), Thrown>)
    ensures result.Err? ==> r == Err(result.error)
    ensures result.Ok? ==>
      var out := ExtractOutput(result.value.data.body);
      && (out.Err? ==> r == Err(out.error))
      && (out.Ok? ==> r == Ok((ConversationResponse(out.value, Prop(result.value.data.body, Name("usage")),
                                                    ReadRequestId(result.value.data)),
                               result.value.response)))
  {
    match result
    case Err(t) => Err(t)
    case Ok(s) =>
      match ToConversation(s.data)
      case Err(t) => Err(t)
      case Ok(conv) => Ok((conv, s.response))
  }

  // ---------------------------------------------------------------------
  // Streams
  // ---------------------------------------------------------------------

  /** `{ content, done }`. */
  datatype Chunk = Chunk(content: Json, done: bool)

  /** The chunks yielded so far and, if the stream broke off, why. */
  datatype Transformed = Transformed(chunks: seq<Chunk>, failure: Option<Thrown>)

  /** One event of `transformStream`: truthy delta content wins, even when a
      finish reason is there too; otherwise a truthy `finish_reason` yields
      the empty final chunk; `event.choices` on a null event throws. */
  function EventChunk(e: Json): (r: Result<Option<Chunk>, Thrown>)
    ensures r.Err? <==> e.JNull?
    ensures r.Ok? && r.value.Some? ==>
      (r.value.value.done <==> r.value.value.content == JStr(""))
    ensures !e.JNull? ==>
      var content := Path(Some(e), [Name("choices"), At(0), Name("delta"), Name("content")]);
      var finish := Path(Some(e), [Name("choices"), At(0), Name("finish_reason")]);
      && (TruthyOpt(content) ==> r == Ok(Some(Chunk(content.value, false))))
      && (!TruthyOpt(content) && TruthyOpt(finish) ==> r == Ok(Some(Chunk(JStr(""), true))))
      && (!TruthyOpt(content) && !TruthyOpt(finish) ==> r == Ok(None))
  {
    if e.JNull? then Err(JsError("TypeError", "Cannot read properties of null (reading 'choices')"))
    else
      var first := Chain(Prop(e, Name("choices")), At(0));
      var content := Path(first, [Name("delta"), Name("content")]);
      if TruthyOpt(content) then Ok(Some(Chunk(content.value, false)))
      else if TruthyOpt(Chain(first, Name("finish_reason"))) then Ok(Some(Chunk(JStr(""), true)))
      else Ok(None)
  }

  /** What one event yields on its own: its chunk, if any, or the error
      that ends the stream. */
  function Step(e: Json): (r: Transformed)
    ensures |r.chunks| <= 1
    ensures r.failure.Some? <==> e.JNull?
    ensures r.failure.Some? ==> r.chunks == []
  {
    match EventChunk(e)
    case Err(t) => Transformed([], Some(t))
    case Ok(c) => Transformed(if c.Some? then [c.value] else [], None)
  }

  /** One event of the stream after the chunks so far: a failure is final,
      otherwise the event's own result is added. */
  function Next(prev: Transformed, e: Json): Transformed {
    if prev.failure.Some? then prev else Transformed(prev.chunks + Step(e).chunks, Step(e).failure)
  }

  /** `transformStream(stream)` over a finite sequence of events. */
  function Transform(events: seq<Json>): (r: Transformed)
    ensures |r.chunks| <= |events|
  {
    if |events| == 0 then Transformed([], None)
    else Next(Transform(events[..|events| - 1]), events[|events| - 1])
  }

  /** One more event is one more step. */
  lemma TransformSnoc(a: seq<Json>, e: Json)
    ensures Transform(a + [e]) == Next(Transform(a), e)
  {
    assert (a + [e])[..|a + [e]| - 1] == a;
  }

  /** A step after a clean prefix adds to the chunks as it would alone. */
  lemma NextShift(c: seq<Chunk>, prev: Transformed, e: Json)
    requires prev.failure.None?
    ensures Next(Transformed(c + prev.chunks, None), e)
         == Transformed(c + Next(prev, e).chunks, Next(prev, e).failure)
  {
    var one := Next(Transformed([], None), e);
    assert c + prev.chunks + one.chunks == c + (prev.chunks + one.chunks);
  }

  /** Transforming a longer stream extends the shorter one's chunks: nothing
      yielded is ever taken back, and a failure is final. */
  lemma {:induction false} TransformAppend(a: seq<Json>, b: seq<Json>)
    ensures var ta := Transform(a);
      var tab := Transform(a + b);
      && ta.chunks <= tab.chunks
      && (ta.failure.Some? ==> tab == ta)
      && (ta.failure.None? ==> tab.chunks == ta.chunks + Transform(b).chunks && tab.failure == Transform(b).failure)
    decreases |b|
  {
    if |b| == 0 {
      assert a + b == a;
    } else {
      var n := |b| - 1;
      var init := b[..n];
      TransformAppend(a, init);
      assert a + b == (a + init) + [b[n]];
      assert b == init + [b[n]];
      TransformSnoc(a + init, b[n]);
      TransformSnoc(init, b[n]);
      var ta := Transform(a);
      var prevB := Transform(init);
      if ta.failure.None? && prevB.failure.None? {
        NextShift(ta.chunks, prevB, b[n]);
      }
    }
  }

  /** A stream of null-free events never breaks off. */
  lemma {:induction false} TransformNoFailure(events: seq<Json>)
    requires forall i :: 0 <= i < |events| ==> !events[i].JNull?
    ensures Transform(events).failure.None?
  {
    if |events| > 0 {
      TransformNoFailure(events[..|events| - 1]);
    }
  }

  /** `conversations.createStream(params, options)`: the call resolves for
      any 2xx response; the chunks, or the missing-body error, come when the
      stream is read. */
  function CreateStream(p: Package, lib: Lib, c: Client, params: ConversationRequest,
                        opts: RequestOptions, outcome: Outcome): (r: (Call, Result<Result<Transformed, Thrown>, Thrown>))
    ensures r.0.body == TextPayload(lib.stringify(RequestJson(Streaming(Sent(p, lib, ChatRequestOf(p, lib, params, true), true)))))
    ensures r.0 == PlanCall(lib, c, "POST", CompletionsPath, Value(RequestJson(ChatRequestOf(p, lib, params, true))), opts, true)
    ensures r.1.Ok? <==> outcome.Responded? && IsOk(outcome.response)
    ensures r.1.Ok? && outcome.response.body.Some? ==>
      r.1.value == Ok(Transform(Events(lib, CompleteLines(Text(outcome.response)))))
    ensures r.1.Ok? && outcome.response.body.None? ==> r.1.value == Err(PlainError(NoBodyMessage))
    ensures !(outcome.Responded? && IsOk(outcome.response)) ==>
      r.1 == Err(Chat.CreateStream(p, lib, c, ChatRequestOf(p, lib, params, true), opts, outcome).1.error)
  {
    StreamingRequestAsBuilt(p, lib, params);
    var (call, events) := Chat.CreateStream(p, lib, c, ChatRequestOf(p, lib, params, true), opts, outcome);
    (call, if events.Err? then Err(events.error)
           else if events.value.Err? then Ok(Err(events.value.error))
           else Ok(Ok(Transform(events.value.value))))
  }

  /** `Streaming` leaves a conversation's streaming request unchanged. */
  lemma StreamingRequestAsBuilt(p: Package, lib: Lib, params: ConversationRequest)
    ensures Streaming(Sent(p, lib, ChatRequestOf(p, lib, params, true), true)) == ChatRequestOf(p, lib, params, true)
  {
    if p == Npm {
      ConversationAlreadyNormal(lib, params, true);
    }
  }
}

=== FILE: errors.dfy ===
/** The SDK's error taxonomy (src/errors.ts) and, more generally, the values
    that can be thrown through the SDK: its own errors, other JavaScript
    `Error` objects (TypeError, SyntaxError, the fetch layer's AbortError),
    and non-`Error` values. */
module Errors {
  import opened Common

  /** One case per concrete error class. */
  datatype Kind =
    | Api                  // APIError
    | Authentication       // AuthenticationError
    | PermissionDenied     // PermissionDeniedError
    | NotFound             // NotFoundError
    | UnprocessableEntity  // UnprocessableEntityError
    | RateLimit            // RateLimitError
    | InternalServer       // InternalServerError
    | Connection           // APIConnectionError
    | ConnectionTimeout    // APIConnectionTimeoutError

  /** The classes one can test with `instanceof`. */
  datatype Class = SvectorErrorClass | ClassOf(kind: Kind)

  /** The subclass relation of src/errors.ts: every kind extends
      `SVECTORError` directly, except the timeout error, which extends
      `APIConnectionError`. */
  predicate InstanceOf(k: Kind, c: Class) {
    || c == SvectorErrorClass
    || c == ClassOf(k)
    || (k == ConnectionTimeout && c == ClassOf(Connection))
  }

  /** `err instanceof APIError` holds of APIError alone: the status-specific
      classes are siblings of APIError, not subclasses. */
  lemma OnlyApiIsApiError(k: Kind)
    ensures InstanceOf(k, ClassOf(Api)) <==> k == Api
    ensures InstanceOf(k, ClassOf(Connection)) <==> k == Connection || k == ConnectionTimeout
  {
  }

  /** The status a status-specific class always carries. */
  function FixedStatus(k: Kind): Option<int> {
    match k
    case Authentication => Some(401)
    case PermissionDenied => Some(403)
    case NotFound => Some(404)
    case UnprocessableEntity => Some(422)
    case RateLimit => Some(429)
    case _ => None
  }

  predicate HasFixedStatus(k: Kind) {
    k == Authentication || k == PermissionDenied || k == NotFound
    || k == UnprocessableEntity || k == RateLimit
  }

  /** The message each class uses when constructed without one. */
  function DefaultMessage(k: Kind): string {
    match k
    case Api => ""
    case Authentication => "Authentication failed"
    case PermissionDenied => "Permission denied"
    case NotFound => "Resource not found"
    case UnprocessableEntity => "Unprocessable entity"
    case RateLimit => "Rate limit exceeded"
    case InternalServer => "Internal server error"
    case Connection => "Connection error"
    case ConnectionTimeout => "Request timed out"
  }

  /** The `name` property each class sets. */
  function ClassName(k: Kind): string {
    match k
    case Api => "APIError"
    case Authentication => "AuthenticationError"
    case PermissionDenied => "PermissionDeniedError"
    case NotFound => "NotFoundError"
    case UnprocessableEntity => "UnprocessableEntityError"
    case RateLimit => "RateLimitError"
    case InternalServer => "InternalServerError"
    case Connection => "APIConnectionError"
    case ConnectionTimeout => "APIConnectionTimeoutError"
  }

  /** An instance of one of the SDK's error classes. */
  datatype SdkError = SdkError(
    kind: Kind,
    message: string,
    status: Option<int>,
    requestId: Option<string>,
    headers: Option<map<string, string>>)

  /** The invariant every constructor establishes: the kind decides the
      status, except for APIError (any status) and InternalServerError (some
      status, 500 unless given). Connection errors carry none. */
  predicate WellFormed(e: SdkError) {
    && (HasFixedStatus(e.kind) ==> e.status == FixedStatus(e.kind))
    && (e.kind == InternalServer ==> e.status.Some?)
    && (e.kind == Connection || e.kind == ConnectionTimeout ==>
          e.status.None? && e.requestId.None? && e.headers.None?)
  }

  /** `new APIError(message, status, requestId, headers)`. */
  function NewApiError(message: string, status: Option<int>, requestId: Option<string>,
                       headers: Option<map<string, string>>): (e: SdkError)
    ensures WellFormed(e) && e.kind == Api && e.status == status
  {
    SdkError(Api, message, status, requestId, headers)
  }

  /** `new AuthenticationError(...)` and the four other status-specific
      classes: the status is fixed by the class, the message defaults. */
  function NewFixed(k: Kind, message: Option<string>, requestId: Option<string>,
                    headers: Option<map<string, string>>): (e: SdkError)
    requires HasFixedStatus(k)
    ensures WellFormed(e) && e.kind == k
    ensures e.status.Some? && 400 <= e.status.value < 500
    ensures message.None? ==> e.message == DefaultMessage(k)
  {
    SdkError(k, message.GetOr(DefaultMessage(k)), FixedStatus(k), requestId, headers)
  }

  /** `new InternalServerError(message, status, ...)`: status 500 unless given. */
  function NewInternalServer(message: Option<string>, status: Option<int>, requestId: Option<string>,
                             headers: Option<map<string, string>>): (e: SdkError)
    ensures WellFormed(e) && e.kind == InternalServer
    ensures status.Some? ==> e.status == status
    ensures status.None? ==> e.status == Some(500)
  {
    SdkError(InternalServer, message.GetOr(DefaultMessage(InternalServer)),
             Some(status.GetOr(500)), requestId, headers)
  }

  /** `new APIConnectionError(message)` / `new APIConnectionTimeoutError(message)`. */
  function NewConnection(timeout: bool, message: Option<string>): (e: SdkError)
    ensures WellFormed(e)
    ensures InstanceOf(e.kind, ClassOf(Connection))
    ensures (e.kind == ConnectionTimeout) == timeout
  {
    var k := if timeout then ConnectionTimeout else Connection;
    SdkError(k, message.GetOr(DefaultMessage(k)), None, None, None)
  }

  /** A value travelling through a `throw`. */
  datatype Thrown =
    | Sdk(err: SdkError)                   // an SDK error class instance
    | JsError(name: string, message: string) // any other `Error` (TypeError, SyntaxError, AbortError, ...)
    | NonError                               // a thrown value that is not an `Error`

  /** `err instanceof Error`. */
  predicate IsError(t: Thrown) {
    !t.NonError?
  }

  /** `err.name` of an `Error`. */
  function NameOf(t: Thrown): string
    requires IsError(t)
  {
    match t
    case Sdk(e) => ClassName(e.kind)
    case JsError(n, _) => n
  }

  /** `err.message` of an `Error`. */
  function MessageOf(t: Thrown): string
    requires IsError(t)
  {
    match t
    case Sdk(e) => e.message
    case JsError(_, m) => m
  }

  /** `err instanceof Error && err.name === 'AbortError'`: the rejection the
      fetch layer produces when its signal fires. */
  predicate IsAbort(t: Thrown) {
    t.JsError? && t.name == "AbortError"
  }

  /** `new Error(message)`. */
  function PlainError(message: string): Thrown {
    JsError("Error", message)
  }
}

=== FILE: js.dfy ===
/** The JavaScript values the SDK handles at run time, restricted to what JSON
    can carry, with the three language rules the source leans on: truthiness
    (`a || b`, `if (x)`), property access (`x.p`, `x?.p`, `x[0]`) and
    `String(x)`. JSON parsing and serialisation are library code; they enter
    the model as the uninterpreted functions of a `Lib` record. */
module Js {
  import opened Common

  /** A parsed JSON value. Numbers are reals; objects are maps from keys. */
  datatype Json =
    | JNull
    | JBool(b: bool)
    | JNum(n: real)
    | JStr(s: string)
    | JArr(items: seq<Json>)
    | JObj(fields: map<string, Json>)

  /** The library functions the source calls without the model looking
      inside: `JSON.parse` (a value, or the SyntaxError's message),
      `JSON.stringify`, and `String()` of a JSON number. */
  datatype Lib = Lib(
    parse: string -> Result<Json, string>,
    stringify: Json -> string,
    numberText: real -> string)

  /** JavaScript truthiness of a JSON value (`undefined` is `None` at the
      call sites). */
  predicate Truthy(v: Json) {
    match v
    case JNull => false
    case JBool(b) => b
    case JNum(n) => n != 0.0
    case JStr(s) => s != ""
    case JArr(_) => true
    case JObj(_) => true
  }

  /** Truthiness of a possibly-undefined value. */
  predicate TruthyOpt(v: Option<Json>) {
    v.Some? && Truthy(v.value)
  }

  /** `typeof v === 'object' && v !== null`. */
  predicate IsObject(v: Json) {
    v.JArr? || v.JObj?
  }

  /** A property key: a name (`x.message`) or an index (`x[0]`). */
  datatype Key = Name(name: string) | At(index: nat)

  function KeyText(k: Key): string {
    match k
    case Name(n) => n
    case At(i) => NatToString(i)
  }

  /** Own-property lookup on a non-null value; `None` is `undefined`. Arrays
      and strings answer indices and `length`; objects answer their keys. */
  function Prop(v: Json, k: Key): (r: Option<Json>)
    ensures v.JObj? ==> (r.Some? <==> KeyText(k) in v.fields)
    ensures v.JArr? && k.At? ==> (r.Some? <==> k.index < |v.items|)
    ensures v.JNull? || v.JBool? || v.JNum? ==> r.None?
  {
    match v
    case JObj(m) => if KeyText(k) in m then Some(m[KeyText(k)]) else None
    case JArr(a) =>
      (match k
       case At(i) => if i < |a| then Some(a[i]) else None
       case Name(n) => if n == "length" then Some(JNum(|a| as real)) else None)
    case JStr(s) =>
      (match k
       case At(i) => if i < |s| then Some(JStr([s[i]])) else None
       case Name(n) => if n == "length" then Some(JNum(|s| as real)) else None)
    case _ => None
  }

  /** `x.p` where `x` may be `undefined` or `null`: those throw a TypeError,
      reported with V8's wording. */
  function Member(v: Option<Json>, k: Key): Result<Option<Json>, string> {
    if v.None? then Err("Cannot read properties of undefined (reading '" + KeyText(k) + "')")
    else if v.value.JNull? then Err("Cannot read properties of null (reading '" + KeyText(k) + "')")
    else Ok(Prop(v.value, k))
  }

  /** `x?.p`: `undefined` when `x` is `undefined` or `null`. */
  function Chain(v: Option<Json>, k: Key): (r: Option<Json>)
    ensures v.None? || v.value.JNull? ==> r.None?
    ensures v.Some? && !v.value.JNull? ==> r == Prop(v.value, k)
  {
    if v.None? || v.value.JNull? then None else Prop(v.value, k)
  }

  /** `x?.k1?.k2?...` along a path. */
  function Path(v: Option<Json>, keys: seq<Key>): Option<Json>
    decreases |keys|
  {
    if |keys| == 0 then v else Path(Chain(v, keys[0]), keys[1..])
  }

  /** Every path through an absent value is absent. */
  lemma {:induction false} PathOfNone(keys: seq<Key>)
    ensures Path(None, keys) == None
    decreases |keys|
  {
    if |keys| > 0 {
      PathOfNone(keys[1..]);
    }
  }

  /** `String(v)` for a JSON value: strings are themselves, arrays join their
      elements with commas (null becomes empty), objects read
      `[object Object]`. */
  function JsString(lib: Lib, v: Json): string
  {
    match v
    case JNull => "null"
    case JBool(b) => if b then "true" else "false"
    case JNum(n) => lib.numberText(n)
    case JStr(s) => s
    case JArr(items) =>
      JoinComma(seq(|items|, i requires 0 <= i < |items| =>
        if items[i].JNull? then "" else JsString(lib, items[i])))
    case JObj(_) => "[object Object]"
  }

  /** `parts.join(',')`. */
  function JoinComma(parts: seq<string>): string {
    if |parts| == 0 then ""
    else if |parts| == 1 then parts[0]
    else parts[0] + "," + JoinComma(parts[1..])
  }
}

=== FILE: messages.dfy ===
/** The chat request shapes of src/types.ts as they travel to the server:
    a message is a role, a content value and any other fields the caller
    added; a request is its messages, its `stream` flag and its other
    fields (`model`, `max_tokens`, `temperature`, `files`, ...). Content is
    a JSON value because the source accepts a string, an array of parts, or
    any object at run time. */
module Messages {
  import opened Common
  import opened Js

  const RoleSystem: string := "system"
  const RoleUser: string := "user"
  const RoleAssistant: string := "assistant"

  datatype ChatMessage = ChatMessage(role: string, content: Json, others: map<string, Json>)

  datatype ChatRequest = ChatRequest(messages: seq<ChatMessage>, stream: Option<Json>, others: map<string, Json>)

  /** The JSON object of a message: the named fields override the others,
      as `{...message, content}` does. */
  function MessageJson(m: ChatMessage): (r: Json)
    ensures r.JObj? && r.fields.Keys == m.others.Keys + {"role", "content"}
    ensures r.fields["role"] == JStr(m.role) && r.fields["content"] == m.content
  {
    JObj(m.others["role" := JStr(m.role)]["content" := m.content])
  }

  /** The JSON object of a request, as `JSON.stringify` receives it. */
  function RequestJson(r: ChatRequest): (j: Json)
    ensures j.JObj? && "messages" in j.fields
    ensures j.fields["messages"] == JArr(seq(|r.messages|, i requires 0 <= i < |r.messages| => MessageJson(r.messages[i])))
    ensures r.stream.Some? <==> "stream" in j.fields
    ensures r.stream.Some? ==> j.fields["stream"] == r.stream.value
  {
    var base := r.others["messages" := JArr(seq(|r.messages|, i requires 0 <= i < |r.messages| => MessageJson(r.messages[i])))] - {"stream"};
    JObj(if r.stream.Some? then base["stream" := r.stream.value] else base)
  }

  /** `{ type: 'text', text }`. */
  function TextPart(text: string): Json {
    JObj(map["type" := JStr("text"), "text" := JStr(text)])
  }

  /** `{ type: 'image_url', image_url: { url, detail } }`. */
  function ImagePart(url: string, detail: string): Json {
    JObj(map["type" := JStr("image_url"),
             "image_url" := JObj(map["url" := JStr(url), "detail" := JStr(detail)])])
  }

  /** A message with plain string content. */
  function Say(role: string, text: string): ChatMessage {
    ChatMessage(role, JStr(text), map[])
  }
}

=== FILE: request_engine.dfy ===
/** The request engine of src/client.ts and jsr/client.ts: header assembly,
    body preparation, the mapping from an error response to an SDK error,
    the retry predicate, exponential backoff, the `request`/`withResponse`
    retry loop and the single-attempt `requestStream`.

    Status codes are those of section 15 of RFC 9110 (524 is a CDN-specific
    extra); the bearer header is the one of section 2.1 of RFC 6750. */
module RequestEngine {
  import opened Common
  import opened Js
  import opened Errors
  import opened Transport
  import opened ClientConfig

  const UserAgent: string := "svector-sdk/1.0.0"
  const JsonContentType: string := "application/json"
  const EventStream: string := "text/event-stream"
  const MethodNotAllowedMessage: string := "Method Not Allowed. Please check the API endpoint and HTTP method."
  const RequestIdHeader: string := "x-request-id"

  // ---------------------------------------------------------------------
  // Request assembly
  // ---------------------------------------------------------------------

  /** A request body as the caller passes it: absent, a `FormData`, or a
      JSON-serialisable value. */
  datatype Body = Undefined | FormData(fields: seq<(string, string)>) | Value(v: Json)

  /** `if (body)`: a FormData is an object, hence truthy. */
  predicate BodyTruthy(b: Body) {
    match b
    case Undefined => false
    case FormData(_) => true
    case Value(v) => Truthy(v)
  }

  /** What goes on the wire: nothing, the form as is, or JSON text. */
  datatype Prepared = NoPayload | FormPayload(fields: seq<(string, string)>) | TextPayload(text: string)

  /** `prepareRequestBody(body)`. */
  function PrepareBody(lib: Lib, b: Body): (r: Prepared)
    ensures r.NoPayload? <==> !BodyTruthy(b)
    ensures b.FormData? ==> r == FormPayload(b.fields)
    ensures r.TextPayload? ==> b.Value? && r.text == lib.stringify(b.v)
  {
    if !BodyTruthy(b) then NoPayload
    else if b.FormData? then FormPayload(b.fields)
    else TextPayload(lib.stringify(b.v))
  }

  /** `!headers[name]` is false: the header is there with a non-empty value. */
  predicate HeaderSet(h: map<string, string>, name: string) {
    name in h && h[name] != ""
  }

  /** The Content-Type rule: a truthy, non-form body whose caller set neither
      spelling of the header. */
  predicate AddsJsonType(body: Body, custom: map<string, string>) {
    BodyTruthy(body) && !body.FormData?
    && !HeaderSet(custom, "Content-Type") && !HeaderSet(custom, "content-type")
  }

  /** `buildHeaders(body, customHeaders)`. */
  function BuildHeaders(apiKey: string, body: Body, custom: map<string, string>): (r: map<string, string>)
    ensures r.Keys == custom.Keys + {"Authorization", "User-Agent"}
                      + (if AddsJsonType(body, custom) then {"Content-Type"} else {})
    ensures forall k :: k in custom && !(k == "Content-Type" && AddsJsonType(body, custom)) ==> r[k] == custom[k]
    ensures "Authorization" !in custom ==> r["Authorization"] == "Bearer " + apiKey
    ensures "User-Agent" !in custom ==> r["User-Agent"] == UserAgent
    ensures AddsJsonType(body, custom) ==> r["Content-Type"] == JsonContentType
  {
    var base := map["Authorization" := "Bearer " + apiKey, "User-Agent" := UserAgent] + custom;
    assert HeaderSet(base, "Content-Type") == HeaderSet(custom, "Content-Type");
    assert HeaderSet(base, "content-type") == HeaderSet(custom, "content-type");
    if BodyTruthy(body) && !body.FormData? && !HeaderSet(base, "Content-Type") && !HeaderSet(base, "content-type")
    then base["Content-Type" := JsonContentType]
    else base
  }

  /** `options` of a request; `None` is `undefined`. */
  datatype RequestOptions = RequestOptions(
    headers: Option<map<string, string>>,
    query: Option<seq<(string, string)>>,
    maxRetries: Option<int>,
    timeout: Option<int>)

  /** `new URL(baseURL + path)` with the query parameters appended in order. */
  datatype Url = Url(href: string, query: seq<(string, string)>)

  /** The arguments of one `fetch` call. */
  datatype Call = Call(verb: string, url: Url, headers: map<string, string>, body: Prepared, timeout: int)

  /** The call `request`, `withResponse` (`stream` false) and `requestStream`
      (`stream` true) issue: the per-call timeout overrides the client's, and
      the streaming variant forces the Accept header. */
  function PlanCall(lib: Lib, c: Client, verb: string, path: string, body: Body,
                    opts: RequestOptions, stream: bool): (r: Call)
    ensures r.timeout == opts.timeout.GetOr(c.timeout)
    ensures r.url == Url(c.baseURL + path, opts.query.GetOr([]))
    ensures var h := BuildHeaders(c.apiKey, body, opts.headers.GetOr(map[]));
      && (!stream ==> r.headers == h)
      && (stream ==> r.headers.Keys == h.Keys + {"Accept"} && r.headers["Accept"] == EventStream
                     && forall k :: k in h && k != "Accept" ==> r.headers[k] == h[k])
    ensures r.body == PrepareBody(lib, body)
  {
    var h := BuildHeaders(c.apiKey, body, opts.headers.GetOr(map[]));
    Call(verb, Url(c.baseURL + path, opts.query.GetOr([])),
         if stream then h["Accept" := EventStream] else h,
         PrepareBody(lib, body), opts.timeout.GetOr(c.timeout))
  }

  // ---------------------------------------------------------------------
  // Error responses
  // ---------------------------------------------------------------------

  /** `parseErrorResponse(response)`: the JSON body, or `{message: statusText}`
      when the body is not JSON. */
  function ErrorBody(lib: Lib, resp: Response): Json {
    match JsonOf(lib, resp)
    case Ok(v) => v
    case Err(_) => JObj(map["message" := JStr(resp.statusText)])
  }

  /** The fields consulted for the message, in order; the JSR build does not
      look at `detail`. */
  function MessageFields(p: Package): seq<string> {
    if p == Npm then ["message", "error", "detail"] else ["message", "error"]
  }

  /** The first truthy field of `data` among `fields`. */
  function FirstTruthy(data: Json, fields: seq<string>): (r: Option<Json>)
    ensures r.Some? ==> Truthy(r.value)
    ensures r.Some? <==> exists i :: 0 <= i < |fields| && TruthyOpt(Prop(data, Name(fields[i])))
  {
    if |fields| == 0 then None
    else if TruthyOpt(Prop(data, Name(fields[0]))) then Prop(data, Name(fields[0]))
    else
      var rest := FirstTruthy(data, fields[1..]);
      assert forall i :: 1 <= i < |fields| ==> fields[i] == fields[1..][i - 1];
      rest
  }

  /** `data.message || data.error || data.detail || \`HTTP ${status}\``;
      reading a field of `null` throws a TypeError. */
  function ErrorMessage(p: Package, data: Json, status: int): Result<Json, Thrown> {
    if data.JNull? then Err(JsError("TypeError", "Cannot read properties of null (reading 'message')"))
    else
      var found := FirstTruthy(data, MessageFields(p));
      Ok(if found.Some? then found.value else JStr("HTTP " + IntToString(status)))
  }

  /** The kind of error a status becomes, as an independent table. */
  function KindFor(p: Package, status: int): Kind {
    if status == 401 then Authentication
    else if status == 403 then PermissionDenied
    else if status == 404 then NotFound
    else if status == 422 then UnprocessableEntity
    else if status == 429 then RateLimit
    else if status >= 500 then InternalServer
    else Api
  }

  /** The fixed messages the npm build gives to selected statuses. */
  function FixedMessage(p: Package, status: int): Option<string> {
    if p == Jsr then None
    else if status == 405 then Some(MethodNotAllowedMessage)
    else if status == 502 then Some("Bad Gateway - API server temporarily unavailable")
    else if status == 503 then Some("Service Unavailable - API server temporarily overloaded")
    else if status == 504 then Some("Gateway Timeout - API request timed out")
    else if status == 524 then Some("Cloudflare Timeout - Request took too long to process")
    else None
  }

  /** `createErrorFromResponse(response, data)`. */
  function CreateError(p: Package, lib: Lib, resp: Response, data: Json): (r: Result<SdkError, Thrown>)
    ensures r.Ok? <==> !data.JNull?
    ensures r.Ok? ==> WellFormed(r.value) && r.value.kind == KindFor(p, resp.status)
                      && r.value.status == Some(resp.status)
    ensures r.Ok? && FixedMessage(p, resp.status).Some? ==> r.value.message == FixedMessage(p, resp.status).value
  {
    match ErrorMessage(p, data, resp.status)
    case Err(t) => Err(t)
    case Ok(msg) =>
      var m := JsString(lib, msg);
      var header := Header(resp, RequestIdHeader);
      var rid := if Present(header) then header else None;
      var hs := Some(resp.headers);
      var s := resp.status;
      Ok(
        if s == 401 then NewFixed(Authentication, Some(m), rid, hs)
        else if s == 403 then NewFixed(PermissionDenied, Some(m), rid, hs)
        else if s == 404 then NewFixed(NotFound, Some(m), rid, hs)
        else if s == 405 && p == Npm then NewApiError(MethodNotAllowedMessage, Some(s), rid, hs)
        else if s == 422 then NewFixed(UnprocessableEntity, Some(m), rid, hs)
        else if s == 429 then NewFixed(RateLimit, Some(m), rid, hs)
        else if FixedMessage(p, s).Some? then NewInternalServer(FixedMessage(p, s), Some(s), rid, hs)
        else if s >= 500 then NewInternalServer(Some(m), Some(s), rid, hs)
        else NewApiError(m, Some(s), rid, hs))
  }

  // ---------------------------------------------------------------------
  // Retry policy
  // ---------------------------------------------------------------------

  /** `shouldRetry(status, retries, maxRetries)`. */
  function ShouldRetry(p: Package, status: Option<int>, retries: int, maxRetries: int): bool {
    if retries >= maxRetries then false
    else if status.None? || status.value == 0 then false
    else
      var listed := if p == Npm then status.value in {408, 409, 429, 502, 503, 504, 524}
                    else status.value in {408, 409, 429};
      listed || status.value >= 500
  }

  /** `calculateBackoffDelay(k)`: `min(2^k * 1000, 8000)` milliseconds. */
  function Backoff(k: nat): int {
    Min(Pow2(k) * 1000, 8000)
  }

  // ---------------------------------------------------------------------
  // One attempt and the retry loop
  // ---------------------------------------------------------------------

  /** A success value with the `_request_id` the engine may attach. */
  datatype Payload = Payload(body: Json, requestId: Option<string>)

  /** `if (requestId && typeof data === 'object' && data !== null)
      data._request_id = requestId`. */
  function AttachRequestId(v: Json, header: Option<string>): Payload {
    if Present(header) && IsObject(v) then Payload(v, header) else Payload(v, None)
  }

  /** Reading `payload._request_id` back. */
  function ReadRequestId(p: Payload): Option<Json> {
    if p.requestId.Some? then Some(JStr(p.requestId.value)) else Chain(Some(p.body), Name("_request_id"))
  }

  /** What `request` returns (`data`) and `withResponse` returns (`data`
      and `response`). */
  datatype Success = Success(data: Payload, response: Response)

  /** The body of the `try`: one fetch and the handling of its response. */
  function Attempt(p: Package, lib: Lib, outcome: Outcome): Result<Success, Thrown> {
    match outcome
    case Rejected(t) => Err(t)
    case Responded(resp) =>
      if !IsOk(resp) then
        match CreateError(p, lib, resp, ErrorBody(lib, resp))
        case Ok(e) => Err(Sdk(e))
        case Err(t) => Err(t)
      else
        match JsonOf(lib, resp)
        case Ok(v) => Ok(Success(AttachRequestId(v, Header(resp, RequestIdHeader)), resp))
        case Err(t) => Err(t)
  }

  /** Everything one retry loop needs. `isApi` is the `instanceof APIError`
      test of the package's error classes. */
  datatype Ctx = Ctx(p: Package, lib: Lib, isApi: Kind -> bool, call: Call, maxRetries: int)

  /** The record of a loop: its result, the fetch calls made, and the sleeps
      between them in milliseconds. */
  datatype Run = Run(result: Result<Success, Thrown>, calls: seq<Call>, sleeps: seq<int>)

  /** The `catch` decides to go round again. */
  predicate Retries(ctx: Ctx, t: Thrown, retries: int) {
    !IsAbort(t) && t.Sdk? && ctx.isApi(t.err.kind) && ShouldRetry(ctx.p, t.err.status, retries, ctx.maxRetries)
  }

  /** What the `catch` throws when it does not retry. */
  function Rethrown(ctx: Ctx, t: Thrown, retries: int): Thrown {
    if IsAbort(t) then Sdk(NewConnection(true, Some("Request timed out")))
    else if retries == ctx.maxRetries then Sdk(NewConnection(false, Some("Max retries exceeded")))
    else t
  }

  const UnexpectedError: Thrown := Sdk(NewConnection(false, Some("Unexpected error")))

  /** `while (retries <= maxRetries) { try { ... } catch { ... } }` followed
      by the final `throw`. Attempt number `retries` receives `net(retries)`. */
  function RetryLoop(ctx: Ctx, net: Network, retries: nat): Run
    decreases if retries <= ctx.maxRetries then ctx.maxRetries - retries + 1 else 0
  {
    if retries > ctx.maxRetries then Run(Err(UnexpectedError), [], [])
    else
      match Attempt(ctx.p, ctx.lib, net(retries))
      case Ok(s) => Run(Ok(s), [ctx.call], [])
      case Err(t) =>
        if Retries(ctx, t, retries) then
          var rest := RetryLoop(ctx, net, retries + 1);
          Run(rest.result, [ctx.call] + rest.calls, [Backoff(retries + 1)] + rest.sleeps)
        else Run(Err(Rethrown(ctx, t, retries)), [ctx.call], [])
  }

  /** `instanceof APIError` for the npm build's classes. */
  predicate NpmIsApi(k: Kind) {
    InstanceOf(k, ClassOf(Api))
  }

  /** The loop context of one `request`/`withResponse` call. */
  function RequestCtx(p: Package, lib: Lib, isApi: Kind -> bool, c: Client, verb: string,
                      path: string, body: Body, opts: RequestOptions): (ctx: Ctx)
    ensures ctx.maxRetries == opts.maxRetries.GetOr(c.maxRetries)
    ensures ctx.call.timeout == opts.timeout.GetOr(c.timeout)
  {
    Ctx(p, lib, isApi, PlanCall(lib, c, verb, path, body, opts, false), opts.maxRetries.GetOr(c.maxRetries))
  }

  /** `client.request(method, path, body, options)` (and `withResponse`,
      which runs the same loop and also returns the response). */
  function Request(p: Package, lib: Lib, isApi: Kind -> bool, c: Client, verb: string,
                   path: string, body: Body, opts: RequestOptions, net: Network): Run
  {
    RetryLoop(RequestCtx(p, lib, isApi, c, verb, path, body, opts), net, 0)
  }

  /** `client.requestStream(...)`: one attempt, no retry; a timeout becomes
      the timeout error, anything else is rethrown as is. */
  function RequestStream(p: Package, lib: Lib, c: Client, verb: string, path: string,
                         body: Body, opts: RequestOptions, outcome: Outcome): (r: (Call, Result<Response, Thrown>))
    ensures r.0 == PlanCall(lib, c, verb, path, body, opts, true)
    ensures r.1.Ok? <==> outcome.Responded? && IsOk(outcome.response)
    ensures outcome.Responded? && IsOk(outcome.response) ==> r.1 == Ok(outcome.response)
    ensures outcome.Rejected? && IsAbort(outcome.thrown) ==>
              r.1 == Err(Sdk(NewConnection(true, Some("Request timed out"))))
    ensures outcome.Rejected? && !IsAbort(outcome.thrown) ==> r.1 == Err(outcome.thrown)
    ensures outcome.Responded? && !IsOk(outcome.response) ==>
              var e := CreateError(p, lib, outcome.response, ErrorBody(lib, outcome.response));
              && (e.Ok? ==> r.1 == Err(Sdk(e.value)) && e.value.kind == KindFor(p, outcome.response.status))
              && (e.Err? ==> r.1 == Err(e.error))
  {
    var call := PlanCall(lib, c, verb, path, body, opts, true);
    match outcome
    case Rejected(t) =>
      (call, Err(if IsAbort(t) then Sdk(NewConnection(true, Some("Request timed out"))) else t))
    case Responded(resp) =>
      if IsOk(resp) then (call, Ok(resp))
      else
        match CreateError(p, lib, resp, ErrorBody(lib, resp))
        case Ok(e) => (call, Err(Sdk(e)))
        case Err(t) => (call, Err(t))
  }
}

=== FILE: request_engine_proofs.dfy ===
/** What the retry loop of `request`/`withResponse` guarantees, stated
    without reference to its recursion: the attempts before the last one all
    asked for a retry, the last one decided the result, there are at most
    `maxRetries + 1` fetch calls, and the sleeps between them follow the
    backoff schedule. */
module RequestEngineProofs {
  import opened Common
  import opened Js
  import opened Errors
  import opened Transport
  import opened RequestEngine

  /** Attempt `j` failed with an error the `catch` retries. */
  predicate AttemptRetried(ctx: Ctx, net: Network, j: nat) {
    var a := Attempt(ctx.p, ctx.lib, net(j));
    a.Err? && Retries(ctx, a.error, j)
  }

  /** Attempt `j` ends the loop with `result`: it succeeded, or it failed
      with an error that is not retried and is rethrown as the `catch` says. */
  predicate Decides(ctx: Ctx, net: Network, j: nat, result: Result<Success, Thrown>) {
    match Attempt(ctx.p, ctx.lib, net(j))
    case Ok(s) => result == Ok(s)
    case Err(t) => !Retries(ctx, t, j) && result == Err(Rethrown(ctx, t, j))
  }

  /** The observable contract of the loop. With a negative retry budget no
      call is made and the final `throw` fires. */
  predicate ValidRun(ctx: Ctx, net: Network, run: Run) {
    if ctx.maxRetries < 0 then run == Run(Err(UnexpectedError), [], [])
    else
      && 1 <= |run.calls| <= ctx.maxRetries + 1
      && |run.sleeps| == |run.calls| - 1
      && (forall i :: 0 <= i < |run.calls| ==> run.calls[i] == ctx.call)
      && (forall i :: 0 <= i < |run.sleeps| ==> run.sleeps[i] == Backoff(i + 1))
      && (forall j :: 0 <= j < |run.calls| - 1 ==> AttemptRetried(ctx, net, j))
      && Decides(ctx, net, |run.calls| - 1, run.result)
  }

  /** The shape of the loop entered at attempt `k`: `ValidRun` shifted by
      `k` attempts. */
  predicate RunFrom(ctx: Ctx, net: Network, k: nat, run: Run) {
    && 1 <= |run.calls| <= ctx.maxRetries - k + 1
    && |run.sleeps| == |run.calls| - 1
    && (forall i :: 0 <= i < |run.calls| ==> run.calls[i] == ctx.call)
    && (forall i :: 0 <= i < |run.sleeps| ==> run.sleeps[i] == Backoff(k + i + 1))
    && (forall j :: k <= j < k + |run.calls| - 1 ==> AttemptRetried(ctx, net, j))
    && Decides(ctx, net, k + |run.calls| - 1, run.result)
  }

  /** A retried attempt `k` puts its call and its backoff in front of the
      run from attempt `k + 1`. */
  lemma RetriedStep(ctx: Ctx, net: Network, k: nat)
    requires k <= ctx.maxRetries
    requires AttemptRetried(ctx, net, k)
    requires RunFrom(ctx, net, k + 1, RetryLoop(ctx, net, k + 1))
    ensures RunFrom(ctx, net, k, RetryLoop(ctx, net, k))
  {
    var run := RetryLoop(ctx, net, k);
    var rest := RetryLoop(ctx, net, k + 1);
    assert run == Run(rest.result, [ctx.call] + rest.calls, [Backoff(k + 1)] + rest.sleeps);
    AllSameCons(ctx.call, rest.calls, run.calls);
    BackoffCons(k, rest.sleeps, run.sleeps);
  }

  /** Putting one more copy of `x` in front keeps a sequence of copies. */
  lemma AllSameCons<T>(x: T, rest: seq<T>, s: seq<T>)
    requires s == [x] + rest
    requires forall i :: 0 <= i < |rest| ==> rest[i] == x
    ensures forall i :: 0 <= i < |s| ==> s[i] == x
  {
    forall i | 0 <= i < |s|
      ensures s[i] == x
    {
      if i > 0 {
        assert s[i] == rest[i - 1];
      }
    }
  }

  /** The backoff of retry `k + 1` in front of the schedule from retry
      `k + 2` on is the schedule from retry `k + 1` on. */
  lemma BackoffCons(k: nat, rest: seq<int>, s: seq<int>)
    requires s == [Backoff(k + 1)] + rest
    requires forall i :: 0 <= i < |rest| ==> rest[i] == Backoff(k + 1 + i + 1)
    ensures forall i :: 0 <= i < |s| ==> s[i] == Backoff(k + i + 1)
  {
    forall i | 0 <= i < |s|
      ensures s[i] == Backoff(k + i + 1)
    {
      if i > 0 {
        assert s[i] == rest[i - 1];
      }
    }
  }

  /** An attempt that is not retried decides the run alone. */
  lemma DecidedStep(ctx: Ctx, net: Network, k: nat)
    requires k <= ctx.maxRetries
    requires !AttemptRetried(ctx, net, k)
    ensures RunFrom(ctx, net, k, RetryLoop(ctx, net, k))
  {
    var run := RetryLoop(ctx, net, k);
    assert run.calls == [ctx.call] && run.sleeps == [];
  }

  /** The loop entered at attempt `k`. */
  lemma {:induction false} LoopFrom(ctx: Ctx, net: Network, k: nat)
    requires k <= ctx.maxRetries
    ensures RunFrom(ctx, net, k, RetryLoop(ctx, net, k))
    decreases ctx.maxRetries - k
  {
    if AttemptRetried(ctx, net, k) {
      assert k < ctx.maxRetries;
      LoopFrom(ctx, net, k + 1);
      RetriedStep(ctx, net, k);
    } else {
      DecidedStep(ctx, net, k);
    }
  }

  /** The loop meets its contract. */
  lemma LoopMeetsSpec(ctx: Ctx, net: Network)
    ensures ValidRun(ctx, net, RetryLoop(ctx, net, 0))
  {
    if ctx.maxRetries >= 0 {
      LoopFrom(ctx, net, 0);
    }
  }

  /** The contract leaves no freedom: any two runs meeting it are equal. */
  lemma ValidRunUnique(ctx: Ctx, net: Network, r1: Run, r2: Run)
    requires ValidRun(ctx, net, r1) && ValidRun(ctx, net, r2)
    ensures r1 == r2
  {
    if ctx.maxRetries >= 0 {
      NotRetriedAndDecided(ctx, net, |r1.calls| - 1, r1.result);
      NotRetriedAndDecided(ctx, net, |r2.calls| - 1, r2.result);
      assert |r1.calls| == |r2.calls|;
      assert r1.calls == r2.calls;
      assert r1.sleeps == r2.sleeps;
    }
  }

  /** A deciding attempt is not a retried one, and it fixes the result. */
  lemma NotRetriedAndDecided(ctx: Ctx, net: Network, j: nat, result: Result<Success, Thrown>)
    requires Decides(ctx, net, j, result)
    ensures !AttemptRetried(ctx, net, j)
    ensures forall other :: Decides(ctx, net, j, other) ==> other == result
  {
  }

  /** `request` and `withResponse` run the loop on the call they planned,
      with the per-call retry budget overriding the client's. */
  lemma RequestMeetsSpec(p: Package, lib: Lib, isApi: Kind -> bool, c: ClientConfig.Client, verb: string,
                         path: string, body: Body, opts: RequestOptions, net: Network)
    ensures var ctx := RequestCtx(p, lib, isApi, c, verb, path, body, opts);
      ValidRun(ctx, net, Request(p, lib, isApi, c, verb, path, body, opts, net))
      && ctx.maxRetries == opts.maxRetries.GetOr(c.maxRetries)
  {
    LoopMeetsSpec(RequestCtx(p, lib, isApi, c, verb, path, body, opts), net);
  }

  /** No fetch call is made exactly when the retry budget is negative; then
      the loop's final `throw new APIConnectionError('Unexpected error')` is
      what the caller sees. */
  lemma NoCallIffNegativeBudget(ctx: Ctx, net: Network)
    ensures var run := RetryLoop(ctx, net, 0);
      (run.calls == [] <==> ctx.maxRetries < 0)
      && (ctx.maxRetries < 0 ==> run.result == Err(UnexpectedError))
  {
    LoopMeetsSpec(ctx, net);
  }

  /** The two package lists of retryable statuses agree: every extra status
      of the npm list is already covered by `status >= 500`. */
  lemma ShouldRetryExactly(p: Package, status: Option<int>, retries: int, maxRetries: int)
    ensures ShouldRetry(p, status, retries, maxRetries) <==>
      (retries < maxRetries && status.Some?
       && (status.value == 408 || status.value == 409 || status.value == 429 || status.value >= 500))
  {
  }

  /** In the npm build only a plain APIError is retried, and only 408 and
      409 responses produce one that `shouldRetry` accepts: 429 and 5xx
      responses become RateLimitError and InternalServerError, which are not
      APIError instances. */
  lemma NpmRetriesOnly408And409(lib: Lib, call: Call, maxRetries: int, resp: Response, retries: nat)
    ensures var ctx := Ctx(Npm, lib, NpmIsApi, call, maxRetries);
      var a := Attempt(Npm, lib, Responded(resp));
      (a.Err? && Retries(ctx, a.error, retries)) <==>
        ((resp.status == 408 || resp.status == 409) && retries < maxRetries
         && !ErrorBody(lib, resp).JNull?)
  {
    var ctx := Ctx(Npm, lib, NpmIsApi, call, maxRetries);
    var a := Attempt(Npm, lib, Responded(resp));
    if a.Err? && a.error.Sdk? {
      OnlyApiIsApiError(a.error.err.kind);
    }
  }

  /** With a fetch that never rejects with an SDK error (the platform fetch
      rejects with TypeError or AbortError), every retried npm attempt was a
      408 or a 409 response. */
  lemma NpmRetriedAttempts(lib: Lib, call: Call, maxRetries: int, net: Network)
    requires forall k :: net(k).Rejected? ==> !net(k).thrown.Sdk?
    ensures var ctx := Ctx(Npm, lib, NpmIsApi, call, maxRetries);
      var run := RetryLoop(ctx, net, 0);
      forall j :: 0 <= j < |run.calls| - 1 ==>
        net(j).Responded? && (net(j).response.status == 408 || net(j).response.status == 409)
  {
    var ctx := Ctx(Npm, lib, NpmIsApi, call, maxRetries);
    LoopMeetsSpec(ctx, net);
    var run := RetryLoop(ctx, net, 0);
    forall j | 0 <= j < |run.calls| - 1
      ensures net(j).Responded? && (net(j).response.status == 408 || net(j).response.status == 409)
    {
      assert AttemptRetried(ctx, net, j);
      if net(j).Responded? {
        NpmRetriesOnly408And409(lib, call, maxRetries, net(j).response, j);
      }
    }
  }

  /** A timeout is never retried: an AbortError on attempt `j` ends the loop
      there with an APIConnectionTimeoutError. */
  lemma AbortEndsLoop(ctx: Ctx, net: Network, j: nat)
    requires net(j).Rejected? && IsAbort(net(j).thrown)
    ensures !AttemptRetried(ctx, net, j)
    ensures forall result :: Decides(ctx, net, j, result) <==>
      result == Err(Sdk(NewConnection(true, Some("Request timed out"))))
  {
  }

  /** Whatever fails on the attempt numbered `maxRetries`, except a timeout,
      is reported as APIConnectionError('Max retries exceeded'). */
  lemma LastAttemptReportsMaxRetries(ctx: Ctx, net: Network)
    requires ctx.maxRetries >= 0
    ensures var run := RetryLoop(ctx, net, 0);
      var a := Attempt(ctx.p, ctx.lib, net(ctx.maxRetries));
      |run.calls| == ctx.maxRetries + 1 && a.Err? && !IsAbort(a.error) ==>
        run.result == Err(Sdk(NewConnection(false, Some("Max retries exceeded"))))
  {
    LoopMeetsSpec(ctx, net);
  }

  /** Hence with `maxRetries: 0` a 401 response does not surface as an
      AuthenticationError: the single attempt is also the last one. */
  lemma ZeroBudgetMasksAuthentication(lib: Lib, call: Call, net: Network)
    requires net(0).Responded? && net(0).response.status == 401
    requires !ErrorBody(lib, net(0).response).JNull?
    ensures var run := RetryLoop(Ctx(Npm, lib, NpmIsApi, call, 0), net, 0);
      run.calls == [call]
      && run.result == Err(Sdk(NewConnection(false, Some("Max retries exceeded"))))
  {
    var ctx := Ctx(Npm, lib, NpmIsApi, call, 0);
    LoopMeetsSpec(ctx, net);
    var run := RetryLoop(ctx, net, 0);
    assert |run.calls| == 1;
    assert run.calls[0] == call;
  }

  /** With the default budget of two retries, the same 401 is rethrown
      unchanged on the first attempt. */
  lemma DefaultBudgetKeepsAuthentication(lib: Lib, call: Call, net: Network)
    requires net(0).Responded? && net(0).response.status == 401
    requires !ErrorBody(lib, net(0).response).JNull?
    ensures var run := RetryLoop(Ctx(Npm, lib, NpmIsApi, call, 2), net, 0);
      |run.calls| == 1 && run.result.Err? && run.result.error.Sdk?
      && run.result.error.err.kind == Authentication && run.result.error.err.status == Some(401)
  {
    var ctx := Ctx(Npm, lib, NpmIsApi, call, 2);
    LoopMeetsSpec(ctx, net);
    OnlyApiIsApiError(Authentication);
  }

  /** 2^k grows past 8 from k = 3 on. */
  lemma {:induction false} Pow2AtLeast8(k: nat)
    requires k >= 3
    ensures Pow2(k) >= 8
  {
    if k > 3 {
      Pow2AtLeast8(k - 1);
    }
  }

  /** The sleeps between attempts are 2 s, 4 s, then 8 s every time after. */
  lemma BackoffSchedule(k: nat)
    requires k >= 1
    ensures Backoff(k) == if k == 1 then 2000 else if k == 2 then 4000 else 8000
  {
    if k >= 3 {
      Pow2AtLeast8(k);
    }
  }

  /** A request id is attached exactly to object (and array) payloads when
      the header is non-empty, and reading `_request_id` back then yields it. */
  lemma AttachRequestIdRead(v: Json, header: Option<string>)
    ensures var p := AttachRequestId(v, header);
      p.body == v
      && (p.requestId.Some? <==> Present(header) && IsObject(v))
      && (Present(header) && IsObject(v) ==> ReadRequestId(p) == Some(JStr(header.value)))
      && (!Present(header) || !IsObject(v) ==> ReadRequestId(p) == Chain(Some(v), Name("_request_id")))
  {
  }

  /** A successful result came from a 2xx response. */
  lemma SuccessIsOk(ctx: Ctx, net: Network)
    ensures var run := RetryLoop(ctx, net, 0);
      run.result.Ok? ==>
        (IsOk(run.result.value.response) && |run.calls| >= 1
         && net(|run.calls| - 1) == Responded(run.result.value.response))
  {
    LoopMeetsSpec(ctx, net);
  }
  /** The message of a mapped error, for statuses without a fixed one:
      `data.message || data.error || data.detail || \`HTTP ${status}\``,
      where the JSR build stops before `detail`. */
  lemma ErrorMessageFields(p: Package, lib: Lib, resp: Response, data: Json)
    requires !data.JNull? && FixedMessage(p, resp.status).None?
    ensures var r := CreateError(p, lib, resp, data);
      var m := Prop(data, Name("message"));
      var e := Prop(data, Name("error"));
      var d := Prop(data, Name("detail"));
      && r.Ok?
      && (TruthyOpt(m) ==> r.value.message == JsString(lib, m.value))
      && (!TruthyOpt(m) && TruthyOpt(e) ==> r.value.message == JsString(lib, e.value))
      && (p == Npm && !TruthyOpt(m) && !TruthyOpt(e) && TruthyOpt(d) ==> r.value.message == JsString(lib, d.value))
      && (!TruthyOpt(m) && !TruthyOpt(e) && (p == Jsr || !TruthyOpt(d)) ==>
            r.value.message == "HTTP " + IntToString(resp.status))
  {
    var fields := MessageFields(p);
    var found := FirstTruthy(data, fields);
    assert fields[0] == "message" && fields[1] == "error";
    assert p == Npm ==> fields[2] == "detail";
    if !TruthyOpt(Prop(data, Name("message"))) {
      assert FirstTruthy(data, fields) == FirstTruthy(data, fields[1..]);
      if !TruthyOpt(Prop(data, Name("error"))) {
        assert FirstTruthy(data, fields[1..]) == FirstTruthy(data, fields[2..]);
      }
    }
  }

  /** A body that is not JSON is replaced by `{message: statusText}`: the
      status text becomes the message when it is non-empty, and
      `HTTP <status>` otherwise. */
  lemma UnparsedBodyUsesStatusText(p: Package, lib: Lib, resp: Response)
    requires JsonOf(lib, resp).Err? && FixedMessage(p, resp.status).None?
    ensures var r := CreateError(p, lib, resp, ErrorBody(lib, resp));
      && r.Ok?
      && (resp.statusText != "" ==> r.value.message == resp.statusText)
      && (resp.statusText == "" ==> r.value.message == "HTTP " + IntToString(resp.status))
  {
  }
}

=== FILE: sse.dfy ===
/** The server-sent-events decoder `parseSSEStream` of src/api/chat.ts and
    jsr/api/chat.ts (identical in both packages), following the `data:` field
    of section 9.2 of the WHATWG HTML Living Standard in the reduced form the
    SDK implements: one JSON event per `data: ` line, blank lines and the
    `data: [DONE]` sentinel skipped, malformed JSON dropped, other lines
    ignored. The body arrives as already-decoded text chunks. */
module Sse {
  import opened Common
  import opened Js
  import opened Errors

  const DataPrefix: string := "data: "
  const DoneLine: string := "data: [DONE]"
  const NoBodyMessage: string := "No response body for streaming"

  /** The event one complete line yields, if any. */
  function LineEvent(lib: Lib, line: string): (r: Option<Json>)
    ensures r.Some? <==>
      var t := Trim(line);
      t != "" && t != DoneLine && StartsWith(t, DataPrefix) && lib.parse(t[|DataPrefix|..]).Ok?
    ensures r.Some? ==> r.value == lib.parse(Trim(line)[|DataPrefix|..]).value
  {
    var t := Trim(line);
    if t == "" || t == DoneLine then None
    else if StartsWith(t, DataPrefix) then
      match lib.parse(t[|DataPrefix|..])
      case Ok(v) => Some(v)
      case Err(_) => None
    else None
  }

  /** The events of a sequence of complete lines, in order. */
  function Events(lib: Lib, lines: seq<string>): seq<Json> {
    if |lines| == 0 then []
    else
      var e := LineEvent(lib, lines[0]);
      (if e.Some? then [e.value] else []) + Events(lib, lines[1..])
  }

  /** Events of consecutive blocks of lines concatenate. */
  lemma {:induction false} EventsAppend(lib: Lib, a: seq<string>, b: seq<string>)
    ensures Events(lib, a + b) == Events(lib, a) + Events(lib, b)
  {
    if |a| > 0 {
      assert (a + b)[1..] == a[1..] + b;
      EventsAppend(lib, a[1..], b);
    } else {
      assert a + b == b;
    }
  }

  /** The decoder's state between reads: the unterminated tail and the
      events yielded so far. */
  datatype State = State(buffer: string, events: seq<Json>)

  /** One `reader.read()`: append the chunk, split on newlines, keep the last
      piece (`lines.pop() || ''`), and process every complete line. */
  function Feed(lib: Lib, st: State, chunk: string): State {
    var lines := SplitLines(st.buffer + chunk);
    State(lines[|lines| - 1], st.events + Events(lib, lines[..|lines| - 1]))
  }

  /** The decoder after reading every chunk. */
  function DecodeChunks(lib: Lib, chunks: seq<string>): State {
    if |chunks| == 0 then State("", [])
    else Feed(lib, DecodeChunks(lib, chunks[..|chunks| - 1]), chunks[|chunks| - 1])
  }

  /** The complete lines of a text and its unterminated tail. */
  function CompleteLines(text: string): seq<string> {
    var lines := SplitLines(text);
    lines[..|lines| - 1]
  }

  function Tail(text: string): string {
    var lines := SplitLines(text);
    lines[|lines| - 1]
  }

  /** Gluing onto several pieces only touches the last one. */
  lemma GlueLast(l: seq<string>, m: seq<string>)
    requires |l| >= 1 && |m| >= 1
    ensures Glue(l, m) == l[..|l| - 1] + Glue([l[|l| - 1]], m)
  {
    assert [l[|l| - 1]][..0] == [];
  }

  /** A piece of text without a newline. */
  predicate IsLine(s: string) {
    forall j :: 0 <= j < |s| ==> s[j] != '\n'
  }

  /** The unterminated tail of a text holds no newline. */
  lemma TailHasNoNewline(text: string)
    ensures IsLine(Tail(text))
  {
    SplitLinesNoNewline(text);
  }

  /** The unterminated tail of a text followed by a chunk splits as the
      chunk's pieces with the tail glued to the first. */
  lemma TailAppend(text: string, chunk: string)
    ensures SplitLines(Tail(text) + chunk) == Glue([Tail(text)], SplitLines(chunk))
  {
    TailHasNoNewline(text);
    SplitLinesOfLine(Tail(text));
    SplitLinesAppend(Tail(text), chunk);
  }

  /** Splitting a text followed by a chunk: the text's complete lines, then
      the pieces of its tail followed by the chunk. */
  lemma SplitAfterText(text: string, chunk: string)
    ensures SplitLines(text + chunk) == CompleteLines(text) + SplitLines(Tail(text) + chunk)
  {
    var l := SplitLines(text);
    var m := SplitLines(chunk);
    TailAppend(text, chunk);
    SplitLinesAppend(text, chunk);
    GlueLast(l, m);
  }

  /** The last piece and the events before it, for pieces `head + g`. */
  lemma LastPieceEvents(lib: Lib, head: seq<string>, g: seq<string>)
    requires |g| >= 1
    ensures var full := head + g;
      && full[|full| - 1] == g[|g| - 1]
      && Events(lib, full[..|full| - 1]) == Events(lib, head) + Events(lib, g[..|g| - 1])
  {
    var full := head + g;
    assert full[..|full| - 1] == head + g[..|g| - 1];
    EventsAppend(lib, head, g[..|g| - 1]);
  }

  /** Feeding a chunk to the state a text leaves is the same as splitting the
      longer text. */
  lemma FeedStep(lib: Lib, text: string, chunk: string)
    ensures Feed(lib, State(Tail(text), Events(lib, CompleteLines(text))), chunk)
         == State(Tail(text + chunk), Events(lib, CompleteLines(text + chunk)))
  {
    SplitAfterText(text, chunk);
    LastPieceEvents(lib, CompleteLines(text), SplitLines(Tail(text) + chunk));
  }

  /** Chunk boundaries do not matter: the decoder's state after any chunking
      is determined by the concatenated text alone. */
  lemma {:induction false} ChunkingInvariant(lib: Lib, chunks: seq<string>)
    ensures DecodeChunks(lib, chunks) == State(Tail(Concat(chunks)), Events(lib, CompleteLines(Concat(chunks))))
  {
    if |chunks| == 0 {
      assert Tail("") == "";
    } else {
      var init := chunks[..|chunks| - 1];
      ChunkingInvariant(lib, init);
      FeedStep(lib, Concat(init), chunks[|chunks| - 1]);
    }
  }

  /** Two chunkings of the same text decode to the same events. */
  lemma SameTextSameEvents(lib: Lib, c1: seq<string>, c2: seq<string>)
    requires Concat(c1) == Concat(c2)
    ensures DecodeChunks(lib, c1).events == DecodeChunks(lib, c2).events
  {
    ChunkingInvariant(lib, c1);
    ChunkingInvariant(lib, c2);
  }

  /** A final line without a newline is never processed. */
  lemma UnterminatedLineDropped(lib: Lib, chunks: seq<string>, last: string)
    requires forall j :: 0 <= j < |last| ==> last[j] != '\n'
    ensures DecodeChunks(lib, chunks + [last]).events == DecodeChunks(lib, chunks).events
  {
    var text := Concat(chunks);
    assert (chunks + [last])[..|chunks|] == chunks;
    ChunkingInvariant(lib, chunks);
    SplitLinesOfLine(last);
    FeedStep(lib, text, last);
    assert DecodeChunks(lib, chunks + [last]) == Feed(lib, DecodeChunks(lib, chunks), last);
    SplitLinesAppend(text, last);
    var l := SplitLines(text);
    var g := Glue(l, [last]);
    assert g[..|g| - 1] == l[..|l| - 1];
  }

  /** A single complete line yields exactly its own event. */
  lemma OneLine(lib: Lib, line: string)
    requires forall j :: 0 <= j < |line| ==> line[j] != '\n'
    ensures var e := LineEvent(lib, line);
      DecodeChunks(lib, [line + "\n"]) == State("", if e.Some? then [e.value] else [])
  {
    var text := line + "\n";
    ChunkingInvariant(lib, [text]);
    assert [text][..0] == [];
    assert Concat([text]) == text;
    SplitLinesOfLine(line);
    SplitLinesAppend(line, "\n");
    assert SplitLines("\n") == ["", ""] by {
      assert "\n" == ['\n'] + "";
      SplitLinesCons('\n', "");
    }
    assert line + "" == line;
    assert SplitLines(text) == [line, ""];
    assert CompleteLines(text) == [line];
    assert [line][1..] == [];
  }

  /** `data: [DONE]` is skipped, not a terminator: the lines after it are
      still decoded. */
  lemma DoneIsNotTerminator(lib: Lib, before: seq<string>, after: seq<string>)
    ensures Events(lib, before + [DoneLine] + after) == Events(lib, before) + Events(lib, after)
  {
    EventsAppend(lib, before + [DoneLine], after);
    EventsAppend(lib, before, [DoneLine]);
    DoneLineYieldsNothing(lib);
  }

  /** The sentinel line on its own yields no event. */
  lemma DoneLineYieldsNothing(lib: Lib)
    ensures LineEvent(lib, DoneLine) == None
    ensures Events(lib, [DoneLine]) == []
  {
    TrimOfTrimmed(DoneLine);
    assert [DoneLine][1..] == [];
  }

  /** `parseSSEStream(response)`: the events of the whole body, or the error
      thrown when the response has none. */
  function ParseStream(lib: Lib, body: Option<seq<string>>): (r: Result<seq<Json>, Thrown>)
    ensures r.Err? <==> body.None?
    ensures r.Err? ==> r.error == PlainError(NoBodyMessage)
    ensures r.Ok? ==> r.value == Events(lib, CompleteLines(Concat(body.value)))
  {
    if body.None? then Err(PlainError(NoBodyMessage))
    else
      ChunkingInvariant(lib, body.value);
      Ok(DecodeChunks(lib, body.value).events)
  }

  /** One more line adds its own events at the end. */
  lemma EventsSnoc(lib: Lib, lines: seq<string>, j: nat)
    requires j < |lines|
    ensures Events(lib, lines[..j + 1]) == Events(lib, lines[..j]) + Events(lib, [lines[j]])
  {
    EventsAppend(lib, lines[..j], [lines[j]]);
    assert lines[..j + 1] == lines[..j] + [lines[j]];
  }

  /** The inner `for (const line of lines)` loop of one read: each line adds
      the event it yields, if any. */
  method ProcessLines(lib: Lib, before: seq<Json>, lines: seq<string>) returns (events: seq<Json>)
    ensures events == before + Events(lib, lines)
  {
    events := before;
    var j := 0;
    while j < |lines|
      invariant 0 <= j <= |lines|
      invariant events == before + Events(lib, lines[..j])
    {
      var found := Events(lib, [lines[j]]);
      EventsSnoc(lib, lines, j);
      events := events + found;
      j := j + 1;
    }
    assert lines[..j] == lines;
  }

  /** The reader loop as the source writes it: a buffer carried across reads,
      and the complete lines of each read processed in order. */
  method ReadStream(lib: Lib, chunks: seq<string>) returns (events: seq<Json>)
    ensures events == Events(lib, CompleteLines(Concat(chunks)))
  {
    var buffer := "";
    events := [];
    var i := 0;
    while i < |chunks|
      invariant 0 <= i <= |chunks|
      invariant State(buffer, events) == DecodeChunks(lib, chunks[..i])
    {
      var lines := SplitLines(buffer + chunks[i]);
      events := ProcessLines(lib, events, lines[..|lines| - 1]);
      buffer := lines[|lines| - 1];
      assert chunks[..i + 1][..i] == chunks[..i];
      i := i + 1;
    }
    assert chunks[..i] == chunks;
    ChunkingInvariant(lib, chunks);
  }
}

=== FILE: transport.dfy ===
/** What the network can answer a single `fetch` call with. The network is
    given as a function from the call number to that call's outcome: the
    k-th call made by an operation receives `net(k)`. */
module Transport {
  import opened Common
  import opened Js
  import opened Errors

  /** An HTTP response. Header names are lower case (as the Fetch `Headers`
      object stores them); the body is the text already decoded into
      chunks, `None` when the response has no body. */
  datatype Response = Response(
    status: int,
    statusText: string,
    headers: map<string, string>,
    body: Option<seq<string>>)

  /** `response.ok`: a status in the 2xx range. */
  predicate IsOk(r: Response) {
    200 <= r.status <= 299
  }

  /** `await response.text()`. */
  function Text(r: Response): string {
    if r.body.Some? then Concat(r.body.value) else ""
  }

  /** `await response.json()`: the parsed body, or the SyntaxError thrown. */
  function JsonOf(lib: Lib, r: Response): Result<Json, Thrown> {
    match lib.parse(Text(r))
    case Ok(v) => Ok(v)
    case Err(m) => Err(JsError("SyntaxError", m))
  }

  /** `response.headers.get(name)`: `None` is `null`. */
  function Header(r: Response, name: string): Option<string> {
    if name in r.headers then Some(r.headers[name]) else None
  }

  /** A `fetch` promise either resolves to a response or rejects with a
      thrown value (an AbortError when the request's timeout fires, a
      TypeError for a network failure, anything from a caller-supplied
      fetch). */
  datatype Outcome = Responded(response: Response) | Rejected(thrown: Thrown)

  type Network = nat -> Outcome
}

=== FILE: vision_builder.dfy ===
/** The request-building half of the vision resource (src/api/vision.ts and
    jsr/api/vision.ts, which agree here): validating an analysis request,
    choosing the image source, the `||` defaults, the content parts of
    `compareImages`, the input extraction of `createResponse`, and reading
    the `[Confidence: N%]` marker back out of an answer. Nothing here
    touches the network. */
module VisionBuilder {
  import opened Common
  import opened Js
  import opened Errors
  import opened Messages

  const DefaultAnalyzePrompt: string := "Analyze this image and describe what you see in detail."
  const DefaultComparePrompt: string := "Compare these images and describe the similarities and differences."
  const DefaultDetail: string := "auto"
  const DefaultModel: string := "spec-3-turbo"
  const DefaultMaxTokens: int := 1000
  const DefaultTemperature: real := 0.7
  const DataScheme: string := "data:"
  const JpegDataPrefix: string := "data:image/jpeg;base64,"
  const FileScheme: string := "file://"
  const MissingImageMessage: string := "Must provide one of: image_url, image_base64, or file_id"
  const MissingUserMessage: string := "User message is required"
  const InputText: string := "input_text"
  const InputImage: string := "input_image"

  // ---------------------------------------------------------------------
  // Defaults through `||`
  // ---------------------------------------------------------------------

  /** `n || d` on an optional number: zero is falsy and replaced. */
  function IntOr(n: Option<int>, d: int): (r: int)
    ensures n.Some? && n.value != 0 ==> r == n.value
    ensures n.None? || n.value == 0 ==> r == d
  {
    if n.Some? && n.value != 0 then n.value else d
  }

  function RealOr(x: Option<real>, d: real): (r: real)
    ensures x.Some? && x.value != 0.0 ==> r == x.value
    ensures x.None? || x.value == 0.0 ==> r == d
  {
    if x.Some? && x.value != 0.0 then x.value else d
  }

  // ---------------------------------------------------------------------
  // Image sources
  // ---------------------------------------------------------------------

  datatype ImageSource = Url(url: string) | Base64(data: string) | FileRef(id: string)

  /** The `if (image_url) ... else if (image_base64) ... else if (file_id)`
      chain: the first truthy of the three wins. */
  function SourceOf(url: Option<string>, base64: Option<string>, fileId: Option<string>): (r: Option<ImageSource>)
    ensures r.None? <==> !Present(url) && !Present(base64) && !Present(fileId)
    ensures Present(url) ==> r == Some(Url(url.value))
    ensures !Present(url) && Present(base64) ==> r == Some(Base64(base64.value))
    ensures !Present(url) && !Present(base64) && Present(fileId) ==> r == Some(FileRef(fileId.value))
  {
    if Present(url) then Some(Url(url.value))
    else if Present(base64) then Some(Base64(base64.value))
    else if Present(fileId) then Some(FileRef(fileId.value))
    else None
  }

  /** Base64 data as a data URL: kept when it already is one, otherwise given
      the JPEG prefix. */
  function DataUrl(b64: string): (r: string)
    ensures StartsWith(r, DataScheme)
    ensures StartsWith(b64, DataScheme) ==> r == b64
    ensures !StartsWith(b64, DataScheme) ==> r == JpegDataPrefix + b64
  {
    if StartsWith(b64, DataScheme) then b64
    else
      assert (JpegDataPrefix + b64)[..|DataScheme|] == DataScheme;
      JpegDataPrefix + b64
  }

  /** Prefixing is done at most once. */
  lemma DataUrlIdempotent(b64: string)
    ensures DataUrl(DataUrl(b64)) == DataUrl(b64)
  {
  }

  /** The URL the image part carries for a source. */
  function SourceUrl(src: ImageSource): string {
    match src
    case Url(u) => u
    case Base64(b) => DataUrl(b)
    case FileRef(id) => FileScheme + id
  }

  // ---------------------------------------------------------------------
  // `analyze`: the chat request
  // ---------------------------------------------------------------------

  /** `ImageAnalysisRequest`. Numbers are optional; `None` is `undefined`. */
  datatype ImageAnalysisRequest = ImageAnalysisRequest(
    imageUrl: Option<string>,
    imageBase64: Option<string>,
    fileId: Option<string>,
    prompt: Option<string>,
    model: Option<string>,
    maxTokens: Option<int>,
    temperature: Option<real>,
    detail: Option<string>)

  /** The chat request a vision call sends: one user message whose content
      is the given parts. It carries no `stream` field. */
  datatype VisionChat = VisionChat(model: string, content: seq<Json>, maxTokens: int, temperature: real)

  function VisionChatJson(v: VisionChat): (r: Json)
    ensures r.JObj? && r.fields.Keys == {"model", "messages", "max_tokens", "temperature"}
    ensures r.fields["messages"] == JArr([MessageJson(ChatMessage(RoleUser, JArr(v.content), map[]))])
  {
    JObj(map["model" := JStr(v.model),
             "messages" := JArr([MessageJson(ChatMessage(RoleUser, JArr(v.content), map[]))]),
             "max_tokens" := JNum(v.maxTokens as real),
             "temperature" := JNum(v.temperature)])
  }

  /** The validation and the chat request of `analyze`: an error when no
      image is given, otherwise exactly a text part and one image part. */
  function BuildAnalyze(req: ImageAnalysisRequest): (r: Result<VisionChat, Thrown>)
    ensures r.Err? <==> !Present(req.imageUrl) && !Present(req.imageBase64) && !Present(req.fileId)
    ensures r.Err? ==> r.error == PlainError(MissingImageMessage)
    ensures r.Ok? ==>
      && |r.value.content| == 2
      && r.value.content[0] == TextPart(OrElse(req.prompt, DefaultAnalyzePrompt))
      && r.value.model == OrElse(req.model, DefaultModel)
      && r.value.maxTokens == IntOr(req.maxTokens, DefaultMaxTokens)
      && r.value.temperature == RealOr(req.temperature, DefaultTemperature)
    ensures r.Ok? && Present(req.imageUrl) ==>
      r.value.content[1] == ImagePart(req.imageUrl.value, OrElse(req.detail, DefaultDetail))
    ensures r.Ok? && !Present(req.imageUrl) && Present(req.imageBase64) ==>
      r.value.content[1] == ImagePart(DataUrl(req.imageBase64.value), OrElse(req.detail, DefaultDetail))
    ensures r.Ok? && !Present(req.imageUrl) && !Present(req.imageBase64) ==>
      r.value.content[1] == ImagePart(FileScheme + req.fileId.value, OrElse(req.detail, DefaultDetail))
  {
    match SourceOf(req.imageUrl, req.imageBase64, req.fileId)
    case None => Err(PlainError(MissingImageMessage))
    case Some(src) =>
      Ok(VisionChat(
        OrElse(req.model, DefaultModel),
        [TextPart(OrElse(req.prompt, DefaultAnalyzePrompt)), ImagePart(SourceUrl(src), OrElse(req.detail, DefaultDetail))],
        IntOr(req.maxTokens, DefaultMaxTokens),
        RealOr(req.temperature, DefaultTemperature)))
  }

  /** Because the defaults use `||`, explicit zero and empty values are
      replaced: a temperature of 0 cannot be requested, nor 0 tokens, nor an
      empty prompt. */
  lemma FalsyValuesReplaced(url: string)
    requires url != ""
    ensures var r := BuildAnalyze(ImageAnalysisRequest(Some(url), None, None, Some(""), Some(""), Some(0), Some(0.0), Some("")));
      && r.Ok?
      && r.value == VisionChat(DefaultModel, [TextPart(DefaultAnalyzePrompt), ImagePart(url, DefaultDetail)],
                               DefaultMaxTokens, DefaultTemperature)
  {
  }

  /** An empty string counts as missing: a request whose only source is
      `image_url: ''` is rejected, and a non-empty base64 behind an empty URL
      is used. */
  lemma EmptySourcesIgnored(b64: string)
    requires b64 != ""
    ensures BuildAnalyze(ImageAnalysisRequest(Some(""), None, None, None, None, None, None, None)).Err?
    ensures var r := BuildAnalyze(ImageAnalysisRequest(Some(""), Some(b64), Some("f"), None, None, None, None, None));
      r.Ok? && r.value.content[1] == ImagePart(DataUrl(b64), DefaultDetail)
  {
  }

  // ---------------------------------------------------------------------
  // `compareImages`
  // ---------------------------------------------------------------------

  /** One entry of the `images` argument of `compareImages`. */
  datatype ImageRef = ImageRef(url: Option<string>, base64: Option<string>, fileId: Option<string>)

  function RefSource(img: ImageRef): Option<ImageSource> {
    SourceOf(img.url, img.base64, img.fileId)
  }

  /** The image parts, in order, of the images that have a source. */
  function ImageParts(images: seq<ImageRef>, detail: string): (r: seq<Json>)
    ensures |r| <= |images|
  {
    if |images| == 0 then []
    else
      var last := images[|images| - 1];
      var src := RefSource(last);
      ImageParts(images[..|images| - 1], detail) + (if src.Some? then [ImagePart(SourceUrl(src.value), detail)] else [])
  }

  /** The parts of consecutive image lists concatenate. */
  lemma {:induction false} ImagePartsAppend(a: seq<ImageRef>, b: seq<ImageRef>, detail: string)
    ensures ImageParts(a + b, detail) == ImageParts(a, detail) + ImageParts(b, detail)
  {
    if |b| == 0 {
      assert a + b == a;
    } else {
      assert (a + b)[..|a + b| - 1] == a + b[..|b| - 1];
      ImagePartsAppend(a, b[..|b| - 1], detail);
    }
  }

  /** A single image without a source has no part. */
  lemma NoSourceNoPart(img: ImageRef, detail: string)
    requires RefSource(img).None?
    ensures ImageParts([img], detail) == []
  {
    assert [img][..0] == [];
  }

  /** An image with no source contributes nothing: removing it leaves the
      parts unchanged. */
  lemma SourcelessImageSkipped(images: seq<ImageRef>, k: nat, detail: string)
    requires k < |images| && RefSource(images[k]).None?
    ensures ImageParts(images, detail) == ImageParts(images[..k] + images[k + 1..], detail)
  {
    var pre := images[..k];
    var post := images[k + 1..];
    var one := [images[k]];
    assert images == pre + one + post;
    ImagePartsAppend(pre + one, post, detail);
    ImagePartsAppend(pre, one, detail);
    ImagePartsAppend(pre, post, detail);
    NoSourceNoPart(images[k], detail);
    assert ImageParts(pre + one, detail) == ImageParts(pre, detail);
  }

  /** When every image has a source there is one part per image, in order. */
  lemma {:induction false} EachSourcedImageOnePart(images: seq<ImageRef>, detail: string)
    requires forall i :: 0 <= i < |images| ==> RefSource(images[i]).Some?
    ensures |ImageParts(images, detail)| == |images|
    ensures forall i :: 0 <= i < |images| ==>
      ImageParts(images, detail)[i] == ImagePart(SourceUrl(RefSource(images[i]).value), detail)
  {
    if |images| > 0 {
      EachSourcedImageOnePart(images[..|images| - 1], detail);
    }
  }

  /** The options object of `compareImages` and `batchAnalyze`. */
  datatype VisionOptions = VisionOptions(
    model: Option<string>,
    maxTokens: Option<int>,
    temperature: Option<real>,
    detail: Option<string>)

  /** The chat request of `compareImages`: the prompt first, then the parts
      of the sourced images. An empty image list is not rejected. */
  function BuildCompare(images: seq<ImageRef>, prompt: Option<string>, opts: VisionOptions): (r: VisionChat)
    ensures |r.content| >= 1 && r.content[0] == TextPart(OrElse(prompt, DefaultComparePrompt))
    ensures r.content[1..] == ImageParts(images, OrElse(opts.detail, DefaultDetail))
    ensures r.model == OrElse(opts.model, DefaultModel)
    ensures r.maxTokens == IntOr(opts.maxTokens, DefaultMaxTokens)
    ensures r.temperature == RealOr(opts.temperature, DefaultTemperature)
  {
    var parts := [TextPart(OrElse(prompt, DefaultComparePrompt))] + ImageParts(images, OrElse(opts.detail, DefaultDetail));
    VisionChat(OrElse(opts.model, DefaultModel), parts,
               IntOr(opts.maxTokens, DefaultMaxTokens), RealOr(opts.temperature, DefaultTemperature))
  }

  /** The `for (const image of images)` loop that pushes the parts. */
  method CompareContent(images: seq<ImageRef>, prompt: Option<string>, detail: Option<string>) returns (content: seq<Json>)
    ensures content == [TextPart(OrElse(prompt, DefaultComparePrompt))] + ImageParts(images, OrElse(detail, DefaultDetail))
  {
    var d := OrElse(detail, DefaultDetail);
    content := [TextPart(OrElse(prompt, DefaultComparePrompt))];
    var i := 0;
    while i < |images|
      invariant 0 <= i <= |images|
      invariant content == [TextPart(OrElse(prompt, DefaultComparePrompt))] + ImageParts(images[..i], d)
    {
      assert images[..i + 1][..i] == images[..i];
      var src := RefSource(images[i]);
      if src.Some? {
        content := content + [ImagePart(SourceUrl(src.value), d)];
      }
      i := i + 1;
    }
    assert images[..i] == images;
  }

  // ---------------------------------------------------------------------
  // `createResponse`: input extraction
  // ---------------------------------------------------------------------

  /** One content part of an input message: `type`, and the optional
      `text`, `image_url` and `file_id`. */
  datatype InputPart = InputPart(kind: string, text: Option<string>, imageUrl: Option<string>, fileId: Option<string>)

  datatype InputMessage = InputMessage(role: string, content: seq<InputPart>)

  /** The parameters of `createResponse`. */
  datatype ResponseParams = ResponseParams(
    model: string,
    input: seq<InputMessage>,
    maxTokens: Option<int>,
    temperature: Option<real>)

  /** `params.input.find(msg => msg.role === 'user')`, as an index. */
  function FirstUser(input: seq<InputMessage>): (r: Option<nat>)
    ensures r.None? <==> forall i :: 0 <= i < |input| ==> input[i].role != RoleUser
    ensures r.Some? ==> r.value < |input| && input[r.value].role == RoleUser
    ensures r.Some? ==> forall i :: 0 <= i < r.value ==> input[i].role != RoleUser
  {
    if |input| == 0 then None
    else if input[0].role == RoleUser then Some(0)
    else
      var rest := FirstUser(input[1..]);
      if rest.None? then None else Some(rest.value + 1)
  }

  predicate IsTextInput(part: InputPart) {
    part.kind == InputText && Present(part.text)
  }

  /** The image part writes `image_url` (a URL not starting with `data:`),
      `image_base64` (a `data:` URL) or `file_id` (no truthy URL). */
  predicate SetsUrl(part: InputPart) {
    part.kind == InputImage && Present(part.imageUrl) && !StartsWith(part.imageUrl.value, DataScheme)
  }

  predicate SetsBase64(part: InputPart) {
    part.kind == InputImage && Present(part.imageUrl) && StartsWith(part.imageUrl.value, DataScheme)
  }

  predicate SetsFile(part: InputPart) {
    part.kind == InputImage && !Present(part.imageUrl) && Present(part.fileId)
  }

  function UrlValue(part: InputPart): string {
    part.imageUrl.GetOr("")
  }

  function FileValue(part: InputPart): string {
    part.fileId.GetOr("")
  }

  /** The value a field holds after the loop: the one written by the last
      part that writes it, or nothing if no part does. */
  function LastWritten(parts: seq<InputPart>, writes: InputPart -> bool, value: InputPart -> string): (r: Option<string>)
    ensures r.None? <==> forall i :: 0 <= i < |parts| ==> !writes(parts[i])
    ensures r.Some? ==> exists i :: 0 <= i < |parts| && writes(parts[i]) && r.value == value(parts[i])
                                   && forall j :: i < j < |parts| ==> !writes(parts[j])
  {
    if |parts| == 0 then None
    else
      var last := parts[|parts| - 1];
      if writes(last) then Some(value(last))
      else
        var r := LastWritten(parts[..|parts| - 1], writes, value);
        assert forall i :: 0 <= i < |parts| - 1 ==> parts[..|parts| - 1][i] == parts[i];
        r
  }

  /** The text accumulated by `prompt += content.text + ' '`. */
  function Accumulated(parts: seq<InputPart>): (r: string)
    ensures r == "" <==> forall i :: 0 <= i < |parts| ==> !IsTextInput(parts[i])
  {
    if |parts| == 0 then ""
    else
      var last := parts[|parts| - 1];
      var init := Accumulated(parts[..|parts| - 1]);
      assert forall i :: 0 <= i < |parts| - 1 ==> parts[..|parts| - 1][i] == parts[i];
      if IsTextInput(last) then init + last.text.value + " " else init
  }

  /** What the extraction loop leaves behind. */
  datatype Extracted = Extracted(prompt: string, imageUrl: Option<string>, imageBase64: Option<string>, fileId: Option<string>)

  function Extract(parts: seq<InputPart>): Extracted {
    Extracted(Accumulated(parts), LastWritten(parts, SetsUrl, UrlValue),
              LastWritten(parts, SetsBase64, UrlValue), LastWritten(parts, SetsFile, FileValue))
  }

  /** The extraction loop as the source writes it, one pass over the parts
      updating all four variables. */
  method ExtractLoop(parts: seq<InputPart>) returns (e: Extracted)
    ensures e == Extract(parts)
  {
    var prompt := "";
    var url: Option<string> := None;
    var base64: Option<string> := None;
    var fileId: Option<string> := None;
    var i := 0;
    while i < |parts|
      invariant 0 <= i <= |parts|
      invariant Extracted(prompt, url, base64, fileId) == Extract(parts[..i])
    {
      var part := parts[i];
      assert parts[..i + 1][..i] == parts[..i];
      if part.kind == InputText && Present(part.text) {
        prompt := prompt + part.text.value + " ";
      } else if part.kind == InputImage {
        if Present(part.imageUrl) {
          if StartsWith(part.imageUrl.value, DataScheme) {
            base64 := part.imageUrl;
          } else {
            url := part.imageUrl;
          }
        } else if Present(part.fileId) {
          fileId := part.fileId;
        }
      }
      i := i + 1;
    }
    assert parts[..i] == parts;
    e := Extracted(prompt, url, base64, fileId);
  }

  /** The analysis request `createResponse` hands to `analyze`, or the error
      for an input without a user message. Only the first user message is
      read; `detail` is not passed. */
  function BuildResponseRequest(params: ResponseParams): (r: Result<ImageAnalysisRequest, Thrown>)
    ensures r.Err? <==> forall i :: 0 <= i < |params.input| ==> params.input[i].role != RoleUser
    ensures r.Err? ==> r.error == PlainError(MissingUserMessage)
    ensures r.Ok? ==>
      var parts := params.input[FirstUser(params.input).value].content;
      && r.value.prompt == Some(Trim(Accumulated(parts)))
      && r.value.imageUrl == LastWritten(parts, SetsUrl, UrlValue)
      && r.value.imageBase64 == LastWritten(parts, SetsBase64, UrlValue)
      && r.value.fileId == LastWritten(parts, SetsFile, FileValue)
      && r.value.model == Some(params.model)
      && r.value.maxTokens == params.maxTokens && r.value.temperature == params.temperature
      && r.value.detail == None
  {
    match FirstUser(params.input)
    case None => Err(PlainError(MissingUserMessage))
    case Some(i) =>
      var e := Extract(params.input[i].content);
      Ok(ImageAnalysisRequest(e.imageUrl, e.imageBase64, e.fileId, Some(Trim(e.prompt)),
                              Some(params.model), params.maxTokens, params.temperature, None))
  }

  /** A first user message without text parts leaves the prompt empty, so
      `analyze` falls back to its default prompt. */
  lemma NoTextGivesDefaultPrompt(params: ResponseParams, u: nat)
    requires u < |params.input| && params.input[u].role == RoleUser
    requires forall i :: 0 <= i < u ==> params.input[i].role != RoleUser
    requires forall i :: 0 <= i < |params.input[u].content| ==> !IsTextInput(params.input[u].content[i])
    ensures BuildResponseRequest(params).Ok?
    ensures BuildResponseRequest(params).value.prompt == Some("")
    ensures var req := BuildResponseRequest(params).value;
      BuildAnalyze(req).Ok? ==> BuildAnalyze(req).value.content[0] == TextPart(DefaultAnalyzePrompt)
  {
    assert FirstUser(params.input) == Some(u);
    assert Accumulated(params.input[u].content) == "";
    TrimOfTrimmed("");
  }

  /** A `data:` URL in an image part is sent as base64 data, and so keeps
      its own text (no JPEG prefix is added). */
  lemma DataUrlPartKept(model: string, u: string)
    requires StartsWith(u, DataScheme)
    ensures var params := ResponseParams(model, [InputMessage(RoleUser, [InputPart(InputImage, None, Some(u), None)])], None, None);
      var req := BuildResponseRequest(params);
      && req.Ok? && BuildAnalyze(req.value).Ok?
      && BuildAnalyze(req.value).value.content[1] == ImagePart(u, DefaultDetail)
  {
    var part := InputPart(InputImage, None, Some(u), None);
    assert SetsBase64(part) && !SetsUrl(part);
    assert [part][..0] == [];
  }

  // ---------------------------------------------------------------------
  // `analyzeWithConfidence`: the marker `[Confidence: N%]`
  // ---------------------------------------------------------------------

  const ConfidenceInstruction: string :=
    " Please also provide a confidence score (0-100) for your analysis at the end in the format: [Confidence: XX%]"
  const ConfidenceOpen: string := "[Confidence:"

  /** The prompt `analyzeWithConfidence` sends. */
  function ConfidencePrompt(prompt: Option<string>): (r: string)
    ensures r == OrElse(prompt, "Analyze this image") + ConfidenceInstruction
    ensures |r| > |ConfidenceInstruction| && r[|r| - |ConfidenceInstruction|..] == ConfidenceInstruction
  {
    OrElse(prompt, "Analyze this image") + ConfidenceInstruction
  }

  /** The end of the run of `\s` characters starting at `j`. */
  function SkipSpaces(s: string, j: nat): (k: nat)
    requires j <= |s|
    ensures j <= k <= |s|
    decreases |s| - j
  {
    if j < |s| && IsJsSpace(s[j]) then SkipSpaces(s, j + 1) else j
  }

  /** The end of the run of `\d` characters starting at `j`. */
  function SkipDigits(s: string, j: nat): (k: nat)
    requires j <= |s|
    ensures j <= k <= |s|
    decreases |s| - j
  {
    if j < |s| && IsDigit(s[j]) then SkipDigits(s, j + 1) else j
  }

  /** Everything `SkipDigits` passes over is a digit. */
  lemma {:induction false} SkipDigitsAllDigits(s: string, j: nat)
    requires j <= |s|
    ensures forall q :: j <= q < SkipDigits(s, j) ==> IsDigit(s[q])
    decreases |s| - j
  {
    if j < |s| && IsDigit(s[j]) {
      SkipDigitsAllDigits(s, j + 1);
    }
  }

  /** The run `SkipDigits` passes over, as a slice, is all digits. */
  lemma DigitRun(s: string, j: nat)
    requires j <= |s|
    ensures forall q :: 0 <= q < |s[j..SkipDigits(s, j)]| ==> IsDigit(s[j..SkipDigits(s, j)][q])
  {
    SkipDigitsAllDigits(s, j);
    var k := SkipDigits(s, j);
    assert forall q :: 0 <= q < k - j ==> s[j..k][q] == s[j + q];
  }

  /** `/\[Confidence:\s*(\d+)%\]/` matches at position `i`. Spaces and digits
      are disjoint, so the greedy match is the only one. */
  predicate MatchAt(s: string, i: nat) {
    && i + |ConfidenceOpen| <= |s|
    && s[i..i + |ConfidenceOpen|] == ConfidenceOpen
    && var j := SkipSpaces(s, i + |ConfidenceOpen|);
       var k := SkipDigits(s, j);
       j < k && k + 2 <= |s| && s[k] == '%' && s[k + 1] == ']'
  }

  /** The leftmost match at or after `i`. */
  function FirstMatch(s: string, i: nat): (r: Option<nat>)
    ensures r.None? <==> forall q :: i <= q < |s| ==> !MatchAt(s, q)
    ensures r.Some? ==> i <= r.value < |s| && MatchAt(s, r.value)
    ensures r.Some? ==> forall q :: i <= q < r.value ==> !MatchAt(s, q)
    decreases |s| - i
  {
    if i >= |s| then None
    else if MatchAt(s, i) then Some(i)
    else FirstMatch(s, i + 1)
  }

  /** The answer with its confidence score, if it carried one. */
  datatype Scored = Scored(analysis: string, confidence: Option<nat>)

  /** `s` with the characters from `i` up to `e` removed. */
  function Without(s: string, i: nat, e: nat): (r: string)
    requires i <= e <= |s|
    ensures |r| == |s| - (e - i)
  {
    s[..i] + s[e..]
  }

  /** The score and the cleaned text for the match at `i`. */
  function ExtractFrom(s: string, i: nat): Scored
    requires MatchAt(s, i)
  {
    var j := SkipSpaces(s, i + |ConfidenceOpen|);
    var k := SkipDigits(s, j);
    DigitRun(s, j);
    Scored(Trim(Without(s, i, k + 2)), Some(ParseDigits(s[j..k])))
  }

  /** `match` for the score, `replace` of the first marker, then `trim`. */
  function ExtractConfidence(s: string): (r: Scored)
    ensures r.confidence.None? <==> forall q :: 0 <= q < |s| ==> !MatchAt(s, q)
    ensures r.confidence.None? ==> r.analysis == Trim(s)
  {
    match FirstMatch(s, 0)
    case None => Scored(Trim(s), None)
    case Some(i) => ExtractFrom(s, i)
  }

  /** The marker the prompt asks for, with a score rendered in decimal. */
  function Marker(n: nat): string {
    "[Confidence: " + NatToString(n) + "%]"
  }

  /** Skipping a block of digits followed by a non-digit ends right after
      the block. */
  lemma {:induction false} SkipDigitsOver(s: string, j: nat, len: nat)
    requires j + len < |s|
    requires forall q :: j <= q < j + len ==> IsDigit(s[q])
    requires !IsDigit(s[j + len])
    ensures SkipDigits(s, j) == j + len
    decreases len
  {
    if len > 0 {
      SkipDigitsOver(s, j + 1, len - 1);
    }
  }

  /** Every match starts with the bracket. */
  lemma MatchStartsWithBracket(s: string, i: nat)
    requires MatchAt(s, i)
    ensures i < |s| && s[i] == '['
  {
    assert s[i..i + |ConfidenceOpen|][0] == s[i];
  }

  /** No match starts at a position that is not a bracket. */
  lemma NoMatchBefore(s: string, m: nat)
    requires m <= |s|
    requires forall q :: 0 <= q < m ==> s[q] != '['
    ensures forall q :: 0 <= q < m ==> !MatchAt(s, q)
  {
    forall q | 0 <= q < m
      ensures !MatchAt(s, q)
    {
      if MatchAt(s, q) {
        MatchStartsWithBracket(s, q);
      }
    }
  }

  /** The layout of the marker: the opening, one space, the digits, then
      `%]`. */
  lemma MarkerShape(n: nat)
    ensures var d := NatToString(n);
      var m := Marker(n);
      && |m| == |ConfidenceOpen| + 1 + |d| + 2
      && m[..|ConfidenceOpen|] == ConfidenceOpen
      && m[|ConfidenceOpen|] == ' '
      && m[|ConfidenceOpen| + 1..|ConfidenceOpen| + 1 + |d|] == d
      && m[|ConfidenceOpen| + 1 + |d|] == '%' && m[|ConfidenceOpen| + 2 + |d|] == ']'
  {
  }

  /** The spaces before the digits of a marker held at `i`: exactly one. */
  lemma MarkerSpace(s: string, i: nat, n: nat)
    requires i + |Marker(n)| <= |s| && s[i..i + |Marker(n)|] == Marker(n)
    ensures SkipSpaces(s, i + |ConfidenceOpen|) == i + |ConfidenceOpen| + 1
  {
    var d := NatToString(n);
    var m := Marker(n);
    var o := |ConfidenceOpen|;
    MarkerShape(n);
    assert s[i + o] == m[o];
    assert s[i + o + 1] == m[o + 1] == d[0];
    assert !IsJsSpace(s[i + o + 1]);
  }

  /** A slice of the window `s[i..i + len]` is a slice of `s`. */
  lemma SliceOfWindow(s: string, i: nat, len: nat, a: nat, b: nat)
    requires i + len <= |s| && a <= b <= len
    ensures s[i + a..i + b] == s[i..i + len][a..b]
  {
    var w := s[i..i + len];
    forall q | 0 <= q < b - a
      ensures s[i + a..i + b][q] == w[a..b][q]
    {
      assert w[a..b][q] == w[a + q] == s[i + a + q];
    }
  }

  /** The opening and the closing `%]` of a marker held at `i`. */
  lemma MarkerEnds(s: string, i: nat, n: nat)
    requires i + |Marker(n)| <= |s| && s[i..i + |Marker(n)|] == Marker(n)
    ensures s[i..i + |ConfidenceOpen|] == ConfidenceOpen
    ensures var e := i + |Marker(n)|;
      s[e - 2] == '%' && s[e - 1] == ']'
  {
    var d := NatToString(n);
    var m := Marker(n);
    var o := |ConfidenceOpen|;
    MarkerShape(n);
    SliceOfWindow(s, i, |m|, 0, o);
    assert s[i + o + 1 + |d|] == m[o + 1 + |d|];
    assert s[i + o + 2 + |d|] == m[o + 2 + |d|];
  }

  /** A text holding a run of digits at `j` has digits at those positions. */
  lemma DigitsAt(s: string, j: nat, d: string)
    requires j + |d| <= |s| && s[j..j + |d|] == d
    requires forall q :: 0 <= q < |d| ==> IsDigit(d[q])
    ensures forall q :: j <= q < j + |d| ==> IsDigit(s[q])
  {
    forall q | j <= q < j + |d|
      ensures IsDigit(s[q])
    {
      assert s[q] == d[q - j];
    }
  }

  /** The digits of a marker held at `i`. */
  lemma MarkerDigits(s: string, i: nat, n: nat)
    requires i + |Marker(n)| <= |s| && s[i..i + |Marker(n)|] == Marker(n)
    ensures var j := i + |ConfidenceOpen| + 1;
      var d := NatToString(n);
      && j + |d| + 2 == i + |Marker(n)|
      && s[j..j + |d|] == d
      && forall q :: j <= q < j + |d| ==> IsDigit(s[q])
  {
    var d := NatToString(n);
    var m := Marker(n);
    var o := |ConfidenceOpen|;
    var j := i + o + 1;
    MarkerShape(n);
    SliceOfWindow(s, i, |m|, o + 1, o + 1 + |d|);
    DigitsAt(s, j, d);
  }

  /** The marker itself, found at position `i` of a text `s` that holds
      it there: it matches, its score reads back, and the match ends where
      the marker does. */
  lemma MarkerMatches(s: string, i: nat, n: nat)
    requires i + |Marker(n)| <= |s| && s[i..i + |Marker(n)|] == Marker(n)
    ensures MatchAt(s, i)
    ensures var j := SkipSpaces(s, i + |ConfidenceOpen|);
      var k := SkipDigits(s, j);
      k + 2 == i + |Marker(n)| && s[j..k] == NatToString(n)
  {
    var d := NatToString(n);
    var j := i + |ConfidenceOpen| + 1;
    MarkerSpace(s, i, n);
    MarkerEnds(s, i, n);
    MarkerDigits(s, i, n);
    SkipDigitsOver(s, j, |d|);
  }

  /** The three pieces of `a + m + b` read back by slicing. */
  lemma Pieces(a: string, m: string, b: string)
    ensures var s := a + m + b;
      && s[..|a|] == a && s[|a|..|a| + |m|] == m && s[|a| + |m|..] == b
      && forall q :: 0 <= q < |a| ==> s[q] == a[q]
  {
  }

  /** The leftmost match is the one with no match before it. */
  lemma FirstMatchIs(s: string, m: nat)
    requires MatchAt(s, m)
    requires forall q :: 0 <= q < m ==> !MatchAt(s, q)
    ensures FirstMatch(s, 0) == Some(m)
  {
  }

  /** The result when the leftmost match is at `i` and carries `n`. */
  lemma ExtractAt(s: string, i: nat, n: nat)
    requires FirstMatch(s, 0) == Some(i)
    requires var j := SkipSpaces(s, i + |ConfidenceOpen|);
      s[j..SkipDigits(s, j)] == NatToString(n)
    ensures var k := SkipDigits(s, SkipSpaces(s, i + |ConfidenceOpen|));
      ExtractConfidence(s) == Scored(Trim(Without(s, i, k + 2)), Some(n))
  {
    assert ExtractConfidence(s) == ExtractFrom(s, i);
    ExtractFromScore(s, i, n);
  }

  /** The match at `i` reads its digits back as `n`. */
  lemma ExtractFromScore(s: string, i: nat, n: nat)
    requires MatchAt(s, i)
    requires var j := SkipSpaces(s, i + |ConfidenceOpen|);
      s[j..SkipDigits(s, j)] == NatToString(n)
    ensures var k := SkipDigits(s, SkipSpaces(s, i + |ConfidenceOpen|));
      ExtractFrom(s, i) == Scored(Trim(Without(s, i, k + 2)), Some(n))
  {
    ParseNatToString(n);
  }

  /** A marker placed in the answer, with no `[` before it, is read back as
      its score and removed; the rest of the text is kept and trimmed. */
  lemma ConfidenceRoundTrip(a: string, n: nat, b: string)
    requires forall q :: 0 <= q < |a| ==> a[q] != '['
    ensures ExtractConfidence(a + Marker(n) + b) == Scored(Trim(a + b), Some(n))
  {
    var s := a + Marker(n) + b;
    var i := |a|;
    Pieces(a, Marker(n), b);
    MarkerMatches(s, i, n);
    NoMatchBefore(s, i);
    FirstMatchIs(s, i);
    ExtractAt(s, i, n);
    assert Without(s, i, i + |Marker(n)|) == a + b;
  }

  /** An answer without any `[` gives no score and is only trimmed. */
  lemma NoMarkerNoScore(s: string)
    requires forall q :: 0 <= q < |s| ==> s[q] != '['
    ensures ExtractConfidence(s) == Scored(Trim(s), None)
  {
    NoMatchBefore(s, |s|);
  }
}

=== FILE: vision_transport.dfy ===
/** The calling half of the vision resource: `makeVisionRequest` (one
    attempt in src/api/vision.ts; a failover over three endpoints with two
    attempts each in jsr/api/vision.ts), and the entry points `analyze`,
    `compareImages`, `createResponse`, `batchAnalyze` and
    `analyzeWithConfidence` built on it. The vision resource calls the
    global `fetch` directly and not the request engine, so it has its own
    headers, timeout and error wording. */
module VisionTransport {
  import opened Common
  import opened Js
  import opened Errors
  import opened Transport
  import opened ClientConfig
  import opened RequestEngine
  import opened Chat
  import opened Messages
  import opened VisionBuilder

  const DefaultVisionTimeout: int := 60000
  const FallbackEndpoint: string := "https://spec-chat.tech/api/chat/completions"
  const FailedStem: string := "Vision API request failed"
  const FailedPrefix: string := "Vision API request failed: "
  const UnknownFailure: string := "Vision API request failed: Unknown error"
  const ExhaustedMessage: string := "Vision API request failed after multiple retries"
  const AnalysisPrefix: string := "Vision analysis failed: "
  const ComparisonPrefix: string := "Image comparison failed: "
  const UnknownOccurred: string := "Unknown error occurred"
  const UnknownBatchError: string := "Unknown error"
  const NoAnalysis: string := "No analysis generated"
  const DefaultBatchDelay: int := 1000
  /** Three endpoints, two attempts each. */
  const Attempts: nat := 6
  const LastAttempt: nat := 5

  /** The arguments of one vision `fetch` call (always a POST). */
  datatype VisionCall = VisionCall(url: string, headers: map<string, string>, body: string, timeout: int)

  /** A vision operation's result together with the calls it made and the
      delays it waited, in order. */
  datatype Attempted<T> = Attempted(result: Result<T, Thrown>, calls: seq<VisionCall>, sleeps: seq<int>)

  // ---------------------------------------------------------------------
  // The call
  // ---------------------------------------------------------------------

  function CustomHeaders(opts: Option<RequestOptions>): map<string, string> {
    if opts.Some? && opts.value.headers.Some? then opts.value.headers.value else map[]
  }

  /** The bearer and JSON headers, then the caller's headers spread over
      them: a custom header of the same name wins. */
  function VisionHeaders(apiKey: string, opts: Option<RequestOptions>): (r: map<string, string>)
    ensures r.Keys == CustomHeaders(opts).Keys + {"Authorization", "Content-Type"}
    ensures forall h :: h in CustomHeaders(opts) ==> r[h] == CustomHeaders(opts)[h]
    ensures "Authorization" !in CustomHeaders(opts) ==> r["Authorization"] == "Bearer " + apiKey
    ensures "Content-Type" !in CustomHeaders(opts) ==> r["Content-Type"] == JsonContentType
  {
    map["Authorization" := "Bearer " + apiKey, "Content-Type" := JsonContentType] + CustomHeaders(opts)
  }

  /** `options?.timeout || 60000`: unlike the request engine's `??`, an
      explicit 0 is replaced. */
  function VisionTimeout(opts: Option<RequestOptions>): (r: int)
    ensures r != 0
    ensures opts.Some? && opts.value.timeout.Some? && opts.value.timeout.value != 0 ==> r == opts.value.timeout.value
    ensures opts.None? || opts.value.timeout.None? || opts.value.timeout.value == 0 ==> r == 60000
  {
    IntOr(if opts.Some? then opts.value.timeout else None, DefaultVisionTimeout)
  }

  /** Everything a vision call needs besides its URL. */
  datatype VisionCtx = VisionCtx(lib: Lib, baseURL: string, headers: map<string, string>, body: string, timeout: int)

  function MakeCtx(lib: Lib, c: Client, chat: VisionChat, opts: Option<RequestOptions>): VisionCtx {
    VisionCtx(lib, c.baseURL, VisionHeaders(c.apiKey, opts), lib.stringify(VisionChatJson(chat)), VisionTimeout(opts))
  }

  /** The endpoint of attempt `a` (attempts are numbered across the nested
      loops, `2 * endpointIndex + retry`): the client's base URL for the
      first two, the fixed host for the other four. */
  function Endpoint(baseURL: string, a: nat): string {
    if a < 2 then baseURL + CompletionsPath else FallbackEndpoint
  }

  function CallAt(ctx: VisionCtx, a: nat): VisionCall {
    VisionCall(Endpoint(ctx.baseURL, a), ctx.headers, ctx.body, ctx.timeout)
  }

  /** `HTTP ${status}: ${errorText}`. */
  function HttpMessage(resp: Response): string {
    "HTTP " + IntToString(resp.status) + ": " + Text(resp)
  }

  function HttpError(resp: Response): Thrown {
    PlainError(HttpMessage(resp))
  }

  // ---------------------------------------------------------------------
  // npm: a single attempt
  // ---------------------------------------------------------------------

  /** The `catch` of the npm build: every failure is rethrown as a plain
      `Error` with the vision prefix. */
  function WrapFailure(t: Thrown): (r: Thrown)
    ensures r.JsError? && r.name == "Error" && StartsWith(r.message, FailedPrefix)
  {
    if IsError(t) then
      assert (FailedPrefix + MessageOf(t))[..|FailedPrefix|] == FailedPrefix;
      PlainError(FailedPrefix + MessageOf(t))
    else
      assert UnknownFailure[..|FailedPrefix|] == FailedPrefix;
      PlainError(UnknownFailure)
  }

  /** The npm `makeVisionRequest` after its one `fetch`. */
  function SingleShot(lib: Lib, o: Outcome): (r: Result<Json, Thrown>)
    ensures r.Ok? <==> o.Responded? && IsOk(o.response) && JsonOf(lib, o.response).Ok?
    ensures r.Ok? ==> r.value == JsonOf(lib, o.response).value
    ensures r.Err? ==> r.error.JsError? && r.error.name == "Error" && StartsWith(r.error.message, FailedPrefix)
    ensures o.Responded? && !IsOk(o.response) ==>
      r == Err(PlainError(FailedPrefix + HttpMessage(o.response)))
  {
    match o
    case Rejected(t) => Err(WrapFailure(t))
    case Responded(resp) =>
      if !IsOk(resp) then Err(WrapFailure(HttpError(resp)))
      else
        match JsonOf(lib, resp)
        case Ok(v) => Ok(v)
        case Err(t) => Err(WrapFailure(t))
  }

  // ---------------------------------------------------------------------
  // JSR: the failover
  // ---------------------------------------------------------------------

  /** What one attempt of the failover decides: return a value, throw,
      move on at once, or wait and move on. */
  datatype Step = Return(value: Json) | Fail(error: Thrown) | Next | Pause(ms: int)

  predicate Stops(s: Step) {
    s.Return? || s.Fail?
  }

  /** The `catch` of attempt `a`: an AbortError or an error whose message
      mentions `fetch` waits before the next attempt (unless this is the
      last); on the last attempt any `Error` is rethrown with the prefix;
      otherwise the loop moves on, and a thrown non-`Error` is dropped. */
  function Caught(t: Thrown, a: nat): (r: Step)
    ensures r.Fail? <==> a == LastAttempt && IsError(t)
    ensures r.Pause? <==> a != LastAttempt && IsError(t) && (NameOf(t) == "AbortError" || Contains(MessageOf(t), "fetch"))
    ensures r.Fail? ==> r.error == PlainError(FailedPrefix + MessageOf(t))
    ensures r.Fail? ==> r.error.JsError? && StartsWith(r.error.message, FailedStem)
    ensures r.Pause? ==> r.ms == Min(1000 * Pow2(a % 2), 10000)
    ensures !r.Return?
  {
    if !IsError(t) then Next
    else if (NameOf(t) == "AbortError" || Contains(MessageOf(t), "fetch")) && a != LastAttempt then
      Pause(Min(1000 * Pow2(a % 2), 10000))
    else if a == LastAttempt then
      assert (FailedPrefix + MessageOf(t))[..|FailedStem|] == FailedStem;
      Fail(PlainError(FailedPrefix + MessageOf(t)))
    else Next
  }

  /** One attempt of the JSR failover on the outcome of its `fetch`. A 4xx
      is thrown inside the `try` and so reaches the `catch` like any other
      error; a 5xx moves on silently except on the last attempt; another
      non-ok status moves on only on the first attempt at an endpoint. */
  function FailoverStep(lib: Lib, a: nat, o: Outcome): (r: Step)
    requires a < Attempts
    ensures r.Return? <==> o.Responded? && IsOk(o.response) && JsonOf(lib, o.response).Ok?
    ensures r.Return? ==> r.value == JsonOf(lib, o.response).value
    ensures r.Fail? ==> a == LastAttempt && r.error.JsError? && StartsWith(r.error.message, FailedStem)
    ensures r.Fail? ==> r.error.JsError? && StartsWith(r.error.message, FailedPrefix)
    ensures r.Pause? ==> a < LastAttempt && r.ms == Min(1000 * Pow2(a % 2), 10000)
    ensures o.Responded? && o.response.status >= 500 && a < LastAttempt ==> r == Next
    ensures a == LastAttempt ==> (Stops(r) <==> o != Rejected(NonError))
  {
    match o
    case Rejected(t) =>
      var r := Caught(t, a);
      assert r.Fail? ==> StartsWith(r.error.message, FailedPrefix) by {
        if r.Fail? {
          assert (FailedPrefix + MessageOf(t))[..|FailedPrefix|] == FailedPrefix;
        }
      }
      r
    case Responded(resp) =>
      if IsOk(resp) then
        match JsonOf(lib, resp)
        case Ok(v) => Return(v)
        case Err(t) => Caught(t, a)
      else if 400 <= resp.status < 500 then Caught(HttpError(resp), a)
      else if resp.status >= 500 then (if a == LastAttempt then Caught(HttpError(resp), a) else Next)
      else if a % 2 == 1 then Caught(HttpError(resp), a)
      else Next
  }

  function StepAt(ctx: VisionCtx, net: Network, a: nat): Step
    requires a < Attempts
  {
    FailoverStep(ctx.lib, a, net(a))
  }

  function StepResult(s: Step): Result<Json, Thrown>
    requires Stops(s)
  {
    if s.Return? then Ok(s.value) else Err(s.error)
  }

  /** The nested `for` loops from attempt `a` on. */
  function FailoverFrom(ctx: VisionCtx, net: Network, a: nat): Attempted<Json>
    decreases Attempts - a
  {
    if a >= Attempts then Attempted(Err(PlainError(ExhaustedMessage)), [], [])
    else
      var call := CallAt(ctx, a);
      match StepAt(ctx, net, a)
      case Return(v) => Attempted(Ok(v), [call], [])
      case Fail(t) => Attempted(Err(t), [call], [])
      case Next =>
        var rest := FailoverFrom(ctx, net, a + 1);
        Attempted(rest.result, [call] + rest.calls, rest.sleeps)
      case Pause(ms) =>
        var rest := FailoverFrom(ctx, net, a + 1);
        Attempted(rest.result, [call] + rest.calls, [ms] + rest.sleeps)
  }

  /** The delays the attempts `lo` up to `hi` ask for, in order. */
  function Pauses(ctx: VisionCtx, net: Network, lo: nat, hi: nat): seq<int>
    requires hi <= Attempts
    decreases hi - lo
  {
    if lo >= hi then []
    else
      var s := StepAt(ctx, net, lo);
      (if s.Pause? then [s.ms] else []) + Pauses(ctx, net, lo + 1, hi)
  }

  /** What a failover run from attempt `a` must look like: calls to the
      attempts' endpoints in order, none of them stopping but the last,
      the delays the attempts asked for, and the result of the last step,
      or the exhaustion error when every attempt moved on. */
  predicate ValidFailoverFrom(ctx: VisionCtx, net: Network, a: nat, r: Attempted<Json>) {
    var n := |r.calls|;
    && 1 <= n <= Attempts - a
    && (forall t :: 0 <= t < n ==> r.calls[t] == CallAt(ctx, a + t))
    && (forall t :: a <= t < a + n - 1 ==> !Stops(StepAt(ctx, net, t)))
    && r.sleeps == Pauses(ctx, net, a, a + n)
    && (Stops(StepAt(ctx, net, a + n - 1)) ==> r.result == StepResult(StepAt(ctx, net, a + n - 1)))
    && (!Stops(StepAt(ctx, net, a + n - 1)) ==> a + n == Attempts && r.result == Err(PlainError(ExhaustedMessage)))
  }

  /** An attempt that stops is the last one. */
  lemma FailoverStops(ctx: VisionCtx, net: Network, a: nat)
    requires a < Attempts && Stops(StepAt(ctx, net, a))
    ensures ValidFailoverFrom(ctx, net, a, FailoverFrom(ctx, net, a))
  {
    var r := FailoverFrom(ctx, net, a);
    assert r.calls == [CallAt(ctx, a)];
    assert r.sleeps == [];
    assert Pauses(ctx, net, a + 1, a + 1) == [];
  }

  /** The last attempt moving on leaves the exhaustion error. */
  lemma FailoverRunsOut(ctx: VisionCtx, net: Network)
    requires !Stops(StepAt(ctx, net, LastAttempt))
    ensures ValidFailoverFrom(ctx, net, LastAttempt, FailoverFrom(ctx, net, LastAttempt))
  {
    var s := StepAt(ctx, net, LastAttempt);
    var r := FailoverFrom(ctx, net, LastAttempt);
    var rest := FailoverFrom(ctx, net, Attempts);
    assert rest.calls == [] && rest.sleeps == [];
    assert r.calls == [CallAt(ctx, LastAttempt)];
    assert r.result == Err(PlainError(ExhaustedMessage));
    assert Pauses(ctx, net, Attempts, Attempts) == [];
    assert !s.Pause?;
    assert r.sleeps == [];
  }

  /** An attempt that moves on prepends its call (and its delay, if any) to
      the run of the attempts after it. */
  lemma FailoverMovesOn(ctx: VisionCtx, net: Network, a: nat)
    requires a + 1 < Attempts && !Stops(StepAt(ctx, net, a))
    requires ValidFailoverFrom(ctx, net, a + 1, FailoverFrom(ctx, net, a + 1))
    ensures ValidFailoverFrom(ctx, net, a, FailoverFrom(ctx, net, a))
  {
    var s := StepAt(ctx, net, a);
    var r := FailoverFrom(ctx, net, a);
    var rest := FailoverFrom(ctx, net, a + 1);
    var n := |r.calls|;
    assert r.calls == [CallAt(ctx, a)] + rest.calls;
    assert r.sleeps == (if s.Pause? then [s.ms] else []) + rest.sleeps;
    assert r.result == rest.result;
    assert n == |rest.calls| + 1;
    assert r.sleeps == Pauses(ctx, net, a, a + n);
    forall t | 0 <= t < n
      ensures r.calls[t] == CallAt(ctx, a + t)
    {
      if t > 0 {
        assert r.calls[t] == rest.calls[t - 1];
      }
    }
    assert a + n - 1 == (a + 1) + |rest.calls| - 1;
  }

  lemma {:induction false} FailoverFromSpec(ctx: VisionCtx, net: Network, a: nat)
    requires a < Attempts
    ensures ValidFailoverFrom(ctx, net, a, FailoverFrom(ctx, net, a))
    decreases Attempts - a
  {
    if Stops(StepAt(ctx, net, a)) {
      FailoverStops(ctx, net, a);
    } else if a == LastAttempt {
      FailoverRunsOut(ctx, net);
    } else {
      FailoverFromSpec(ctx, net, a + 1);
      FailoverMovesOn(ctx, net, a);
    }
  }

  /** The JSR failover from its first attempt meets the description. */
  lemma FailoverSpec(ctx: VisionCtx, net: Network)
    ensures ValidFailoverFrom(ctx, net, 0, FailoverFrom(ctx, net, 0))
  {
    FailoverFromSpec(ctx, net, 0);
  }

  /** Only the last attempt can throw out of the loop, and only it can be
      followed by no delay for a network failure. */
  lemma OnlyLastAttemptThrows(lib: Lib, a: nat, o: Outcome)
    requires a < Attempts
    ensures FailoverStep(lib, a, o).Fail? ==> a == LastAttempt
    ensures FailoverStep(lib, a, o).Pause? ==> a < LastAttempt && FailoverStep(lib, a, o).ms in {1000, 2000}
  {
    if FailoverStep(lib, a, o).Pause? {
      if a % 2 == 1 {
        assert Pow2(a % 2) == 2 by { assert Pow2(1) == 2 * Pow2(0); }
      } else {
        assert Pow2(a % 2) == 1;
      }
    }
  }

  /** A 4xx on any attempt but the last does not end the failover, whatever
      the comment above the `throw` says: it waits when the body mentions
      `fetch`, and otherwise moves straight on. */
  lemma ClientErrorIsRetried(lib: Lib, a: nat, resp: Response)
    requires a < LastAttempt && 400 <= resp.status < 500
    ensures !Stops(FailoverStep(lib, a, Responded(resp)))
    ensures FailoverStep(lib, a, Responded(resp))
         == (if Contains(HttpMessage(resp), "fetch") then Pause(Min(1000 * Pow2(a % 2), 10000)) else Next)
  {
  }

  /** Concretely: a 404 answered by the first attempt, then a success,
      gives the success after two calls to the client's base URL. */
  lemma NotFoundThenSuccess(ctx: VisionCtx, net: Network, v: Json)
    requires net(0).Responded? && net(0).response.status == 404
    requires !Contains("HTTP 404: " + Text(net(0).response), "fetch")
    requires net(1).Responded? && IsOk(net(1).response) && JsonOf(ctx.lib, net(1).response) == Ok(v)
    ensures var r := FailoverFrom(ctx, net, 0);
      && r.result == Ok(v) && r.sleeps == []
      && r.calls == [CallAt(ctx, 0), CallAt(ctx, 1)]
      && r.calls[0].url == ctx.baseURL + CompletionsPath && r.calls[1].url == ctx.baseURL + CompletionsPath
  {
    assert IntToString(404) == "404" by {
      assert NatToString(404) == NatToString(40) + [DigitChar(4)];
      assert NatToString(40) == NatToString(4) + [DigitChar(0)];
    }
    assert HttpMessage(net(0).response) == "HTTP 404: " + Text(net(0).response);
    assert Caught(HttpError(net(0).response), 0) == Next;
    assert StepAt(ctx, net, 0) == Next;
    assert StepAt(ctx, net, 1) == Return(v);
  }

  /** No attempt in the range asks for a delay: no delays are recorded. */
  lemma {:induction false} NoPauses(ctx: VisionCtx, net: Network, lo: nat, hi: nat)
    requires hi <= Attempts
    requires forall a :: lo <= a < hi ==> !StepAt(ctx, net, a).Pause?
    ensures Pauses(ctx, net, lo, hi) == []
    decreases hi - lo
  {
    if lo < hi {
      NoPauses(ctx, net, lo + 1, hi);
    }
  }

  /** When every attempt gets a server error, all six are made, without
      delays, and the last status is reported with the prefix. */
  lemma AllServerErrors(ctx: VisionCtx, net: Network)
    requires forall a :: 0 <= a < Attempts ==> net(a).Responded? && net(a).response.status >= 500
    ensures var r := FailoverFrom(ctx, net, 0);
      var last := net(LastAttempt).response;
      && |r.calls| == Attempts && r.sleeps == []
      && r.result == Err(PlainError(FailedPrefix + HttpMessage(last)))
  {
    FailoverSpec(ctx, net);
    var r := FailoverFrom(ctx, net, 0);
    assert forall a :: 0 <= a < LastAttempt ==> StepAt(ctx, net, a) == Next;
    assert StepAt(ctx, net, LastAttempt).Fail?;
    assert |r.calls| == Attempts;
    NoPauses(ctx, net, 0, Attempts);
  }

  /** When every attempt rejects with a value that is not an `Error`, the
      loop runs out and the exhaustion error is thrown. */
  lemma AllNonErrorsExhaust(ctx: VisionCtx, net: Network)
    requires forall a :: 0 <= a < Attempts ==> net(a) == Rejected(NonError)
    ensures var r := FailoverFrom(ctx, net, 0);
      |r.calls| == Attempts && r.sleeps == [] && r.result == Err(PlainError(ExhaustedMessage))
  {
    FailoverSpec(ctx, net);
    assert forall a :: 0 <= a < Attempts ==> StepAt(ctx, net, a) == Next;
    NoPauses(ctx, net, 0, Attempts);
  }

  /** Every error the failover throws carries the vision prefix. */
  lemma FailoverErrorsPrefixed(ctx: VisionCtx, net: Network)
    ensures var r := FailoverFrom(ctx, net, 0);
      r.result.Err? ==> r.result.error.JsError? && StartsWith(r.result.error.message, FailedStem)
  {
    FailoverSpec(ctx, net);
    var r := FailoverFrom(ctx, net, 0);
    var s := StepAt(ctx, net, |r.calls| - 1);
    if r.result.Err? && !Stops(s) {
      assert ExhaustedMessage[..|FailedStem|] == FailedStem;
    }
  }

  /** A failing attempt never throws the exhaustion error: its message
      carries `FailedPrefix`, which the exhaustion message does not. */
  lemma FailIsNotExhaustion(lib: Lib, a: nat, o: Outcome)
    requires a < Attempts
    ensures FailoverStep(lib, a, o).Fail? ==> FailoverStep(lib, a, o).error != PlainError(ExhaustedMessage)
  {
    var r := FailoverStep(lib, a, o);
    if r.Fail? {
      assert ExhaustedMessage[|FailedStem|] == ' ' && FailedPrefix[|FailedStem|] == ':';
      assert !StartsWith(ExhaustedMessage, FailedPrefix);
    }
  }

  /** The exhaustion error is thrown only when all six attempts were made
      and the last one rejected with a value that is not an `Error`. */
  lemma ExhaustedOnlyOnNonError(ctx: VisionCtx, net: Network)
    ensures var r := FailoverFrom(ctx, net, 0);
      r.result == Err(PlainError(ExhaustedMessage)) ==>
        |r.calls| == Attempts && net(LastAttempt) == Rejected(NonError)
  {
    FailoverSpec(ctx, net);
    var r := FailoverFrom(ctx, net, 0);
    var last := |r.calls| - 1;
    FailIsNotExhaustion(ctx.lib, last, net(last));
    if r.result == Err(PlainError(ExhaustedMessage)) {
      assert !Stops(StepAt(ctx, net, last));
      assert last == LastAttempt;
    }
  }

  /** `makeVisionRequest(chatRequest, options)` in either build. */
  function MakeVisionRequest(p: Package, lib: Lib, c: Client, chat: VisionChat, opts: Option<RequestOptions>,
                             net: Network): (r: Attempted<Json>)
    ensures p == Npm ==> r == Attempted(SingleShot(lib, net(0)), [CallAt(MakeCtx(lib, c, chat, opts), 0)], [])
    ensures p == Jsr ==> ValidFailoverFrom(MakeCtx(lib, c, chat, opts), net, 0, r)
    ensures 1 <= |r.calls| <= Attempts
    ensures forall i :: 0 <= i < |r.calls| ==>
      r.calls[i].body == lib.stringify(VisionChatJson(chat)) && r.calls[i].timeout == VisionTimeout(opts)
  {
    var ctx := MakeCtx(lib, c, chat, opts);
    if p == Npm then Attempted(SingleShot(lib, net(0)), [CallAt(ctx, 0)], [])
    else
      FailoverSpec(ctx, net);
      FailoverFrom(ctx, net, 0)
  }

  // ---------------------------------------------------------------------
  // Reading the answer
  // ---------------------------------------------------------------------

  /** `ImageAnalysisResponse`. */
  datatype Analysis = Analysis(analysis: Json, usage: Option<Json>, requestId: Option<Json>)

  /** `response.choices?.[0]?.message?.content || 'No analysis generated'`,
      `response.usage` and `response._request_id`. With `strict`, the
      first choice is read as `choices[0]` (the JSR `compareImages`), which
      throws when `choices` is missing. */
  function ReadAnalysis(data: Json, strict: bool): (r: Result<Analysis, Thrown>)
    ensures r.Err? <==> data.JNull? || (strict && (Prop(data, Name("choices")).None? || Prop(data, Name("choices")).value.JNull?))
    ensures r.Err? ==> r.error.JsError? && r.error.name == "TypeError"
    ensures r.Ok? ==> Truthy(r.value.analysis)
    ensures r.Ok? ==>
      var content := Path(Chain(Prop(data, Name("choices")), At(0)), [Name("message"), Name("content")]);
      r.value.analysis == (if TruthyOpt(content) then content.value else JStr(NoAnalysis))
    ensures r.Ok? ==> r.value.usage == Prop(data, Name("usage")) && r.value.requestId == Prop(data, Name("_request_id"))
  {
    match Member(Some(data), Name("choices"))
    case Err(m) => Err(JsError("TypeError", m))
    case Ok(choices) =>
      var first := if strict then Member(choices, At(0)) else Ok(Chain(choices, At(0)));
      match first
      case Err(m) => Err(JsError("TypeError", m))
      case Ok(f) =>
        var content := Path(f, [Name("message"), Name("content")]);
        Ok(Analysis(if TruthyOpt(content) then content.value else JStr(NoAnalysis),
                    Prop(data, Name("usage")), Prop(data, Name("_request_id"))))
  }

  /** The `catch` of `analyze` and `compareImages`. */
  function Prefixed(prefix: string, t: Thrown): Thrown {
    PlainError(prefix + (if IsError(t) then MessageOf(t) else UnknownOccurred))
  }

  /** The request, then the answer read, with any failure in between
      rethrown under `prefix`. */
  function CallAndRead(p: Package, lib: Lib, c: Client, chat: VisionChat, opts: Option<RequestOptions>,
                       net: Network, strict: bool, prefix: string): (r: Attempted<Analysis>)
    ensures var run := MakeVisionRequest(p, lib, c, chat, opts, net);
      && r.calls == run.calls && r.sleeps == run.sleeps
      && (run.result.Err? ==> r.result == Err(Prefixed(prefix, run.result.error)))
      && (run.result.Ok? ==> r.result == (match ReadAnalysis(run.result.value, strict)
                                          case Ok(a) => Ok(a)
                                          case Err(t) => Err(Prefixed(prefix, t))))
  {
    var run := MakeVisionRequest(p, lib, c, chat, opts, net);
    var result :=
      match run.result
      case Err(t) => Err(Prefixed(prefix, t))
      case Ok(data) =>
        match ReadAnalysis(data, strict)
        case Ok(a) => Ok(a)
        case Err(t) => Err(Prefixed(prefix, t));
    Attempted(result, run.calls, run.sleeps)
  }

  // ---------------------------------------------------------------------
  // Entry points
  // ---------------------------------------------------------------------

  /** `vision.analyze(params, options)`: the validation error is thrown
      before the `try` and so without the prefix, and before any call. */
  function Analyze(p: Package, lib: Lib, c: Client, req: ImageAnalysisRequest, opts: Option<RequestOptions>,
                   net: Network): (r: Attempted<Analysis>)
    ensures BuildAnalyze(req).Err? ==> r == Attempted(Err(PlainError(MissingImageMessage)), [], [])
    ensures BuildAnalyze(req).Ok? ==>
      && 1 <= |r.calls| <= Attempts
      && (forall i :: 0 <= i < |r.calls| ==> r.calls[i].body == lib.stringify(VisionChatJson(BuildAnalyze(req).value)))
      && (r.result.Err? ==> r.result.error.JsError? && StartsWith(r.result.error.message, AnalysisPrefix))
      && (r.result.Ok? ==> Truthy(r.result.value.analysis))
    ensures BuildAnalyze(req).Ok? ==> r == CallAndRead(p, lib, c, BuildAnalyze(req).value, opts, net, false, AnalysisPrefix)
    ensures BuildAnalyze(req).Ok? ==>
      var run := MakeVisionRequest(p, lib, c, BuildAnalyze(req).value, opts, net);
      && r.calls == run.calls && r.sleeps == run.sleeps
      && (r.result.Ok? <==> run.result.Ok? && ReadAnalysis(run.result.value, false).Ok?)
      && (r.result.Ok? ==> r.result == ReadAnalysis(run.result.value, false))
  {
    match BuildAnalyze(req)
    case Err(t) => Attempted(Err(t), [], [])
    case Ok(chat) =>
      var r := CallAndRead(p, lib, c, chat, opts, net, false, AnalysisPrefix);
      assert r.result.Err? ==> r.result.error.message[..|AnalysisPrefix|] == AnalysisPrefix;
      r
  }

  /** In the npm build a failed HTTP status reaches the caller under both
      prefixes. */
  lemma NpmAnalyzeHttpFailure(lib: Lib, c: Client, req: ImageAnalysisRequest, opts: Option<RequestOptions>, net: Network)
    requires BuildAnalyze(req).Ok? && net(0).Responded? && !IsOk(net(0).response)
    ensures Analyze(Npm, lib, c, req, opts, net).result
         == Err(PlainError(AnalysisPrefix + FailedPrefix + HttpMessage(net(0).response)))
  {
    var chat := BuildAnalyze(req).value;
    var run := MakeVisionRequest(Npm, lib, c, chat, opts, net);
    assert run.result == Err(PlainError(FailedPrefix + HttpMessage(net(0).response)));
    assert AnalysisPrefix + (FailedPrefix + HttpMessage(net(0).response))
        == AnalysisPrefix + FailedPrefix + HttpMessage(net(0).response);
  }

  /** `vision.compareImages(images, prompt, options)`: no validation, no
      request options, and its own prefix. */
  function Compare(p: Package, lib: Lib, c: Client, images: seq<ImageRef>, prompt: Option<string>,
                   vopts: VisionOptions, net: Network): (r: Attempted<Analysis>)
    ensures 1 <= |r.calls| <= Attempts
    ensures forall i :: 0 <= i < |r.calls| ==>
      && r.calls[i].body == lib.stringify(VisionChatJson(BuildCompare(images, prompt, vopts)))
      && r.calls[i].timeout == DefaultVisionTimeout
    ensures r.result.Err? ==> r.result.error.JsError? && StartsWith(r.result.error.message, ComparisonPrefix)
    ensures r == CallAndRead(p, lib, c, BuildCompare(images, prompt, vopts), None, net, p == Jsr, ComparisonPrefix)
    ensures var run := MakeVisionRequest(p, lib, c, BuildCompare(images, prompt, vopts), None, net);
      && r.calls == run.calls && r.sleeps == run.sleeps
      && (r.result.Ok? <==> run.result.Ok? && ReadAnalysis(run.result.value, p == Jsr).Ok?)
      && (r.result.Ok? ==> r.result == ReadAnalysis(run.result.value, p == Jsr))
  {
    var r := CallAndRead(p, lib, c, BuildCompare(images, prompt, vopts), None, net, p == Jsr, ComparisonPrefix);
    assert r.result.Err? ==> r.result.error.message[..|ComparisonPrefix|] == ComparisonPrefix;
    r
  }

  /** The two builds part ways on an answer without `choices`: the npm
      build reports that no analysis was generated, the JSR build throws. */
  lemma MissingChoicesDiffer(data: Json)
    requires data.JObj? && "choices" !in data.fields
    ensures ReadAnalysis(data, false) == Ok(Analysis(JStr(NoAnalysis), Prop(data, Name("usage")), Prop(data, Name("_request_id"))))
    ensures ReadAnalysis(data, true) == Err(JsError("TypeError", "Cannot read properties of undefined (reading '0')"))
  {
    PathOfNone([Name("message"), Name("content")]);
    assert NatToString(0) == "0";
    assert KeyText(At(0)) == "0";
    assert "Cannot read properties of undefined (reading '" + "0" + "')"
        == "Cannot read properties of undefined (reading '0')";
  }

  /** `createResponse`'s result. */
  datatype ResponseOutput = ResponseOutput(outputText: Json, usage: Option<Json>, requestId: Option<Json>)

  /** `vision.createResponse(params, options)`: the missing user message is
      reported before any call; otherwise `analyze` runs on the extracted
      input and its analysis becomes `output_text`. */
  function CreateResponse(p: Package, lib: Lib, c: Client, params: ResponseParams, opts: Option<RequestOptions>,
                          net: Network): (r: Attempted<ResponseOutput>)
    ensures BuildResponseRequest(params).Err? ==> r == Attempted(Err(PlainError(MissingUserMessage)), [], [])
    ensures BuildResponseRequest(params).Ok? ==>
      var a := Analyze(p, lib, c, BuildResponseRequest(params).value, opts, net);
      && r.calls == a.calls && r.sleeps == a.sleeps
      && (r.result.Ok? <==> a.result.Ok?)
      && (a.result.Err? ==> r.result.error == a.result.error)
      && (a.result.Ok? ==> r.result.value == ResponseOutput(a.result.value.analysis, a.result.value.usage, a.result.value.requestId))
  {
    match BuildResponseRequest(params)
    case Err(t) => Attempted(Err(t), [], [])
    case Ok(req) =>
      var a := Analyze(p, lib, c, req, opts, net);
      var result :=
        match a.result
        case Err(t) => Err(t)
        case Ok(an) => Ok(ResponseOutput(an.analysis, an.usage, an.requestId));
      Attempted(result, a.calls, a.sleeps)
  }

  // ---------------------------------------------------------------------
  // `batchAnalyze`
  // ---------------------------------------------------------------------

  /** One entry of the `images` argument. */
  datatype BatchImage = BatchImage(imageUrl: Option<string>, imageBase64: Option<string>, fileId: Option<string>,
                                   prompt: Option<string>)

  /** The options of `batchAnalyze`. */
  datatype BatchOptions = BatchOptions(vision: VisionOptions, delay: Option<int>)

  /** One result: the analysis and usage, or an empty analysis and the
      error message. */
  datatype BatchItem = BatchItem(analysis: Json, usage: Option<Json>, error: Option<string>)

  function BatchRequest(img: BatchImage, opts: BatchOptions): ImageAnalysisRequest {
    ImageAnalysisRequest(img.imageUrl, img.imageBase64, img.fileId, img.prompt,
                         opts.vision.model, opts.vision.maxTokens, opts.vision.temperature, opts.vision.detail)
  }

  /** The `analyze` call for image `i`, which is answered by `nets(i)`; it
      is made without request options. */
  function BatchCall(p: Package, lib: Lib, c: Client, images: seq<BatchImage>, opts: BatchOptions,
                     nets: nat -> Network, i: nat): Attempted<Analysis>
    requires i < |images|
  {
    Analyze(p, lib, c, BatchRequest(images[i], opts), None, nets(i))
  }

  /** The item of one analysis result. */
  function ItemOf(res: Result<Analysis, Thrown>): (r: BatchItem)
    ensures r.error.Some? <==> res.Err?
    ensures res.Err? ==> r.analysis == JStr("") && r.usage == None
    ensures res.Err? ==> r.error == Some(if IsError(res.error) then MessageOf(res.error) else UnknownBatchError)
    ensures res.Ok? ==> r.analysis == res.value.analysis && r.usage == res.value.usage
  {
    match res
    case Ok(a) => BatchItem(a.analysis, a.usage, None)
    case Err(t) => BatchItem(JStr(""), None, Some(if IsError(t) then MessageOf(t) else UnknownBatchError))
  }

  /** Every image's `analyze` call, in order. */
  function BatchCalls(p: Package, lib: Lib, c: Client, images: seq<BatchImage>, opts: BatchOptions,
                      nets: nat -> Network): (r: seq<Attempted<Analysis>>)
    ensures |r| == |images|
    ensures forall i :: 0 <= i < |images| ==> r[i] == BatchCall(p, lib, c, images, opts, nets, i)
  {
    seq(|images|, i requires 0 <= i < |images| => BatchCall(p, lib, c, images, opts, nets, i))
  }

  /** The items and delays of the first `k` of the `results`: each item,
      after the analysis' own delays and then `delay` after a success that
      is not the last. */
  function Collect(results: seq<Attempted<Analysis>>, delay: int, k: nat): (r: (seq<BatchItem>, seq<int>))
    requires k <= |results|
    ensures |r.0| == k
  {
    if k == 0 then ([], [])
    else
      var prev := Collect(results, delay, k - 1);
      var a := results[k - 1];
      (prev.0 + [ItemOf(a.result)],
       prev.1 + a.sleeps + (if a.result.Ok? && k < |results| then [delay] else []))
  }

  /** Item `i` of the collection is the item of result `i`. */
  lemma {:induction false} CollectItems(results: seq<Attempted<Analysis>>, delay: int, k: nat)
    requires k <= |results|
    ensures forall i :: 0 <= i < k ==> Collect(results, delay, k).0[i] == ItemOf(results[i].result)
  {
    if k > 0 {
      CollectItems(results, delay, k - 1);
    }
  }

  /** Failures that did not wait themselves make a batch that never waits. */
  lemma {:induction false} CollectNoWaits(results: seq<Attempted<Analysis>>, delay: int, k: nat)
    requires k <= |results|
    requires forall i :: 0 <= i < k ==> results[i].result.Err? && results[i].sleeps == []
    ensures Collect(results, delay, k).1 == []
  {
    if k > 0 {
      CollectNoWaits(results, delay, k - 1);
    }
  }

  /** Successes that did not wait themselves are separated by `delay`. */
  lemma {:induction false} CollectWaits(results: seq<Attempted<Analysis>>, delay: int, k: nat)
    requires 1 <= k <= |results|
    requires forall i :: 0 <= i < k ==> results[i].result.Ok? && results[i].sleeps == []
    ensures var sleeps := Collect(results, delay, k).1;
      && |sleeps| == (if k == |results| then k - 1 else k)
      && forall j :: 0 <= j < |sleeps| ==> sleeps[j] == delay
  {
    if k > 1 {
      CollectWaits(results, delay, k - 1);
    }
  }

  /** `vision.batchAnalyze(images, options)`: one item per image, in order;
      a failure is recorded in its item and does not stop the batch. */
  function BatchAnalyze(p: Package, lib: Lib, c: Client, images: seq<BatchImage>, opts: BatchOptions,
                        nets: nat -> Network): (r: (seq<BatchItem>, seq<int>))
    ensures |r.0| == |images|
    ensures forall i :: 0 <= i < |images| ==>
      var a := BatchCall(p, lib, c, images, opts, nets, i);
      && (r.0[i].error.Some? <==> a.result.Err?)
      && (a.result.Err? ==> r.0[i].analysis == JStr("") && r.0[i].usage == None)
      && (a.result.Err? ==>
            r.0[i].error == Some(if IsError(a.result.error) then MessageOf(a.result.error) else UnknownBatchError))
      && (a.result.Ok? ==> r.0[i].analysis == a.result.value.analysis && Truthy(r.0[i].analysis))
      && (a.result.Ok? ==> r.0[i].usage == a.result.value.usage)
  {
    var results := BatchCalls(p, lib, c, images, opts, nets);
    CollectItems(results, IntOr(opts.delay, DefaultBatchDelay), |images|);
    Collect(results, IntOr(opts.delay, DefaultBatchDelay), |images|)
  }

  /** The loop of `batchAnalyze` over the answers, one image at a time. */
  method CollectLoop(results: seq<Attempted<Analysis>>, delay: int) returns (items: seq<BatchItem>, sleeps: seq<int>)
    ensures (items, sleeps) == Collect(results, delay, |results|)
  {
    items := [];
    sleeps := [];
    var i := 0;
    while i < |results|
      invariant 0 <= i <= |results|
      invariant (items, sleeps) == Collect(results, delay, i)
    {
      var a := results[i];
      var pause := if a.result.Ok? && i < |results| - 1 then [delay] else [];
      items := items + [ItemOf(a.result)];
      sleeps := sleeps + a.sleeps + pause;
      i := i + 1;
    }
  }

  /** The npm build's `analyze` never waits: it makes a single attempt. */
  lemma NpmAnalyzeNeverWaits(lib: Lib, c: Client, req: ImageAnalysisRequest, opts: Option<RequestOptions>, net: Network)
    ensures Analyze(Npm, lib, c, req, opts, net).sleeps == []
  {
  }

  /** In the npm build, with every image failing, the batch never waits:
      the delay is skipped after a failure. */
  lemma NpmFailingBatchNeverWaits(lib: Lib, c: Client, images: seq<BatchImage>, opts: BatchOptions, nets: nat -> Network)
    requires forall i :: 0 <= i < |images| ==> BatchCall(Npm, lib, c, images, opts, nets, i).result.Err?
    ensures BatchAnalyze(Npm, lib, c, images, opts, nets).1 == []
  {
    var results := BatchCalls(Npm, lib, c, images, opts, nets);
    forall i | 0 <= i < |images|
      ensures results[i].result.Err? && results[i].sleeps == []
    {
      NpmAnalyzeNeverWaits(lib, c, BatchRequest(images[i], opts), None, nets(i));
    }
    CollectNoWaits(results, IntOr(opts.delay, DefaultBatchDelay), |images|);
  }

  /** In the npm build, with every image succeeding, the batch waits the
      configured delay between consecutive images and not after the last. */
  lemma NpmSucceedingBatchWaits(lib: Lib, c: Client, images: seq<BatchImage>, opts: BatchOptions, nets: nat -> Network)
    requires 1 <= |images|
    requires forall i :: 0 <= i < |images| ==> BatchCall(Npm, lib, c, images, opts, nets, i).result.Ok?
    ensures var sleeps := BatchAnalyze(Npm, lib, c, images, opts, nets).1;
      && |sleeps| == |images| - 1
      && forall j :: 0 <= j < |sleeps| ==> sleeps[j] == IntOr(opts.delay, DefaultBatchDelay)
  {
    var results := BatchCalls(Npm, lib, c, images, opts, nets);
    forall i | 0 <= i < |images|
      ensures results[i].result.Ok? && results[i].sleeps == []
    {
      NpmAnalyzeNeverWaits(lib, c, BatchRequest(images[i], opts), None, nets(i));
    }
    CollectWaits(results, IntOr(opts.delay, DefaultBatchDelay), |images|);
  }

  // ---------------------------------------------------------------------
  // `analyzeWithConfidence`
  // ---------------------------------------------------------------------

  /** The analysis with the marker removed and the score read out. */
  datatype ScoredAnalysis = ScoredAnalysis(analysis: string, usage: Option<Json>, requestId: Option<Json>,
                                           confidence: Option<nat>)

  const NotAString: string := "result.analysis.match is not a function"

  /** `vision.analyzeWithConfidence(params, options)`: the prompt asks for
      the marker; the marker is read and removed from a string answer (a
      non-string answer has no `match` and throws a TypeError). */
  function AnalyzeWithConfidence(p: Package, lib: Lib, c: Client, req: ImageAnalysisRequest,
                                 opts: Option<RequestOptions>, net: Network): (r: Attempted<ScoredAnalysis>)
    ensures var a := Analyze(p, lib, c, req.(prompt := Some(ConfidencePrompt(req.prompt))), opts, net);
      && r.calls == a.calls && r.sleeps == a.sleeps
      && (a.result.Err? ==> r.result == Err(a.result.error))
      && (a.result.Ok? && a.result.value.analysis.JStr? ==>
            var sc := ExtractConfidence(a.result.value.analysis.s);
            r.result == Ok(ScoredAnalysis(sc.analysis, a.result.value.usage, a.result.value.requestId, sc.confidence)))
      && (a.result.Ok? && !a.result.value.analysis.JStr? ==> r.result == Err(JsError("TypeError", NotAString)))
  {
    var a := Analyze(p, lib, c, req.(prompt := Some(ConfidencePrompt(req.prompt))), opts, net);
    var result :=
      match a.result
      case Err(t) => Err(t)
      case Ok(an) =>
        if an.analysis.JStr? then
          var sc := ExtractConfidence(an.analysis.s);
          Ok(ScoredAnalysis(sc.analysis, an.usage, an.requestId, sc.confidence))
        else Err(JsError("TypeError", NotAString));
    Attempted(result, a.calls, a.sleeps)
  }

  /** The prompt sent always ends with the request for the marker, whatever
      prompt the caller gave. */
  lemma ConfidencePromptSent(p: Package, lib: Lib, c: Client, req: ImageAnalysisRequest,
                             opts: Option<RequestOptions>, net: Network)
    requires Present(req.imageUrl) || Present(req.imageBase64) || Present(req.fileId)
    ensures var sent := BuildAnalyze(req.(prompt := Some(ConfidencePrompt(req.prompt))));
      && sent.Ok?
      && sent.value.content[0] == TextPart(OrElse(req.prompt, "Analyze this image") + ConfidenceInstruction)
  {
  }

  /** An answer carrying the marker yields its score and loses the marker. */
  lemma ScoreReadBack(p: Package, lib: Lib, c: Client, req: ImageAnalysisRequest, opts: Option<RequestOptions>,
                      net: Network, before: string, n: nat, after: string)
    requires forall q :: 0 <= q < |before| ==> before[q] != '['
    requires var a := Analyze(p, lib, c, req.(prompt := Some(ConfidencePrompt(req.prompt))), opts, net);
      a.result.Ok? && a.result.value.analysis == JStr(before + Marker(n) + after)
    ensures var r := AnalyzeWithConfidence(p, lib, c, req, opts, net);
      r.result.Ok? && r.result.value.confidence == Some(n) && r.result.value.analysis == Trim(before + after)
  {
    ConfidenceRoundTrip(before, n, after);
  }
}
